=== FILE: README.md ===
# QCG-QuantumLauncher core, modelled in Dafny

This project models the core of QCG-QuantumLauncher, a Python framework that
launches quantum optimisation problems on several vendor back ends.

The main part is the dependency-graph task scheduler of the workflow package:
- `Task` objects hold a callable and its arguments.
- Argument slots that hold other tasks (or `SubTask` views of one component
  of a task's result) are the task's dependencies.
- `WorkflowManager` runs its tasks in waves. Each wave is the set of tasks
  whose dependencies are done. A cycle error is raised when nothing is ready
  but tasks remain.
- The model's `Run` also returns, as a ghost value, the waves it started.
  They are proved to be the pure drain `Drain` of the registered tasks: no
  task outside them changes, and a failing wave is the last one.

Around it sit self-contained pieces of the launcher:
- the pre-processing of the job-shop scheduling Hamiltonian builder (task
  flattening, pruning of impossible start times, variable numbering, machine
  grouping and the penalised variable pairs);
- the `Binary` sparse polynomial with its operators and `calculate`;
- the truth-table conversions of the Hamiltonian debugging helpers;
- the formatter and translation registries, in their current and their older
  variant;
- the base classes' `path` fallback, `set_instance`, the `output` memoising
  wrapper and `Result.from_distributions`.

One Dafny module per source file:

| file | module | source |
|---|---|---|
| wrappers.dfy | `Wrappers` | `Option` and `Result` |
| ordered_dict.dfy | `OrderedDict` | Python dicts as insertion-ordered entry lists |
| workflow.dfy | `Workflow` | quantum_launcher/workflow/workflow_manager.py |
| workflow_scenarios.dfy | `WorkflowScenarios` | concrete workflows, among them tests/workflow/test_context_manager.py |
| label_index.dfy | `LabelIndex` | the two label dictionaries of job_shop_scheduler.py |
| jobshop.dfy | `JobShop` | job_shop_scheduler.py |
| binary_keys.dfy, binary_ops.dfy, binary_calculate.dfy, binary.dfy | `BinaryKeys`, `BinaryOps`, `BinaryCalculate`, `BinaryClass` | jssp/Binary.py |
| truth_tables.dfy | `TruthTables` | quantum_launcher/hampy/debug.py |
| adapters.dfy | `Adapters` | quantum_launcher/base/adapter_structure.py |
| legacy_adapters.dfy | `LegacyAdapters` | base/adapter_structure.py |
| base.dfy | `Base` | quantum_launcher/base/base.py |

The source's state-changing code is written as Dafny classes:
- `Task` and `WorkflowManager`;
- `JobShopScheduler`;
- `Binary`;
- the registries;
- `Problem`, `Backend` and the `output` wrapper.

Their loops are methods with invariants, proved against specification
functions. Those functions carry the lemmas that state what the source
promises.

Python dicts are sequences of (key, value) entries in insertion order (module
`OrderedDict`):
- lookups take the first entry with a key;
- an assignment to a present key keeps its place, and a new key goes last;
- `Distinct` states that no key repeats, which every real dict satisfies.

The dict forms of `com_to_truth` and `func_to_truth` are the exception: they are
Dafny maps (`TruthTables.Table.Keyed`), without order. Their keys are exactly
the n-bit strings, which `product` inserts in lexicographic order, so the
order follows from the key set.

Floats are `real`. Callables passed in by users are Dafny function values
(returning a `Result` where the source lets their exceptions propagate),
or symbolic names where only composition matters (the formatter registries).

## Model

| member | source | states |
|---|---|---|
| Workflow.ArgDeps | quantum_launcher/workflow/workflow_manager.py:8-9 | the dependencies are exactly the non-literal argument slots: every one of them is kept, nothing else is, and there are at most as many as arguments |
| Workflow.ArgDepsAppend | quantum_launcher/workflow/workflow_manager.py:8-9 | the positional dependencies come before the keyword ones, each in argument order |
| Workflow.ArgDepsKeepsDuplicates | quantum_launcher/workflow/workflow_manager.py:8-9 | a task passed twice is a dependency twice: multiplicities are kept |
| Workflow.BindArgs | quantum_launcher/workflow/workflow_manager.py:18-19 | binding succeeds with each slot bound in place (a literal as itself, a task as its result, a sub-task as its owner's result at its index), or fails with the exception of the first slot that cannot be bound |
| Workflow.SubTask.constructor | quantum_launcher/workflow/workflow_manager.py:32-34 | a sub-task records its owner task and its index |
| Workflow.Task.constructor | quantum_launcher/workflow/workflow_manager.py:6-15 | a new task keeps its callable, arguments and output count, is not done and has result `None` |
| Workflow.Task.DependencyRefs | quantum_launcher/workflow/workflow_manager.py:8-9 | each dependency reads only the owners of the task, the tasks whose `done` and `result` the task depends on |
| Workflow.Task.Run | quantum_launcher/workflow/workflow_manager.py:17-21 | when binding and the callable succeed, the task is done and its result is what the callable returned; when either raises, the exception propagates and `done` and `result` are unchanged |
| Workflow.Task.Iter | quantum_launcher/workflow/workflow_manager.py:26-28 | iterating yields `num_output` fresh sub-tasks (none for a negative count) with indices 0, 1, ..., each reading this task and done exactly when it is; a `num_output` of `None` raises TypeError |
| Workflow.ReadyIffOwnersDone | quantum_launcher/workflow/workflow_manager.py:23-24 | a task is ready exactly when every task it depends on is done, a sub-task dependency counting through its owner |
| Workflow.DependencyOf | quantum_launcher/workflow/workflow_manager.py:8-9 | every owner is read through some dependency |
| Workflow.ReadyOwnerDone | quantum_launcher/workflow/workflow_manager.py:23-24 | every task a ready task depends on is done |
| Workflow.PendingOwnerBlocks | quantum_launcher/workflow/workflow_manager.py:23-24 | a task that depends on a pending task is not ready |
| Workflow.DeclaredInOrderIsAcyclic | quantum_launcher/workflow/workflow_manager.py:55-58 | tasks whose dependencies are all earlier in the list form an acyclic graph: every non-empty group of them has a task with no dependency inside the group |
| Workflow.BlockedNotReady | quantum_launcher/workflow/workflow_manager.py:72-76 | no task of a cycle of pending tasks, or of a group waiting on tasks the manager never runs, is ever ready |
| Workflow.WaveIndependent | quantum_launcher/workflow/workflow_manager.py:72-82 | no task of a wave of ready pending tasks depends on another task of the same wave, so the wave's tasks can run in any order |
| Workflow.WorkflowManager.constructor | quantum_launcher/workflow/workflow_manager.py:46-47 | a new manager has no tasks |
| Workflow.WorkflowManager.NewTask | quantum_launcher/workflow/workflow_manager.py:55-58 | `task` appends exactly one fresh pending task at the end of the list and returns it; a task built from registered tasks keeps every dependency an earlier entry of the list |
| Workflow.WorkflowManager.Run | quantum_launcher/workflow/workflow_manager.py:65-67 | `run` drains every registered task: its waves are the drain (each wave exactly the not yet run tasks whose dependencies are done, none empty); a task in no wave is untouched and every wave but the last completed; on success the waves cover every task and all are done; from fresh tasks, every done task holds what its callable returned on its dependencies' results, and an exception is either the cycle error with pending tasks left and none ready or one raised by a ready pending task of the last wave; tasks declared in order never end in the cycle error |
| Workflow.RunBlocked | quantum_launcher/workflow/workflow_manager.py:65-76 | a group of registered tasks waiting on each other or on pending tasks of another manager is never run: `run` fails and the group stays blocked |
| Workflow.WorkflowManager.ProcessTasks | quantum_launcher/workflow/workflow_manager.py:69-89 | at most `max_iterations` waves, the task count when it is 0 as for `None`; the waves are the drain of the remaining tasks; the run ends at an empty wave (the cycle error exactly when tasks remain, and then none of them is ready), at the first failing wave (its exception, every earlier wave completed) or after the last iteration; with the default bound, success means every task ran; the iteration check is unreachable |
| Workflow.WorkflowManager.RunReady | quantum_launcher/workflow/workflow_manager.py:72-85 | the ready remaining tasks are exactly the drain's next wave; with none, the drain ends, with the cycle error exactly when tasks remain; a failing wave ends it with one of its tasks' exceptions; a completed wave extends it and leaves the rest remaining |
| Workflow.DrainWithin | quantum_launcher/workflow/workflow_manager.py:72-85 | the waves only take remaining tasks, and no task is in two waves |
| Workflow.DrainGrows | quantum_launcher/workflow/workflow_manager.py:70-85 | `n` non-empty waves run at least `n` tasks |
| Workflow.DrainCovers | quantum_launcher/workflow/workflow_manager.py:70-85 | after as many non-empty waves as there were tasks, every task has run, so the default bound `len(remaining_tasks)` never stops a drain early |
| Workflow.BlockedNeverRuns | quantum_launcher/workflow/workflow_manager.py:72-76 | a group of tasks each waiting on a task of the group or outside the drain, none of them done at the start, is in no wave |
| Workflow.DrainNext | quantum_launcher/workflow/workflow_manager.py:72 | filtering the remaining tasks by `is_ready` yields the drain's next wave, as long as the completed waves are done and the rest is untouched |
| Workflow.WorkflowManager.DrainTrace | quantum_launcher/workflow/workflow_manager.py:79-85 | after a drain, a task no wave started is untouched and every wave but the last completed |
| Workflow.WorkflowManager.ReadyExists | quantum_launcher/workflow/workflow_manager.py:72-76 | while tasks declared in order remain, some remaining task is ready, so the cycle error cannot be raised for them |
| Workflow.WorkflowManager.RunWave | quantum_launcher/workflow/workflow_manager.py:79-82 | a wave runs each of its tasks once; without failure they are all done; a failure is the exception that one of the wave's tasks raised, and every done task stays consistent with its dependencies |
| Workflow.RunEach | quantum_launcher/workflow/workflow_manager.py:79-82 | running independent pending tasks one at a time in any order gives each what it would have given at the start of the wave, and keeps the first failure |
| WorkflowScenarios.SimpleLinear | tests/workflow/test_context_manager.py:9-14 | `task2(task1())` through the manager succeeds and the second result is 30 |
| WorkflowScenarios.LinearCalls | tests/workflow/test_context_manager.py:3-7 | the first task computes 10 and, once it is done, the second computes 30 |
| WorkflowScenarios.ThreeStage | quantum_launcher/workflow/workflow_manager.py:65-85 | a three-stage chain tripling 10 at each stage runs to completion and its last stage holds 90 |
| WorkflowScenarios.ChainRuns | quantum_launcher/workflow/workflow_manager.py:72-85 | given what `run` guarantees on a declared-in-order chain, no stage can fail, so every stage is done and the last holds 90 |
| WorkflowScenarios.TripleCall | tests/workflow/test_context_manager.py:6-7 | a tripling stage whose dependency published x computes 3x, and it is ready only once that dependency is done |
| WorkflowScenarios.Unpacking | quantum_launcher/workflow/workflow_manager.py:26-42 | unpacking a task with two outputs into two sub-tasks and adding them gives 9 |
| WorkflowScenarios.UnpackingCalls | quantum_launcher/workflow/workflow_manager.py:36-42 | the sub-tasks read the components 4 and 5 of their owner's result |
| WorkflowScenarios.Failing | quantum_launcher/workflow/workflow_manager.py:80-82 | a raising task's exception is the result of `run`, and the task that depends on it never runs |
| WorkflowScenarios.FailureStopsLaterWaves | quantum_launcher/workflow/workflow_manager.py:79-82 | a raising task and an independent task share the first wave; the run raises the first task's exception and the task depending on the independent one never runs |
| WorkflowScenarios.FirstWave | quantum_launcher/workflow/workflow_manager.py:72 | in that workflow, with two or more waves the raising task is in a wave before the last, and with at most one wave the dependent task is in none |
| WorkflowScenarios.ForeignDependency | quantum_launcher/workflow/workflow_manager.py:72-76 | a task waiting on a task of another manager ends the run with the cycle error |
| WorkflowScenarios.RunWaiting | quantum_launcher/workflow/workflow_manager.py:74-76 | a manager whose only task waits on another manager's pending task raises the cycle error |
| LabelIndex.NumberingSize | job_shop_scheduler.py:295-297 | two inverse numberings have as many labels as indices, so `n` counts both dictionaries |
| LabelIndex.NumberNext | job_shop_scheduler.py:295-296 | a label not yet numbered gets the next index in both dictionaries, which stay inverse to each other |
| LabelIndex.NumberLabels | job_shop_scheduler.py:290-296 | the labels of one task that are not absurd are numbered, in whatever order the set yields them, and the dictionaries stay inverse |
| JobShop.NatToStringInjective | job_shop_scheduler.py:22 | different numbers print differently |
| JobShop.IntToStringInjective | job_shop_scheduler.py:22 | different ints print differently |
| JobShop.LabelInjective | job_shop_scheduler.py:18-22 | `get_label` is unambiguous: equal labels have the same job name, position and time, whatever characters the job name contains |
| JobShop.SplitAtLast | job_shop_scheduler.py:22 | cutting a label at the last separator is unique |
| JobShop.FlattenLayout | job_shop_scheduler.py:74-78 | job `j` occupies a contiguous run of the task list with its operations in position order |
| JobShop.FlattenOrigin | job_shop_scheduler.py:74-78 | every task of the list is some operation of some job at its place in that job's run |
| JobShop.LastTaskOfJob | job_shop_scheduler.py:75-83 | each recorded last-task index points at that job's last operation |
| JobShop.FlattenDistinctSlots | job_shop_scheduler.py:74-78 | distinct job names give distinct (job, position) pairs |
| JobShop.AppendJob | job_shop_scheduler.py:77-79 | the inner loop appends the tasks of one job and adds their durations to the total |
| JobShop.FlattenJobs | job_shop_scheduler.py:69-83 | the loop lists every job's tasks in dictionary order, records each job's last index as the running count minus one, and sums all durations |
| JobShop.MarkEarly | job_shop_scheduler.py:264-266 | the start times below the predecessor time are added, and nothing else |
| JobShop.MarkLate | job_shop_scheduler.py:283-286 | the last `successor_time` start times below the horizon are added, and nothing else |
| JobShop.ForwardPass | job_shop_scheduler.py:256-268 | the forward pass adds exactly the start times too early for some task's predecessors in its job |
| JobShop.BackwardPass | job_shop_scheduler.py:274-286 | the backward pass adds exactly the start times too late for some task and its successors to end by the horizon |
| JobShop.SuccTimeCases | job_shop_scheduler.py:278-282 | `successor_time` restarts at the duration minus one at each job's last task and otherwise grows by each task's duration |
| JobShop.AbsurdIff | job_shop_scheduler.py:254-286 | for distinct (job, position) pairs, a start time is pruned exactly when it is before the predecessors can end or too late to end by the horizon |
| JobShop.PredTimeInJob | job_shop_scheduler.py:256-268 | the forward pass reaches each operation with the total duration of the job's earlier operations |
| JobShop.SuccTimeInJob | job_shop_scheduler.py:274-286 | the backward pass has, after each operation, the total duration of it and the job's later operations, minus one |
| JobShop.JobAbsurdIff | job_shop_scheduler.py:254-286 | per job: start time t of an operation is pruned exactly when t is below its predecessors' total duration, or below the horizon with the operation and its successors ending after it |
| JobShop.StartLabelsFresh | job_shop_scheduler.py:289-290 | no label of a task was already produced by an earlier task |
| JobShop.NeighboursInJob | job_shop_scheduler.py:103-105 | neighbouring tasks belong to one job exactly when the second is the next operation of the first |
| JobShop.PrecedencePairsAreSteps | job_shop_scheduler.py:103-105 | the precedence constraint pairs exactly each operation with the next operation of its job |
| JobShop.SortByMachineSpec | job_shop_scheduler.py:121 | the sort yields the same tasks in non-decreasing machine order |
| JobShop.KeyListSorted | job_shop_scheduler.py:37-52 | the key list of tasks sorted by machine is itself sorted, as `bisect_right` on it requires |
| JobShop.BisectRight | job_shop_scheduler.py:129 | on sorted keys, the result is the first index whose key is above the target; every earlier key is at most the target |
| JobShop.RunBounds | job_shop_scheduler.py:126-133 | each turn of the grouping loop takes a non-empty run of one machine, on a machine no earlier task uses |
| JobShop.RunGroups | job_shop_scheduler.py:130-137 | a run of fewer than two tasks adds no pair and is skipped; a longer run is kept and adds exactly its pairs |
| JobShop.MachineGroups | job_shop_scheduler.py:121-137 | the kept groups have at least two tasks each, on one machine, no task is in two groups, and together they pair exactly the distinct tasks that share a machine |
| JobShop.SameMachinePairsPermutation | job_shop_scheduler.py:121 | sorting does not change which tasks are paired |
| JobShop.Neighbours | job_shop_scheduler.py:103 | `zip(tasks, tasks[1:])` pairs each task with the next one |
| JobShop.PairLabelsNumbered | job_shop_scheduler.py:106-156 | both labels of every penalised pair are numbered and neither is absurd, so no lookup of a label index fails |
| JobShop.NumberTasks | job_shop_scheduler.py:289-296 | the numbered labels are exactly the non-absurd labels of every task for start times in [0, max_time); from empty dictionaries they form inverse numberings |
| JobShop.JobShopScheduler.constructor | job_shop_scheduler.py:56-67 | the scheduler starts with empty registries and the tasks, last-task indices and horizon of `_process_data` |
| JobShop.JobShopScheduler.ProcessData | job_shop_scheduler.py:69-86 | lists the tasks job by job, records each job's last-task index, and defaults the horizon to the total duration |
| JobShop.JobShopScheduler.RemoveAbsurdTimes | job_shop_scheduler.py:254-286 | adds exactly the pruned start times of both passes; with no tasks it raises IndexError and changes nothing |
| JobShop.JobShopScheduler.BuildVariableDict | job_shop_scheduler.py:288-297 | every non-absurd label for a start time in [0, max_time) gets an index, `n` counts them, and from empty dictionaries the two dictionaries are inverse numberings 0..n-1 |
| JobShop.JobShopScheduler.ConstraintPairs | job_shop_scheduler.py:102-158 | the penalised label pairs are those of neighbouring tasks of one job whose next start is before the first can end, and those of distinct tasks on one machine whose start falls while the first runs; pruned labels are skipped |
| JobShop.JobShopScheduler.PenalisedPairs | job_shop_scheduler.py:299-304 | pruning, numbering and pair collection in order: with tasks, every label of every pair has an index and none is pruned; with no tasks, the pruning raises IndexError first |
| OrderedDict.Put | jssp/Binary.py:23-25 | assigning a key sets its value and leaves every other key's value; a present key keeps its place and a new key goes last |
| OrderedDict.Delete | jssp/Binary.py:224 | deleting a key removes it and leaves every other key's value |
| OrderedDict.Bump | jssp/Binary.py:26-35 | add-or-insert raises the key's coefficient by the value and leaves every other key |
| OrderedDict.AddAllCoef | jssp/Binary.py:36-47 | key-wise addition: each coefficient is the sum of both and the keys are the union |
| OrderedDict.AddAllKeepsOrder | jssp/Binary.py:36-47 | adding never drops or reorders an existing key |
| OrderedDict.SubAllCoef | jssp/Binary.py:108-123 | key-wise subtraction: each coefficient is the difference; a shared key survives only with a non-zero difference; a key of the operand alone enters negated |
| OrderedDict.DeleteAfterPut | jssp/Binary.py:110-113 | assigning a key and then deleting it is the same as deleting it |
| OrderedDict.ScaleAllEntries | jssp/Binary.py:142-147 | scaling keeps every key in its place and multiplies each coefficient |
| OrderedDict.AddItems | jssp/Binary.py:36-47 | the addition loop computes the key-wise sum |
| OrderedDict.SubItems | jssp/Binary.py:108-123 | the subtraction loop computes the key-wise difference |
| OrderedDict.ScaleItems | jssp/Binary.py:142-147 | the scaling loop computes the scaled dict |
| BinaryKeys.StrGtIrreflexive | jssp/Binary.py:251 | no string compares above itself |
| BinaryKeys.StrGtAsymmetric | jssp/Binary.py:251 | string comparison is asymmetric |
| BinaryKeys.StrGtTotal | jssp/Binary.py:251 | two different strings are ordered one way or the other |
| BinaryKeys.KeyGt | jssp/Binary.py:251 | equal keys never compare above each other |
| BinaryKeys.AboveAsymmetric | jssp/Binary.py:251 | key comparison is asymmetric at any depth of tuples |
| BinaryKeys.NamesOrdered | jssp/Binary.py:251 | two names compare without raising, and two different names are ordered one way or the other |
| BinaryOps.Init | jssp/Binary.py:3-14 | a string gives the name and `'free'` at 0.5 each; an int gives the constant; a dict or a Binary gives its data; a float or any other type raises TypeError |
| BinaryOps.Power | jssp/Binary.py:201-214 | `**0` is the constant 1; `**1` and any exponent above 2 give the data unchanged; anything but a non-negative int raises TypeError |
| BinaryOps.PlusName | jssp/Binary.py:21-25 | `+` with a name adds 1 to its coefficient and leaves every other key |
| BinaryOps.PlusDict | jssp/Binary.py:36-50 | `+` with a dict or a Binary adds key-wise and keeps every key of both |
| BinaryOps.MinusNumber | jssp/Binary.py:94-107 | `-` with a number lowers the constant, removing it exactly when it reaches 0, and leaves every other key |
| BinaryOps.MinusDict | jssp/Binary.py:108-126 | `-` with a dict or a Binary subtracts key-wise, removing exactly the shared keys whose difference is 0 |
| BinaryOps.MinusSelf | jssp/Binary.py:85-126 | `x - x` has no keys left |
| BinaryOps.MulNameFind | jssp/Binary.py:133-141 | multiplying by a name puts each other key's coefficient under `(key, name)` and moves the name's own coefficient to the constant |
| BinaryOps.MulAllFind | jssp/Binary.py:148-161 | the product puts `d[a] * o[b]` under `(a, b)` for every key pair (except equal keys of two Binaries), and the constant of a Binary product gains the products of the shared keys |
| BinaryOps.DotShared | jssp/Binary.py:152-159 | the constant of a product of two Binaries is the sum of the products over their shared keys |
| BinaryOps.PowerTwo | jssp/Binary.py:209-210 | `x ** 2` is `x * x`: cross terms carry `x[a] * x[b]` and the squares go to the constant |
| BinaryOps.ProductNumber | jssp/Binary.py:142-147 | multiplying by a number keeps the keys in order and scales each coefficient |
| BinaryOps.MulItems | jssp/Binary.py:148-161 | the nested loops compute the product |
| BinaryCalculate.FoldFreeName | jssp/Binary.py:217-230 | step 1 adds the coefficients of `('free', name)` and `(name, 'free')` to the name |
| BinaryCalculate.FoldFreePair | jssp/Binary.py:217-230 | step 1 removes exactly the pairs with `'free'` on one side and keeps every other pair |
| BinaryCalculate.SplitLinear | jssp/Binary.py:236-240 | the linear dict holds exactly the name keys, with their coefficients |
| BinaryCalculate.SplitSym | jssp/Binary.py:241-245 | step 3 keeps the total coefficient of every unordered pair |
| BinaryCalculate.SplitOneOrientation | jssp/Binary.py:242-245 | the quadratic dict never holds a pair in both orientations |
| BinaryCalculate.OrientKeys | jssp/Binary.py:250-253 | after the ordering loop, every quadratic key is in order |
| BinaryCalculate.OrientOk | jssp/Binary.py:250-253 | ordering pairs of names never raises |
| BinaryCalculate.OrientCoef | jssp/Binary.py:250-253 | a reversed pair is removed and its coefficient moves to the ordered pair |
| BinaryCalculate.OrientStops | jssp/Binary.py:250-253 | the first comparison that raises ends the loop with that exception |
| BinaryCalculate.NormaliseShape | jssp/Binary.py:216-260 | the linear keys are names other than `'free'` and the quadratic keys are ordered pairs |
| BinaryCalculate.NormaliseCoef | jssp/Binary.py:216-260 | for degree-two data `calculate` succeeds; the offset is the constant plus `('free', 'free')`; each name collects its own coefficient and its pairs with `'free'`; each ordered pair collects both orientations |
| BinaryCalculate.FoldFreeItems | jssp/Binary.py:217-230 | the folding loop over the copy computes step 1 |
| BinaryCalculate.SplitItems | jssp/Binary.py:236-247 | the splitting loop computes step 3 |
| BinaryCalculate.OrientItems | jssp/Binary.py:250-253 | the ordering loop over the copy computes step 4, or its exception |
| BinaryClass.Binary.FromData | jssp/Binary.py:10 | a Binary built from data holds it and has no spin yet |
| BinaryClass.Binary.New | jssp/Binary.py:3-14 | the constructor yields a fresh Binary with the data of `Init`, or its TypeError |
| BinaryClass.Binary.Add | jssp/Binary.py:19-50 | `self + other` is a fresh Binary with the key-wise sum, or the TypeError; `self` is unchanged |
| BinaryClass.Binary.Radd | jssp/Binary.py:52-83 | `other + self` gives the same data as `self + other` |
| BinaryClass.Binary.Sub | jssp/Binary.py:85-126 | `self - other` is a fresh Binary with the key-wise difference, or the TypeError |
| BinaryClass.Binary.Rsub | jssp/Binary.py:128-129 | `other - self` is `Binary(other) - self` |
| BinaryClass.Binary.Mul | jssp/Binary.py:131-164 | `self * other` is a fresh Binary with the product, or the TypeError |
| BinaryClass.Binary.Rmul | jssp/Binary.py:166-199 | `other * self` gives the same data as `self * other` |
| BinaryClass.Binary.Pow | jssp/Binary.py:201-214 | `self ** other` is a fresh Binary with the power, or the TypeError |
| BinaryClass.Binary.Calculate | jssp/Binary.py:216-260 | the data loses `'free'` and the folded pairs in place; the result is the normalised (linear, quadratic, offset), stored as `spin`; when ordering raises, `spin` is unchanged |
| BinaryClass.Binary.Compile | jssp/Binary.py:262-264 | `compile` calculates and returns the same object |
| TruthTables.Log2FloorPow2 | quantum_launcher/hampy/debug.py:68 | `int(log2(2^n))` is n |
| TruthTables.PatternCount | quantum_launcher/hampy/debug.py:71 | each pattern is made of bits, and `sum` of it is its number of ones |
| TruthTables.ProductPatterns | quantum_launcher/hampy/debug.py:68 | `product([0, 1], repeat=n)` lists the n-bit numerals of 0 .. 2^n - 1 in order |
| TruthTables.ProductCounts | quantum_launcher/hampy/debug.py:71 | `sum(perms[i])` is the number of ones of i |
| TruthTables.FirstOccurrence | quantum_launcher/hampy/debug.py:70-72 | the first pattern with k ones is at index 2^k - 1 and every earlier pattern has fewer ones, so the counts first occur in order 0, 1, ..., n |
| TruthTables.PatternComplete | quantum_launcher/hampy/debug.py:89 | every bit pattern of length n is listed |
| TruthTables.BitStringRoundTrip | quantum_launcher/hampy/debug.py:92 | a pattern's key string reads back as the pattern and has as many `'1'` as the pattern has ones |
| TruthTables.ParseBitsRoundTrip | quantum_launcher/hampy/debug.py:92 | every bit string is the key of the pattern it spells |
| TruthTables.TruthList | quantum_launcher/hampy/debug.py:93 | the list form has 2^(len(com) - 1) entries |
| TruthTables.TruthListAt | quantum_launcher/hampy/debug.py:93 | entry i of the list form is `com` at the number of ones of the i-th pattern |
| TruthTables.ComToTruth | quantum_launcher/hampy/debug.py:77-94 | list mode gives the list form; dict mode maps exactly the bit strings of length len(com) - 1, each to `com` at its number of ones; an empty `com` or another mode fails |
| TruthTables.KeyedByCount | quantum_launcher/hampy/debug.py:90-92 | the dict loop keys exactly the bit strings of the right length, each to `com` at its number of ones |
| TruthTables.ComOfSpec | quantum_launcher/hampy/debug.py:70-73 | the loop returns False exactly when two entries with the same number of ones differ; otherwise each count seen maps to those entries' value |
| TruthTables.ComOrder | quantum_launcher/hampy/debug.py:70-73 | for a symmetric table, the dict holds the counts seen so far in increasing order |
| TruthTables.TruthToComFalse | quantum_launcher/hampy/debug.py:68-73 | a full table is reported not commutative exactly when two patterns with the same number of ones have different values |
| TruthTables.TruthToComOrdered | quantum_launcher/hampy/debug.py:70-75 | the list form of a symmetric table holds, in count order, the value of the first pattern with each count |
| TruthTables.TruthToComValues | quantum_launcher/hampy/debug.py:70-75 | a symmetric table of 2^n entries gives n + 1 values, value k being that of every pattern with k ones |
| TruthTables.ComRoundTrip | quantum_launcher/hampy/debug.py:55-94 | `truth_to_com(com_to_truth(com)) == com` |
| TruthTables.TruthToComLoop | quantum_launcher/hampy/debug.py:55-75 | the loop with its early `return False` computes `truth_to_com`, errors included |
| TruthTables.ComOfStops | quantum_launcher/hampy/debug.py:73 | once the loop has returned False or raised, later entries change nothing |
| TruthTables.Reverse | quantum_launcher/hampy/debug.py:104 | `reversed` gives the pattern read right to left |
| TruthTables.FuncToTruth | quantum_launcher/hampy/debug.py:96-108 | list mode has 2^n entries, entry i being the function of the reversed i-th pattern; dict mode maps exactly the n-bit strings, each to the function of its reversed pattern; it fails exactly when n is negative, the mode is another one, or the function raises on some pattern, and then with the exception of the first such pattern |
| TruthTables.KeyedByFunction | quantum_launcher/hampy/debug.py:106-107 | the dict loop keys exactly the n-bit strings, each to the function of its reversed pattern, unless the function raises, in which case the first exception in pattern order propagates |
| TruthTables.IsBoolean | quantum_launcher/hampy/debug.py:50-53 | the check passes exactly when every entry is 0 or 1 |
| Adapters.DefaultFormatter | quantum_launcher/base/adapter_structure.py:29-31 | the default formatter returns the problem's instance |
| Adapters.Translate | quantum_launcher/base/adapter_structure.py:11-14 | a translation of a formatter applies the translation function to what the formatter returns, and fails when the formatter fails |
| Adapters.DirectWins | quantum_launcher/base/adapter_structure.py:35-36 | a directly registered formatter is returned, whatever the translations |
| Adapters.FallbackUsed | quantum_launcher/base/adapter_structure.py:41 | with no direct formatter and no translation, the fallback is returned |
| Adapters.ResolvesOk | quantum_launcher/base/adapter_structure.py:37-39 | a format whose translation chain reaches a direct formatter or an untranslated format resolves, to the same formatter under any larger recursion budget |
| Adapters.TranslatedApply | quantum_launcher/base/adapter_structure.py:37-40 | a translated format's formatter applies the translation to what the origin format's formatter gives |
| Adapters.SelfTranslationFails | quantum_launcher/base/adapter_structure.py:37-39 | a format translated from itself, with no direct formatter, never resolves and raises RecursionError |
| Adapters.ResolvedIsBuilt | quantum_launcher/base/adapter_structure.py:34-41 | every formatter resolution returns is a direct formatter or the fallback under registered translations |
| Adapters.Registries.constructor | quantum_launcher/base/adapter_structure.py:5-31 | after loading, no translation is registered and only the default formatter is, under `(None, 'none')` |
| Adapters.Registries.GetFormatter | quantum_launcher/base/adapter_structure.py:34-41 | with no direct formatter and no translation, the result formats every problem as its instance |
| Adapters.Registries.Adapter | quantum_launcher/base/adapter_structure.py:9-17 | registers the translation for its target format, replacing any earlier one, and leaves the formatters |
| Adapters.Registries.Formatter | quantum_launcher/base/adapter_structure.py:20-26 | a class is instantiated first; the formatter is stored for (problem, format), replacing any earlier one, and is then found directly |
| LegacyAdapters.LegacyRegistries.constructor | base/adapter_structure.py:5-19 | both registries start empty |
| LegacyAdapters.LegacyRegistries.GetFormatter | base/adapter_structure.py:29-36 | with no direct formatter and no translation the result is `None`, and calling it raises TypeError |
| LegacyAdapters.LegacyRegistries.Adapter | base/adapter_structure.py:8-16 | registers the translation for its target format, replacing any earlier one |
| LegacyAdapters.LegacyRegistries.Formatter | base/adapter_structure.py:22-26 | the formatter is stored as given, replacing any earlier one, and is then found directly |
| LegacyAdapters.TranslationOverNone | base/adapter_structure.py:32-36 | a translation whose origin has nothing registered still yields a formatter, and calling it raises TypeError |
| Base.SupportPath | quantum_launcher/base/base.py:16-21 | `path` is `_path` when it is set and the computed path otherwise |
| Base.Lower | quantum_launcher/base/base.py:137 | `lower()` maps each character in place |
| Base.Problem.constructor | quantum_launcher/base/base.py:122-143 | a problem starts as an "Optimization" variant with no path, its class name in lower case, the given instance, and the given instance name or 'unnamed' |
| Base.Problem.Path | quantum_launcher/base/base.py:16-21 | the path is `_path` when set, else the base body of `_get_path`, `name/instance_name` |
| Base.Problem.SetPath | quantum_launcher/base/base.py:23-25 | the setter changes only `_path`; setting `None` brings back the computed path |
| Base.Problem.SetInstance | quantum_launcher/base/base.py:150-163 | the instance is always replaced, the instance name only when one is given, and nothing else changes |
| Base.Backend.constructor | quantum_launcher/base/base.py:87-91 | a backend has its name, no path and the given parameters or `[]` |
| Base.Backend.Path | quantum_launcher/base/base.py:93-94 | a backend's path is `_path` when set, else its name |
| Base.Backend.SetPath | quantum_launcher/base/base.py:23-25 | the setter changes only `_path` |
| Base.ReplaySticks | quantum_launcher/base/base.py:219-220 | a truthy cached value is returned by every later call |
| Base.ReplayFirstTruthy | quantum_launcher/base/base.py:216-225 | from a falsy cache, the cache ends as the first truthy result, or as the last result when none is truthy |
| Base.Output.constructor | quantum_launcher/base/base.py:223-224 | decorating sets `_is_output` and starts the cache as False |
| Base.Output.Call | quantum_launcher/base/base.py:218-222 | a truthy cache is returned without running the function; otherwise the function runs once, and its result is cached and returned, or its exception propagates and the cache is kept |
| Base.MinIndex | quantum_launcher/base/base.py:56 | `min` picks the first entry with the smallest value |
| Base.MaxIndex | quantum_launcher/base/base.py:58-59 | `max` picks the first entry with the largest value |
| Base.WeightedSumOk | quantum_launcher/base/base.py:63-64 | the weighted sum fails exactly when some sampled bit string has no energy |
| Base.FromDistributionsOk | quantum_launcher/base/base.py:53-70 | `from_distributions` succeeds exactly when both dicts are non-empty, every sampled bit string has an energy and the total count is neither 0 nor 1 |
| Base.FromDistributionsSpec | quantum_launcher/base/base.py:53-70 | the best bit string has the least energy; the most common one has the largest count and its own energy; the sample count is the total; the average energy times the count is the weighted energy sum; the inputs are passed through |

## Left out

- The thread pool of `WorkflowManager.run` is not modelled. Each wave runs its ready tasks one at a time, in an order left open. When several tasks of a wave fail, the exception reported is one of theirs; the model does not pin down which. `Workflow.WaveIndependent` proves that the order cannot change any result.
- Workflow.WorkflowManager.ProcessTasks: `max_iterations` is a `nat`. 0 stands for `None` and behaves exactly like it, because `max_iterations or len(remaining_tasks)` turns both into the task count. A negative bound cannot be expressed; in Python it makes `range` empty, so the method returns at once with no task run. The "too much iterations" check at quantum_launcher/workflow/workflow_manager.py:87-88 cannot fire, because `iteration` never exceeds the loop count; the model marks that branch unreachable.
- Workflow.WorkflowManager.Run: the promise that a blocked group makes the run fail and stays blocked is stated by `Workflow.RunBlocked`, which calls `Run`, rather than as a postcondition of `Run` itself.
- `print_dag` only prints. The `subtasks` field is never read or written after `__init__`.
- tests/workflow/test_workflow_manager.py calls `wm()`, `input`, `output` and `to_workflow`, none of which the manager defines, so those tests are not modelled.
- `SubTask.done` and `SubTask.result` are read through the owner task. A `SubTask` does not run its own `Task.__init__`, so its missing `func`, `args` and `dependencies` are not modelled.
- The Hamiltonian and Observable arithmetic of job_shop_scheduler.py (`H_qiskit`, `H_atos`, `hampy`, the final bias loop and the `_add_one_start_constraint_*` sums) is foreign-library floating-point code. The pair loops are modelled as the set of penalised label pairs.
- JobShop.JobShopScheduler.ConstraintPairs: the penalised pairs form a set, so the number of times the source adds the same pair to the Hamiltonian is not modelled.
- The job dictionary is a sequence of (name, operations) pairs in insertion order. Job names are strings and machines are ints. `get_label` prints the job name as given.
- In `Binary`, coefficients are `real`. Python's int and float arithmetic is modelled exactly, without rounding.
- `Binary(dict)` stores the caller's dict without copying, so later changes through either reference are shared. The model passes dicts by value and does not capture that aliasing.
- BinaryCalculate.NormaliseCoef: stated for data of degree at most two without repeated keys. A key is a string or a pair, so the `TypeError` for other key types at jssp/Binary.py:246-247 cannot arise, and tuple keys of other lengths are not modelled: neither the `IndexError` that an empty tuple raises at line 219, or a one-element tuple at line 220 or 225 (step 1), nor the components past the second that lines 250-253 ignore. The `TypeError` that comparing a name with a tuple raises at line 251 is the error `Normalise` returns; no lemma states when it is raised.
- `Ham_to_truth`, `get_output`, `create_ham` and `com_to_ham` in quantum_launcher/hampy/debug.py build or solve qiskit operators with numpy and are not modelled. `check_Hamiltonian` is modelled as its 0/1 loop over a given table.
- `truth_to_com` keys its dict by `str(sum(...))`. The model keys it by the integer count, which is equivalent because `str` is injective on ints.
- `int(log2(len(truth)))` is modelled as the exact integer floor of the logarithm, without floating-point rounding.
- `get_formatter` reads `__QL_ADAPTERS[problem_id]` through a `defaultdict`, which inserts an empty entry for an unknown problem. That insertion is invisible to every later lookup and is not modelled.
- Adapters.Resolve: Python's recursion limit is modelled as an explicit `depth` budget, ending in `RecursionError` when the budget runs out. The budget is a parameter, not the interpreter's limit of 1000 frames.
- Formatters and translations are modelled symbolically: a callable is the name it was registered under, and calling it builds a term. What the user's functions compute is left open.
- Base.Lower: `str.lower()` is modelled for ASCII letters only, without Unicode case mapping.
- Base.Problem.constructor: the `instance_path` branch, which reads a pickle file through `read_instance`, is not modelled. Neither are `read_result` (file I/O) and `prepare_methods` (reflection through `dir` and `getattr`).
- Base.FromDistributionsSpec: the standard deviation (`** 0.5` of a float) is not computed. Only its division by `num_of_samples - 1` is kept, as the ZeroDivisionError for a total count of 1. The lemma assumes what every Python dict satisfies: no key occurs twice.
- Base.Problem.Path: `Problem` is abstract (its `__init__` and `_get_path` are abstract methods), and every concrete problem overrides `_get_path` without calling `super()`. The model uses the base body, `name/instance_name`, i.e. what `super()._get_path()` would return; a subclass's own path (for example `name@instance_name@onehot` for exact cover) is not modelled.
- Base.Output.Call: the wrapper's arguments are passed to the wrapped function as one value, and keyword arguments are not modelled separately.

=== FILE: adapters.dfy ===
/**
 * The formatter registries of quantum_launcher/base/adapter_structure.py:
 * formatters registered per (problem class, algorithm format), translations
 * registered per target format, and `get_formatter`, which resolves a
 * format to a direct formatter, to a translation composed over the
 * formatter of its origin format, or to `default_formatter`.
 *
 * Python callables are modelled symbolically: a `Callable` names what was
 * registered, and `Apply` gives the term that calling it on a problem
 * produces, so that composition can be stated exactly.
 */
module Adapters {
  import opened Wrappers

  /** A key of the formatter registry: a problem class, or `None` (the key of `default_formatter`). */
  datatype ProblemKey = NoProblem | ProblemClass(name: string)

  /** A problem object as a formatter sees it: its class and its `instance`. */
  datatype Problem = Problem(key: ProblemKey, instance: Option<string>)

  /** What a formatter can be given to `formatter(...)` as: a function, or a class. */
  datatype FormatterArg = FunctionArg(name: string) | ClassArg(name: string)

  /** A callable that can sit in the registry or be returned by `get_formatter`. */
  datatype Callable =
    | Func(name: string)                   // a registered function
    | Made(cls: string)                    // `cls()`, an instance of a formatter class
    | ClassObject(cls: string)             // a class stored as it was given
    | Chain(translate: string, raw: Callable)  // `inner(raw)`: `translate(raw(*args))`
    | Default                              // `default_formatter`
    | NoneObject                           // Python `None`

  /** The decorated translation function that `adapter` registers (its `inner`). */
  datatype Translation = Translation(func: string)

  /** What calling a formatter on a problem yields, as a term. */
  datatype Value =
    | ProblemValue(problem: Problem)
    | InstanceValue(instance: Option<string>)
    | Called(fn: string, arg: Value)
    | CalledInstance(cls: string, arg: Value)
    | Constructed(cls: string, arg: Value)

  /** `default_formatter(problem)`: the problem's instance. */
  function DefaultFormatter(p: Problem): (v: Value)
    ensures v.InstanceValue? && v.instance == p.instance
  {
    InstanceValue(p.instance)
  }

  /** Calling `c(problem)`. */
  function Apply(c: Callable, p: Problem): Result<Value, string>
  {
    match c
    case Func(f) => Ok(Called(f, ProblemValue(p)))
    case Made(cls) => Ok(CalledInstance(cls, ProblemValue(p)))
    case ClassObject(cls) => Ok(Constructed(cls, ProblemValue(p)))
    case Chain(t, raw) =>
      (match Apply(raw, p)
       case Ok(v) => Ok(Called(t, v))
       case Err(e) => Err(e))
    case Default => Ok(DefaultFormatter(p))
    case NoneObject => Err("'NoneType' object is not callable")
  }

  /** `translation(raw)`: the formatter that feeds the result of `raw` to the translation. */
  function Translate(t: Translation, raw: Callable): (c: Callable)
    ensures forall p :: Apply(c, p) == match Apply(raw, p) case Ok(v) => Ok(Called(t.func, v)) case Err(e) => Err(e)
  {
    Chain(t.func, raw)
  }

  /** The exception that an unbounded chain of `get_formatter` calls ends in. */
  const RecursionError := "maximum recursion depth exceeded"

  /** The translation registry: target format to (origin format, translation). */
  type Translations = map<string, (string, Translation)>

  /** Resolving `fmt` reaches a direct formatter or a format with no translation within `n` translations. */
  predicate Resolves(direct: map<string, Callable>, tr: Translations, fmt: string, n: nat)
    decreases n
  {
    fmt in direct || fmt !in tr || (n > 0 && Resolves(direct, tr, tr[fmt].0, n - 1))
  }

  /**
   * The body of `get_formatter(problem_id, alg_format)` for the formatters
   * `direct` of the problem class: a direct formatter first, then the
   * translation composed over the formatter of its origin format, then
   * `fallback`. At most `depth` nested calls are made for the translations
   * crossed; past that the recursion is reported as Python's RecursionError.
   */
  function Resolve(direct: map<string, Callable>, tr: Translations, fmt: string, depth: nat, fallback: Callable): Result<Callable, string>
    decreases depth
  {
    if fmt in direct then Ok(direct[fmt])
    else if fmt in tr then
      if depth == 0 then Err(RecursionError)
      else
        match Resolve(direct, tr, tr[fmt].0, depth - 1, fallback)
        case Ok(raw) => Ok(Translate(tr[fmt].1, raw))
        case Err(e) => Err(e)
    else Ok(fallback)
  }

  /** A directly registered formatter is returned as it is, whatever the translations and the budget. */
  lemma DirectWins(direct: map<string, Callable>, tr: Translations, fmt: string, depth: nat, fallback: Callable)
    requires fmt in direct
    ensures Resolve(direct, tr, fmt, depth, fallback) == Ok(direct[fmt])
  {
  }

  /** With no direct formatter and no translation, the fallback is returned. */
  lemma FallbackUsed(direct: map<string, Callable>, tr: Translations, fmt: string, depth: nat, fallback: Callable)
    requires fmt !in direct && fmt !in tr
    ensures Resolve(direct, tr, fmt, depth, fallback) == Ok(fallback)
  {
  }

  /** A format that resolves within n translations resolves, to the same formatter, under any larger budget. */
  lemma {:induction false} ResolvesOk(direct: map<string, Callable>, tr: Translations, fmt: string, n: nat, depth: nat, fallback: Callable)
    requires Resolves(direct, tr, fmt, n) && n <= depth
    ensures Resolve(direct, tr, fmt, depth, fallback).Ok?
    ensures Resolve(direct, tr, fmt, depth, fallback) == Resolve(direct, tr, fmt, n, fallback)
    decreases n
  {
    if fmt !in direct && fmt in tr {
      ResolvesOk(direct, tr, tr[fmt].0, n - 1, depth - 1, fallback);
    }
  }

  /**
   * A translated format with no direct formatter, applied to a problem,
   * applies the translation to what the origin format's formatter gives.
   */
  lemma TranslatedApply(direct: map<string, Callable>, tr: Translations, fmt: string, n: nat, fallback: Callable, p: Problem)
    requires fmt !in direct && fmt in tr && Resolves(direct, tr, tr[fmt].0, n)
    ensures Resolve(direct, tr, fmt, n + 1, fallback).Ok? && Resolve(direct, tr, tr[fmt].0, n, fallback).Ok?
    ensures Apply(Resolve(direct, tr, fmt, n + 1, fallback).value, p) ==
      match Apply(Resolve(direct, tr, tr[fmt].0, n, fallback).value, p)
      case Ok(v) => Ok(Called(tr[fmt].1.func, v))
      case Err(e) => Err(e)
  {
    ResolvesOk(direct, tr, tr[fmt].0, n, n, fallback);
  }

  /** A format translated from itself, with no direct formatter, never resolves: Python's RecursionError. */
  lemma {:induction false} SelfTranslationFails(direct: map<string, Callable>, tr: Translations, fmt: string, depth: nat, fallback: Callable)
    requires fmt !in direct && fmt in tr && tr[fmt].0 == fmt
    ensures Resolve(direct, tr, fmt, depth, fallback) == Err(RecursionError)
  {
    if depth > 0 {
      SelfTranslationFails(direct, tr, fmt, depth - 1, fallback);
    }
  }

  /** A direct formatter or the fallback, under a stack of registered translations. */
  ghost predicate Built(direct: map<string, Callable>, tr: Translations, fallback: Callable, c: Callable)
  {
    c in direct.Values || c == fallback ||
    (c.Chain? && (exists target :: target in tr && tr[target].1.func == c.translate) && Built(direct, tr, fallback, c.raw))
  }

  /** Every formatter that resolution returns is built from registered pieces only. */
  lemma {:induction false} ResolvedIsBuilt(direct: map<string, Callable>, tr: Translations, fmt: string, depth: nat, fallback: Callable)
    ensures Resolve(direct, tr, fmt, depth, fallback).Ok? ==> Built(direct, tr, fallback, Resolve(direct, tr, fmt, depth, fallback).value)
    decreases depth
  {
    if fmt in direct {
      assert direct[fmt] in direct.Values;
    } else if fmt in tr && depth > 0 {
      ResolvedIsBuilt(direct, tr, tr[fmt].0, depth - 1, fallback);
    }
  }

  /**
   * The two module-level registries, `__QL_TRANSLATIONS` (target format to
   * origin format and translation) and `__QL_ADAPTERS` (problem class to
   * format to formatter).
   */
  class Registries {
    var translations: Translations
    var adapters: map<ProblemKey, map<string, Callable>>

    /** The registries right after the module is loaded: only `default_formatter`, under `(None, 'none')`. */
    constructor()
      ensures translations == map[]
      ensures adapters == map[NoProblem := map["none" := Default]]
    {
      translations := map[];
      adapters := map[NoProblem := map["none" := Default]];
    }

    /** `__QL_ADAPTERS[problem]`, a `defaultdict` whose missing entries read as `{}`. */
    function Direct(key: ProblemKey): map<string, Callable>
      reads this
    {
      if key in adapters then adapters[key] else map[]
    }

    /** `get_formatter(problem_id, alg_format)`: falls back to `default_formatter`, which formats a problem as its instance. */
    function GetFormatter(key: ProblemKey, fmt: string, depth: nat): (r: Result<Callable, string>)
      reads this
      ensures fmt !in Direct(key) && fmt !in translations ==> r.Ok? && forall p :: Apply(r.value, p) == Ok(InstanceValue(p.instance))
    {
      Resolve(Direct(key), translations, fmt, depth, Default)
    }

    /** `adapter(translates_from, translates_to)(func)`: registers the translation for the target format, replacing any earlier one. */
    method Adapter(translatesFrom: string, translatesTo: string, func: string) returns (t: Translation)
      modifies this
      ensures t == Translation(func)
      ensures translations == old(translations)[translatesTo := (translatesFrom, t)]
      ensures adapters == old(adapters)
    {
      t := Translation(func);
      translations := translations[translatesTo := (translatesFrom, t)];
    }

    /**
     * `formatter(problem, format)(func)`: a class is instantiated first; the
     * formatter is stored for (problem, format), replacing any earlier one,
     * and is found directly from then on.
     */
    method Formatter(key: ProblemKey, format: string, func: FormatterArg) returns (f: Callable)
      modifies this
      ensures f == if func.ClassArg? then Made(func.name) else Func(func.name)
      ensures adapters == old(adapters)[key := old(Direct(key))[format := f]]
      ensures translations == old(translations)
      ensures forall d: nat :: GetFormatter(key, format, d) == Ok(f)
    {
      if func.ClassArg? {
        f := Made(func.name);
      } else {
        f := Func(func.name);
      }
      adapters := adapters[key := Direct(key)[format := f]];
    }
  }
}

=== FILE: base.dfy ===
/**
 * The base classes of quantum_launcher/base/base.py: the `path` property
 * that every problem and backend shares, the problem's instance and its
 * name, the `output` decorator that remembers the first truthy result of a
 * method, and `Result.from_distributions`, which summarises a sampled
 * distribution of bit strings.
 */
module Base {
  import opened Wrappers
  import opened OrderedDict

  // ----- _SupportClass.path -----

  /** The `path` property: `_path` when it is set, otherwise what `_get_path()` gives. */
  function SupportPath(pathField: Option<string>, getPath: string): (p: string)
    ensures pathField.Some? ==> p == pathField.value
    ensures pathField.None? ==> p == getPath
  {
    match pathField
    case Some(q) => q
    case None => getPath
  }

  /** `str.lower()` on one character, for the ASCII letters. */
  function LowerChar(c: char): char
  {
    if 'A' <= c <= 'Z' then (c as int + 32) as char else c
  }

  /** `str.lower()`, for the ASCII letters. */
  function Lower(s: string): (r: string)
    ensures |r| == |s| && forall i :: 0 <= i < |s| ==> r[i] == LowerChar(s[i])
  {
    if s == [] then [] else [LowerChar(s[0])] + Lower(s[1..])
  }

  /**
   * A `Problem`: its variant, `_path`, its name (the lower-cased class
   * name), the name of its instance and the instance itself (`None` or an
   * opaque value).
   */
  class Problem {
    var variant: string
    var pathField: Option<string>
    var name: string
    var instanceName: string
    var instance: Option<string>

    /** `__init__` without an instance path: the instance name defaults to 'unnamed'. */
    constructor(className: string, instance: Option<string>, instanceName: Option<string>)
      ensures variant == "Optimization" && pathField == None && name == Lower(className)
      ensures this.instanceName == if instanceName.Some? then instanceName.value else "unnamed"
      ensures this.instance == instance
    {
      variant := "Optimization";
      pathField := None;
      name := Lower(className);
      this.instanceName := if instanceName.None? then "unnamed" else instanceName.value;
      this.instance := None;
      new;
      SetInstance(instance, instanceName);
    }

    /**
     * The body of the abstract `_get_path()`: `name/instance_name`, which is
     * what `super()._get_path()` returns. Concrete problems override it.
     */
    function GetPath(): string
      reads this
    {
      name + "/" + instanceName
    }

    function Path(): (p: string)
      reads this
      ensures pathField.Some? ==> p == pathField.value
      ensures pathField.None? ==> p == name + "/" + instanceName
    {
      SupportPath(pathField, GetPath())
    }

    /** The `path` setter: only `_path` changes; `None` brings back the computed path. */
    method SetPath(newPath: Option<string>)
      modifies this
      ensures pathField == newPath
      ensures Path() == if newPath.Some? then newPath.value else old(GetPath())
      ensures variant == old(variant) && name == old(name) && instanceName == old(instanceName) && instance == old(instance)
    {
      pathField := newPath;
    }

    /** `set_instance`: the instance is always replaced, the instance name only when one is given. */
    method SetInstance(instance: Option<string>, instanceName: Option<string>)
      modifies this
      ensures this.instance == instance
      ensures this.instanceName == if instanceName.Some? then instanceName.value else old(this.instanceName)
      ensures variant == old(variant) && pathField == old(pathField) && name == old(name)
    {
      if instanceName.Some? {
        this.instanceName := instanceName.value;
      }
      this.instance := instance;
    }
  }

  /** A `Backend`: its name, `_path` and parameters. */
  class Backend {
    var name: string
    var pathField: Option<string>
    var parameters: seq<string>

    /** `__init__`: no path; the parameters default to the empty list. */
    constructor(name: string, parameters: Option<seq<string>>)
      ensures this.name == name && pathField == None
      ensures this.parameters == if parameters.Some? then parameters.value else []
    {
      this.name := name;
      pathField := None;
      this.parameters := if parameters.Some? then parameters.value else [];
    }

    function Path(): (p: string)
      reads this
      ensures p == if pathField.Some? then pathField.value else name
    {
      SupportPath(pathField, name)
    }

    /** The `path` setter. */
    method SetPath(newPath: Option<string>)
      modifies this
      ensures pathField == newPath && name == old(name) && parameters == old(parameters)
    {
      pathField := newPath;
    }
  }

  // ----- Problem.output -----

  /** The Python values a decorated method can return, as far as truthiness goes. */
  datatype PyValue = PyNone | PyBool(b: bool) | PyInt(i: int) | PyStr(s: string) | PyList(items: seq<PyValue>)

  /** `bool(v)`. */
  predicate Truthy(v: PyValue)
  {
    match v
    case PyNone => false
    case PyBool(b) => b
    case PyInt(i) => i != 0
    case PyStr(s) => s != ""
    case PyList(items) => items != []
  }

  /**
   * The cached value after a series of calls, where `outs[k]` is what the
   * wrapped method would return on call k: each call either returns the
   * truthy cache or runs the method and caches its result. A call on which
   * the method raises leaves the cache as it was, so it is left out of `outs`.
   */
  function Replay(solved: PyValue, outs: seq<PyValue>): PyValue
    decreases |outs|
  {
    if outs == [] then solved else Replay(if Truthy(solved) then solved else outs[0], outs[1..])
  }

  /** A truthy cached value survives every later call. */
  lemma {:induction false} ReplaySticks(solved: PyValue, outs: seq<PyValue>)
    requires Truthy(solved)
    ensures Replay(solved, outs) == solved
    decreases |outs|
  {
    if outs != [] {
      ReplaySticks(solved, outs[1..]);
    }
  }

  /** From a falsy cache, the cache ends as the first truthy result, or as the last result when none is truthy. */
  lemma {:induction false} ReplayFirstTruthy(solved: PyValue, outs: seq<PyValue>)
    requires !Truthy(solved) && outs != []
    ensures (exists k :: 0 <= k < |outs| && Truthy(outs[k])) ==>
      exists k :: 0 <= k < |outs| && Truthy(outs[k]) && (forall j :: 0 <= j < k ==> !Truthy(outs[j])) && Replay(solved, outs) == outs[k]
    ensures (forall k :: 0 <= k < |outs| ==> !Truthy(outs[k])) ==> Replay(solved, outs) == outs[|outs| - 1]
    decreases |outs|
  {
    if Truthy(outs[0]) {
      ReplaySticks(outs[0], outs[1..]);
    } else if |outs| > 1 {
      ReplayFirstTruthy(outs[0], outs[1..]);
      if exists k :: 0 <= k < |outs| && Truthy(outs[k]) {
        var k :| 0 <= k < |outs| - 1 && Truthy(outs[1..][k]) && (forall j :: 0 <= j < k ==> !Truthy(outs[1..][j])) &&
          Replay(outs[0], outs[1..]) == outs[1..][k];
        assert Truthy(outs[k + 1]) && Replay(solved, outs) == outs[k + 1];
        assert forall j :: 0 <= j < k + 1 ==> !Truthy(outs[j]) by {
          forall j | 0 <= j < k + 1 ensures !Truthy(outs[j]) {
            if j > 0 {
              assert outs[j] == outs[1..][j - 1];
            }
          }
        }
      }
    }
  }

  /** The wrapper that `output` returns, with its cached `__solved`. */
  class Output {
    var solved: PyValue
    const isOutput: bool
    /** How many times the wrapped method has run. */
    ghost var runs: nat

    /** Decorating: `_is_output` is set and the cache starts as False. */
    constructor()
      ensures solved == PyBool(false) && isOutput && runs == 0
    {
      solved := PyBool(false);
      isOutput := true;
      runs := 0;
    }

    /**
     * Calling the wrapper with `args`: a truthy cache is returned without
     * running `func`, whatever the arguments; otherwise `func(args)` runs and
     * its result, truthy or not, becomes the cache and is returned. When
     * `func` raises, the exception propagates before the cache is assigned,
     * so the cache is kept and the next call runs `func` again.
     */
    method Call(func: seq<PyValue> -> Result<PyValue, string>, args: seq<PyValue>) returns (r: Result<PyValue, string>)
      modifies this
      ensures old(Truthy(solved)) ==> r == Ok(old(solved)) && solved == old(solved)
      ensures !old(Truthy(solved)) ==> r == func(args)
      ensures r.Ok? ==> solved == r.value && solved == Replay(old(solved), [r.value])
      ensures r.Err? ==> solved == old(solved)
      ensures runs == if old(Truthy(solved)) then old(runs) else old(runs) + 1
    {
      if Truthy(solved) {
        return Ok(solved);
      }
      runs := runs + 1;
      var out := func(args);
      if out.Err? {
        return Err(out.error);
      }
      solved := out.value;
      return Ok(solved);
    }
  }

  // ----- Result.from_distributions -----

  /** The `Result` dataclass, without `energy_std`. */
  datatype RunResult = RunResult(
    bestBitstring: string,
    bestEnergy: real,
    mostCommonBitstring: string,
    mostCommonBitstringEnergy: real,
    distribution: Dict<string>,
    energies: Dict<string>,
    numOfSamples: real,
    averageEnergy: real,
    result: Option<string>)

  /** The entry that `min(d, key=d.get)` picks: the first with the smallest value. */
  function MinIndex(d: Dict<string>): (i: nat)
    requires |d| > 0
    ensures i < |d|
    ensures forall j :: 0 <= j < |d| ==> d[i].1 <= d[j].1
    ensures forall j :: 0 <= j < i ==> d[i].1 < d[j].1
  {
    if |d| == 1 then 0
    else
      var m := MinIndex(d[..|d| - 1]);
      if d[|d| - 1].1 < d[m].1 then |d| - 1 else m
  }

  /** The entry that `max(d, key=d.get)` picks: the first with the largest value. */
  function MaxIndex(d: Dict<string>): (i: nat)
    requires |d| > 0
    ensures i < |d|
    ensures forall j :: 0 <= j < |d| ==> d[j].1 <= d[i].1
    ensures forall j :: 0 <= j < i ==> d[j].1 < d[i].1
  {
    if |d| == 1 then 0
    else
      var m := MaxIndex(d[..|d| - 1]);
      if d[|d| - 1].1 > d[m].1 then |d| - 1 else m
  }

  /** `sum(d.values())`. */
  function Total(d: Dict<string>): real
  {
    if d == [] then 0.0 else d[0].1 + Total(d[1..])
  }

  /** `KeyError(key)`. */
  function KeyError(key: string): string
  {
    "KeyError: " + key
  }

  /** `sum(energies[b] * occ for b, occ in dist.items())`, raising KeyError at the first bit string without an energy. */
  function WeightedSum(dist: Dict<string>, energies: Dict<string>): Result<real, string>
  {
    if dist == [] then Ok(0.0)
    else
      match Find(energies, dist[0].0)
      case None => Err(KeyError(dist[0].0))
      case Some(e) =>
        match WeightedSum(dist[1..], energies)
        case Ok(rest) => Ok(e * dist[0].1 + rest)
        case Err(m) => Err(m)
  }

  /** The weighted sum fails exactly when some sampled bit string has no energy. */
  lemma {:induction false} WeightedSumOk(dist: Dict<string>, energies: Dict<string>)
    ensures WeightedSum(dist, energies).Ok? <==> forall i :: 0 <= i < |dist| ==> Find(energies, dist[i].0).Some?
    decreases |dist|
  {
    if dist != [] {
      WeightedSumOk(dist[1..], energies);
      assert forall i :: 1 <= i < |dist| ==> dist[i] == dist[1..][i - 1];
    }
  }

  /**
   * `Result.from_distributions(bitstring_distribution, energy_distribution,
   * result)`, without the standard deviation, whose last step still divides
   * by `num_of_samples - 1`.
   */
  function FromDistributions(dist: Dict<string>, energies: Dict<string>, result: Option<string>): Result<RunResult, string>
  {
    if |energies| == 0 then Err("min() arg is an empty sequence")
    else if |dist| == 0 then Err("max() arg is an empty sequence")
    else
      var best := energies[MinIndex(energies)].0;
      var bestEnergy := Find(energies, best);
      var common := dist[MaxIndex(dist)].0;
      match Find(energies, common)
      case None => Err(KeyError(common))
      case Some(commonEnergy) =>
        var num := Total(dist);
        match WeightedSum(dist, energies)
        case Err(m) => Err(m)
        case Ok(w) =>
          if num == 0.0 || num - 1.0 == 0.0 then Err("ZeroDivisionError")
          else
            Ok(RunResult(best, if bestEnergy.Some? then bestEnergy.value else 0.0, common, commonEnergy,
                         dist, energies, num, w / num, result))
  }

  /**
   * `from_distributions` succeeds exactly when both dicts are non-empty,
   * every sampled bit string has an energy and the total count is neither
   * 0 nor 1.
   */
  lemma FromDistributionsOk(dist: Dict<string>, energies: Dict<string>, result: Option<string>)
    ensures FromDistributions(dist, energies, result).Ok? <==>
      |energies| > 0 && |dist| > 0 && (forall i :: 0 <= i < |dist| ==> Find(energies, dist[i].0).Some?) &&
      Total(dist) != 0.0 && Total(dist) != 1.0
  {
    WeightedSumOk(dist, energies);
    if |energies| > 0 && |dist| > 0 {
      var m := MaxIndex(dist);
      assert Find(energies, dist[m].0).None? ==> !(forall i :: 0 <= i < |dist| ==> Find(energies, dist[i].0).Some?);
    }
  }

  /** A mean times its count gives back the sum it was taken of. */
  lemma MeanTimesCount(mean: real, w: real, num: real)
    requires num != 0.0 && mean == w / num
    ensures Times(mean, num) == w
  {
  }

  /**
   * On dicts, a successful `from_distributions` reports a bit string of
   * least energy with that energy, the most frequent bit string with its
   * energy, the total count, and the count-weighted mean energy.
   */
  lemma FromDistributionsSpec(dist: Dict<string>, energies: Dict<string>, result: Option<string>)
    requires Distinct(energies) && Distinct(dist) && FromDistributions(dist, energies, result).Ok?
    ensures var r := FromDistributions(dist, energies, result).value;
      Find(energies, r.bestBitstring) == Some(r.bestEnergy) &&
      (forall j :: 0 <= j < |energies| ==> r.bestEnergy <= energies[j].1)
    ensures var r := FromDistributions(dist, energies, result).value;
      Find(dist, r.mostCommonBitstring).Some? &&
      (forall j :: 0 <= j < |dist| ==> dist[j].1 <= Find(dist, r.mostCommonBitstring).value) &&
      Find(energies, r.mostCommonBitstring) == Some(r.mostCommonBitstringEnergy)
    ensures var r := FromDistributions(dist, energies, result).value;
      r.numOfSamples == Total(dist) && r.distribution == dist && r.energies == energies && r.result == result
    ensures var r := FromDistributions(dist, energies, result).value;
      WeightedSum(dist, energies) == Ok(Times(r.averageEnergy, r.numOfSamples))
  {
    var b := MinIndex(energies);
    FindDistinct(energies, b);
    var m := MaxIndex(dist);
    FindDistinct(dist, m);
    var r := FromDistributions(dist, energies, result).value;
    assert WeightedSum(dist, energies).Ok?;
    var w := WeightedSum(dist, energies).value;
    assert r.numOfSamples == Total(dist) != 0.0;
    assert r.averageEnergy == w / r.numOfSamples;
    MeanTimesCount(r.averageEnergy, w, r.numOfSamples);
  }
}

=== FILE: binary.dfy ===
/**
 * The `Binary` class (jssp/Binary.py): a sparse polynomial whose `data`
 * dict the operators copy into a new `Binary`, and which `calculate`
 * rewrites in place before storing its result as `spin`. A `Binary`
 * operand is passed by its data, as `Poly(b.data)`.
 */
module BinaryClass {
  import opened Wrappers
  import opened OrderedDict
  import opened BinaryKeys
  import opened BinaryOps
  import opened BinaryCalculate

  class Binary {
    var data: Dict<Key>
    /** `self.spin`, set by `calculate`; `None` until then. */
    var spin: Option<Spin>

    constructor FromData(d: Dict<Key>)
      ensures data == d && spin == None
    {
      data := d;
      spin := None;
    }

    /** `Binary(value)`: a string, an int, a dict or a Binary; anything else raises TypeError. */
    static method New(value: Operand) returns (r: Result<Binary, string>)
      ensures r.Err? <==> Init(value).Err?
      ensures r.Err? ==> r.error == Init(value).error
      ensures r.Ok? ==> fresh(r.value) && r.value.data == Init(value).value && r.value.spin == None
    {
      var d: Dict<Key>;
      if value.Str? {
        d := [(Name(value.s), 0.5)];
        d := Put(d, Free, 0.5);
      } else if value.Int? {
        d := [(Free, value.n as real)];
      } else if value.Mapping? {
        d := value.entries;
      } else if value.Poly? {
        d := value.data;
      } else {
        return Err(Unsupported(value));
      }
      var b := new Binary.FromData(d);
      r := Ok(b);
    }

    /** The new `Binary(data)` an operator returns. */
    static method Wrap(d: Dict<Key>) returns (r: Result<Binary, string>)
      ensures r.Ok? && fresh(r.value) && r.value.data == d && r.value.spin == None
    {
      var b := new Binary.FromData(d);
      r := Ok(b);
    }

    /** `self + other`; neither operand changes. */
    method Add(other: Operand) returns (r: Result<Binary, string>)
      ensures r.Err? <==> Plus(data, other).Err?
      ensures r.Err? ==> r.error == Plus(data, other).error
      ensures r.Ok? ==> fresh(r.value) && r.value.data == Plus(data, other).value && r.value.spin == None
    {
      var d := data;
      match other {
        case Str(s) => d := Bump(d, Name(s), 1.0);
        case Int(n) => d := Bump(d, Free, n as real);
        case Float(x) => d := Bump(d, Free, x);
        case Mapping(o) => d := AddItems(d, o);
        case Poly(o) => d := AddItems(d, o);
        case Other(_) => return Err(Unsupported(other));
      }
      r := Wrap(d);
    }

    /** `other + self`, whose code is that of `__add__`. */
    method Radd(other: Operand) returns (r: Result<Binary, string>)
      ensures r.Err? <==> Plus(data, other).Err?
      ensures r.Err? ==> r.error == Plus(data, other).error
      ensures r.Ok? ==> fresh(r.value) && r.value.data == Plus(data, other).value && r.value.spin == None
    {
      r := Add(other);
    }

    /** `self - other`; neither operand changes. */
    method Sub(other: Operand) returns (r: Result<Binary, string>)
      ensures r.Err? <==> Minus(data, other).Err?
      ensures r.Err? ==> r.error == Minus(data, other).error
      ensures r.Ok? ==> fresh(r.value) && r.value.data == Minus(data, other).value && r.value.spin == None
    {
      var d := data;
      match other {
        case Str(s) => d := Reduce(d, Name(s), 1.0);
        case Int(n) => d := Reduce(d, Free, n as real);
        case Float(x) => d := Reduce(d, Free, x);
        case Mapping(o) => d := SubItems(d, o);
        case Poly(o) => d := SubItems(d, o);
        case Other(_) => return Err(Unsupported(other));
      }
      r := Wrap(d);
    }

    /** `other - self`, computed as `Binary(other) - self`. */
    method Rsub(other: Operand) returns (r: Result<Binary, string>)
      ensures r.Err? <==> MinusFrom(other, data).Err?
      ensures r.Err? ==> r.error == MinusFrom(other, data).error
      ensures r.Ok? ==> fresh(r.value) && r.value.data == MinusFrom(other, data).value && r.value.spin == None
    {
      var left := New(other);
      if left.Err? {
        return Err(left.error);
      }
      r := left.value.Sub(Poly(data));
    }

    /** `self * other`; neither operand changes. */
    method Mul(other: Operand) returns (r: Result<Binary, string>)
      ensures r.Err? <==> Product(data, other).Err?
      ensures r.Err? ==> r.error == Product(data, other).error
      ensures r.Ok? ==> fresh(r.value) && r.value.data == Product(data, other).value && r.value.spin == None
    {
      var d;
      match other {
        case Str(s) => d := MulNameItems(data, s);
        case Int(n) => d := ScaleItems(data, n as real);
        case Float(x) => d := ScaleItems(data, x);
        case Mapping(o) => d := MulItems(data, o, false);
        case Poly(o) => d := MulItems(data, o, true);
        case Other(_) => return Err(Unsupported(other));
      }
      r := Wrap(d);
    }

    /** `other * self`, whose code is that of `__mul__`. */
    method Rmul(other: Operand) returns (r: Result<Binary, string>)
      ensures r.Err? <==> Product(data, other).Err?
      ensures r.Err? ==> r.error == Product(data, other).error
      ensures r.Ok? ==> fresh(r.value) && r.value.data == Product(data, other).value && r.value.spin == None
    {
      r := Mul(other);
    }

    /** `self ** other` for a non-negative int exponent; anything else raises TypeError. */
    method Pow(other: Operand) returns (r: Result<Binary, string>)
      ensures r.Err? <==> Power(data, other).Err?
      ensures r.Err? ==> r.error == Power(data, other).error
      ensures r.Ok? ==> fresh(r.value) && r.value.data == Power(data, other).value && r.value.spin == None
    {
      var d := data;
      if other.Int? && other.n >= 0 {
        if other.n == 0 {
          var b := new Binary.FromData([(Free, 1.0)]);
          return Ok(b);
        } else if other.n == 1 {
          var b := new Binary.FromData(d);
          return Ok(b);
        } else if other.n == 2 {
          var left := new Binary.FromData(d);
          var right := new Binary.FromData(d);
          r := left.Mul(Poly(right.data));
          return;
        }
      } else {
        return Err(Unsupported(other));
      }
      var b := new Binary.FromData(d);
      r := Ok(b);
    }

    /**
     * `calculate`: rewrites `data` (steps 1 and 2 happen before step 4 can
     * raise), then returns the linear dict, the quadratic dict and the
     * offset, and stores them as `spin`.
     */
    method Calculate() returns (r: Result<Spin, string>)
      modifies this
      ensures data == Stripped(old(data))
      ensures r == Normalise(old(data))
      ensures r.Ok? ==> spin == Some(r.value)
      ensures r.Err? ==> spin == old(spin)
    {
      ghost var d0 := data;
      data := FoldFreeItems(data);
      var energy := 0.0;
      if Find(data, Free).Some? {
        energy := Coef(data, Free);
        data := Delete(data, Free);
      } else {
        DeleteAbsent(data, Free);
      }
      assert data == Stripped(d0) && energy == Offset(d0);
      var linear, quadratic := SplitItems(data);
      var oriented := OrientItems(quadratic);
      if oriented.Err? {
        return Err(oriented.error);
      }
      var s := Spin(linear, oriented.value, energy);
      spin := Some(s);
      r := Ok(s);
    }

    /** `compile`: calculates, then returns this same object. */
    method Compile() returns (r: Result<Binary, string>)
      modifies this
      ensures data == Stripped(old(data))
      ensures r.Err? <==> Normalise(old(data)).Err?
      ensures r.Ok? ==> r.value == this && spin == Some(Normalise(old(data)).value)
    {
      var c := Calculate();
      if c.Err? {
        return Err(c.error);
      }
      r := Ok(this);
    }
  }
}

=== FILE: binary_calculate.dfy ===
/**
 * `Binary.calculate` (jssp/Binary.py:216-260): the normalisation of a
 * polynomial into linear terms, quadratic terms and an offset, in its four
 * steps, each a loop over the dict:
 *   1. a copy of the items is walked and every tuple key with `'free'` on one
 *      side is folded into the key on the other side;
 *   2. `'free'` is popped as the offset (0 when absent);
 *   3. string keys go to the linear dict, tuple keys to the quadratic dict,
 *      a tuple whose reverse is already there adding to that reverse;
 *   4. a copy of the quadratic items is walked and every tuple `(a, b)` with
 *      `a > b` is moved to `(b, a)`.
 * Each step is a fold below, with a method that runs it as the loop.
 */
module BinaryCalculate {
  import opened Wrappers
  import opened OrderedDict
  import opened BinaryKeys

  /** The result of `calculate`, also stored as `self.spin`. */
  datatype Spin = Spin(linear: Dict<Key>, quadratic: Dict<Key>, offset: real)

  /** Every key is a name or a pair of names: a polynomial of degree at most two. */
  ghost predicate Flat(d: Dict<Key>)
  {
    forall k :: Find(d, k).Some? ==> FlatKey(k)
  }

  /** The coefficient of the unordered pair `{a, b}`, summed over both orientations. */
  function Sym(q: Dict<Key>, a: Key, b: Key): real
  {
    Coef(q, Pair(a, b)) + if a != b then Coef(q, Pair(b, a)) else 0.0
  }

  /** No unordered pair is present in both orientations. */
  ghost predicate OneOrientation(q: Dict<Key>)
  {
    forall a, b :: a != b && Find(q, Pair(a, b)).Some? ==> Find(q, Pair(b, a)).None?
  }

  // ----- step 1 -----

  /** Step 1 for one `key, value` of the copy. */
  function FoldEntry(d: Dict<Key>, e: (Key, real)): Dict<Key>
  {
    match e.0
    case Pair(a, b) =>
      if a == Free then Delete(Bump(d, b, e.1), e.0)
      else if b == Free then Delete(Bump(d, a, e.1), e.0)
      else d
    case Name(_) => d
  }

  /** Step 1 over the items `snap` of the copy, starting from `d`. */
  function FoldFree(d: Dict<Key>, snap: Dict<Key>): Dict<Key>
  {
    if snap == [] then d
    else FoldEntry(FoldFree(d, snap[..|snap| - 1]), snap[|snap| - 1])
  }

  /** A name gains the coefficients of `('free', name)` and `(name, 'free')`; `'free'` gains that of `('free', 'free')` once. */
  lemma {:induction false} FoldFreeName(d: Dict<Key>, snap: Dict<Key>, n: string)
    requires Distinct(snap)
    ensures Coef(FoldFree(d, snap), Name(n)) ==
      Coef(d, Name(n)) + Coef(snap, Pair(Free, Name(n))) + if n != "free" then Coef(snap, Pair(Name(n), Free)) else 0.0
    decreases |snap|
  {
    if snap != [] {
      var init := snap[..|snap| - 1];
      DistinctInit(snap);
      FoldFreeName(d, init, n);
      CoefLast(snap, Pair(Free, Name(n)));
      CoefLast(snap, Pair(Name(n), Free));
    }
  }

  /** Of degree-two data, step 1 removes exactly the pairs with `'free'` on a side and keeps every other pair. */
  lemma {:induction false} FoldFreePair(d: Dict<Key>, snap: Dict<Key>, a: Key, b: Key)
    requires Flat(snap)
    ensures Find(FoldFree(d, snap), Pair(a, b)) ==
      if (a == Free || b == Free) && Find(snap, Pair(a, b)).Some? then None else Find(d, Pair(a, b))
    decreases |snap|
  {
    if snap != [] {
      var init, e := snap[..|snap| - 1], snap[|snap| - 1];
      assert snap == init + [e];
      FindOfEntry(snap, |snap| - 1);
      FindAppend(init, e, Pair(a, b));
      forall k | Find(init, k).Some? ensures FlatKey(k) {
        FindAppend(init, e, k);
      }
      FoldFreePair(d, init, a, b);
    }
  }

  lemma {:induction false} FoldFreeDistinct(d: Dict<Key>, snap: Dict<Key>)
    requires Distinct(d)
    ensures Distinct(FoldFree(d, snap))
    decreases |snap|
  {
    if snap != [] {
      var init, e := snap[..|snap| - 1], snap[|snap| - 1];
      FoldFreeDistinct(d, init);
      var f := FoldFree(d, init);
      if e.0.Pair? {
        var target := if e.0.fst == Free then e.0.snd else e.0.fst;
        PutDistinct(f, target, Coef(f, target) + e.1);
        DeleteDistinct(Bump(f, target, e.1), e.0);
      }
    }
  }

  // ----- step 3 -----

  /** Step 3 for one `key, value`: the pair of (linear, quadratic) dicts after it. */
  function SplitEntry(parts: (Dict<Key>, Dict<Key>), e: (Key, real)): (Dict<Key>, Dict<Key>)
  {
    match e.0
    case Name(_) => (Put(parts.0, e.0, e.1), parts.1)
    case Pair(a, b) =>
      if Find(parts.1, Pair(b, a)).Some? then (parts.0, Bump(parts.1, Pair(b, a), e.1))
      else (parts.0, Put(parts.1, e.0, e.1))
  }

  /** Step 3 over all of `d`. */
  function Split(d: Dict<Key>): (Dict<Key>, Dict<Key>)
  {
    if d == [] then ([], [])
    else SplitEntry(Split(d[..|d| - 1]), d[|d| - 1])
  }

  /** The linear dict holds exactly the name keys, with their coefficients. */
  lemma {:induction false} SplitLinear(d: Dict<Key>, k: Key)
    requires Distinct(d)
    ensures Find(Split(d).0, k) == if k.Name? then Find(d, k) else None
    decreases |d|
  {
    if d != [] {
      var init, e := d[..|d| - 1], d[|d| - 1];
      assert d == init + [e];
      DistinctInit(d);
      KeysFind(init, e.0);
      FindAppend(init, e, k);
      SplitLinear(init, k);
    }
  }

  /** Every key of the quadratic dict is a tuple key of `d`. */
  lemma {:induction false} SplitQuadKeys(d: Dict<Key>, k: Key)
    ensures Find(Split(d).1, k).Some? ==> k.Pair? && Find(d, k).Some?
    decreases |d|
  {
    if d != [] {
      var init, e := d[..|d| - 1], d[|d| - 1];
      assert d == init + [e];
      FindAppend(init, e, k);
      SplitQuadKeys(init, k);
      if e.0.Pair? {
        SplitQuadKeys(init, Pair(e.0.snd, e.0.fst));
      }
    }
  }

  /** The quadratic dict never holds a pair in both orientations. */
  lemma {:induction false} SplitOneOrientation(d: Dict<Key>, a: Key, b: Key)
    ensures a != b && Find(Split(d).1, Pair(a, b)).Some? ==> Find(Split(d).1, Pair(b, a)).None?
    decreases |d|
  {
    if d != [] {
      var init := d[..|d| - 1];
      SplitOneOrientation(init, a, b);
      SplitOneOrientation(init, b, a);
    }
  }

  /** Step 3 keeps the coefficient of every unordered pair. */
  lemma {:induction false} SplitSym(d: Dict<Key>, a: Key, b: Key)
    requires Distinct(d)
    ensures Sym(Split(d).1, a, b) == Sym(d, a, b)
    decreases |d|
  {
    if d != [] {
      var init, e := d[..|d| - 1], d[|d| - 1];
      DistinctInit(d);
      KeysFind(init, e.0);
      SplitSym(init, a, b);
      CoefLast(d, Pair(a, b));
      CoefLast(d, Pair(b, a));
      SplitQuadKeys(init, e.0);
      SplitEntrySym(Split(init), e, a, b);
    }
  }

  /** One item of step 3 adds its value to its own unordered pair, when its key is new to the quadratic dict. */
  lemma SplitEntrySym(parts: (Dict<Key>, Dict<Key>), e: (Key, real), a: Key, b: Key)
    requires Find(parts.1, e.0).None?
    ensures Sym(SplitEntry(parts, e).1, a, b) ==
      Sym(parts.1, a, b) + if e.0 == Pair(a, b) || (a != b && e.0 == Pair(b, a)) then e.1 else 0.0
  {
  }

  lemma {:induction false} SplitDistinct(d: Dict<Key>)
    ensures Distinct(Split(d).0) && Distinct(Split(d).1)
    decreases |d|
  {
    if d != [] {
      var init, e := d[..|d| - 1], d[|d| - 1];
      SplitDistinct(init);
      var parts := Split(init);
      PutDistinct(parts.0, e.0, e.1);
      PutDistinct(parts.1, e.0, e.1);
      if e.0.Pair? {
        var rev := Pair(e.0.snd, e.0.fst);
        PutDistinct(parts.1, rev, Coef(parts.1, rev) + e.1);
      }
    }
  }

  // ----- step 4 -----

  /** Step 4 for one `key, value` of the copy; comparing a `str` with a tuple raises. */
  function OrientEntry(q: Dict<Key>, e: (Key, real)): Result<Dict<Key>, string>
  {
    match e.0
    case Name(_) => Ok(q)
    case Pair(a, b) =>
      match KeyGt(a, b)
      case Err(m) => Err(m)
      case Ok(gt) => if gt then Ok(Delete(Put(q, Pair(b, a), e.1), e.0)) else Ok(q)
  }

  /** Step 4 over the items `snap` of the copy, starting from `q`; the first exception stops it. */
  function Orient(q: Dict<Key>, snap: Dict<Key>): Result<Dict<Key>, string>
  {
    if snap == [] then Ok(q)
    else
      match Orient(q, snap[..|snap| - 1])
      case Err(m) => Err(m)
      case Ok(q1) => OrientEntry(q1, snap[|snap| - 1])
  }

  /**
   * After step 4 has walked the first `i` items, a key that compares `>`
   * is one of the original keys not walked yet; so once it has walked them
   * all, every key is in order.
   */
  lemma {:induction false} OrientKeys(q0: Dict<Key>, i: int, k: Key)
    requires 0 <= i <= |q0|
    requires forall j :: Find(q0, j).Some? ==> j.Pair?
    ensures Orient(q0, q0[..i]).Ok? ==>
      (Find(Orient(q0, q0[..i]).value, k).Some? ==>
        k.Pair? &&
        (Find(q0, k).Some? || Find(q0, Pair(k.snd, k.fst)).Some?) &&
        (Above(k.fst, k.snd) ==> Find(q0, k).Some? && Find(q0[..i], k).None?))
    decreases i
  {
    if i > 0 {
      var p, e := q0[..i - 1], q0[i - 1];
      assert q0[..i][..i - 1] == p && q0[..i][i - 1] == e;
      assert q0[..i] == p + [e];
      FindAppend(p, e, k);
      OrientKeys(q0, i - 1, k);
      FindOfEntry(q0, i - 1);
      if e.0.Pair? && Orient(q0, p).Ok? {
        AboveAsymmetric(e.0.fst, e.0.snd);
        if k.Pair? && Pair(k.snd, k.fst) == e.0 {
          OrientKeys(q0, i - 1, e.0);
        }
      }
    }
  }

  /** Of pairs of names, step 4 never raises. */
  lemma {:induction false} OrientOk(q: Dict<Key>, snap: Dict<Key>)
    requires forall j :: Find(snap, j).Some? ==> j.Pair? && j.fst.Name? && j.snd.Name?
    ensures Orient(q, snap).Ok?
    decreases |snap|
  {
    if snap != [] {
      var init, e := snap[..|snap| - 1], snap[|snap| - 1];
      assert snap == init + [e];
      forall j | Find(init, j).Some? ensures j.Pair? && j.fst.Name? && j.snd.Name? {
        FindAppend(init, e, j);
      }
      OrientOk(q, init);
      FindOfEntry(snap, |snap| - 1);
      NamesOrdered(e.0.fst.name, e.0.snd.name);
    }
  }

  /**
   * After step 4 has walked the first `i` items of a dict without repeated
   * keys and with one orientation per pair: a pair `(a, b)` with `a > b`
   * that was walked is gone, and its coefficient has moved to `(b, a)`.
   */
  lemma {:induction false} OrientCoef(q0: Dict<Key>, i: int, a: Key, b: Key)
    requires 0 <= i <= |q0|
    requires Distinct(q0) && OneOrientation(q0)
    ensures Orient(q0, q0[..i]).Ok? ==>
      Coef(Orient(q0, q0[..i]).value, Pair(a, b)) ==
        if Above(a, b) && Find(q0[..i], Pair(a, b)).Some? then 0.0
        else Coef(q0, Pair(a, b)) + if Above(b, a) && Find(q0[..i], Pair(b, a)).Some? then Coef(q0, Pair(b, a)) else 0.0
    decreases i
  {
    if i > 0 {
      var p, e := q0[..i - 1], q0[i - 1];
      assert q0[..i][..i - 1] == p && q0[..i][i - 1] == e;
      assert q0[..i] == p + [e];
      FindAppend(p, e, Pair(a, b));
      FindAppend(p, e, Pair(b, a));
      OrientCoef(q0, i - 1, a, b);
      FindDistinct(q0, i - 1);
      if e.0.Pair? {
        AboveAsymmetric(e.0.fst, e.0.snd);
        AboveAsymmetric(a, b);
      }
      var r := Orient(q0, p);
      if r.Ok? && OrientEntry(r.value, e).Ok? {
        OrientEntryCoef(r.value, e, Pair(a, b));
      }
    }
  }

  /** One item `(a, b)` of step 4 with `a > b` moves its value to `(b, a)` and leaves every other key alone. */
  lemma OrientEntryCoef(q: Dict<Key>, e: (Key, real), j: Key)
    requires OrientEntry(q, e).Ok?
    ensures Coef(OrientEntry(q, e).value, j) ==
      if e.0.Pair? && Above(e.0.fst, e.0.snd) then
        if j == e.0 then 0.0 else if j == Pair(e.0.snd, e.0.fst) then e.1 else Coef(q, j)
      else Coef(q, j)
  {
  }

  // ----- the whole of `calculate` -----

  /** `self.data` once steps 1 and 2 are done. */
  function Stripped(d: Dict<Key>): Dict<Key>
  {
    Delete(FoldFree(d, d), Free)
  }

  /** The offset popped in step 2. */
  function Offset(d: Dict<Key>): real
  {
    Coef(FoldFree(d, d), Free)
  }

  /** What `calculate` returns for data `d`, or the exception it raises. */
  function Normalise(d: Dict<Key>): Result<Spin, string>
  {
    var parts := Split(Stripped(d));
    match Orient(parts.1, parts.1)
    case Err(m) => Err(m)
    case Ok(q) => Ok(Spin(parts.0, q, Offset(d)))
  }

  /** Whatever the data, a result has only non-`'free'` names as linear keys and only ordered tuples as quadratic keys. */
  lemma NormaliseShape(d: Dict<Key>, k: Key)
    requires Distinct(d)
    ensures Normalise(d).Ok? ==> (Find(Normalise(d).value.linear, k).Some? ==> k.Name? && k != Free)
    ensures Normalise(d).Ok? ==> (Find(Normalise(d).value.quadratic, k).Some? ==> k.Pair? && !Above(k.fst, k.snd))
  {
    var s := Stripped(d);
    FoldFreeDistinct(d, d);
    DeleteDistinct(FoldFree(d, d), Free);
    SplitLinear(s, k);
    var q := Split(s).1;
    forall j | Find(q, j).Some? ensures j.Pair? {
      SplitQuadKeys(s, j);
    }
    OrientKeys(q, |q|, k);
    assert q[..|q|] == q;
  }

  /**
   * Of degree-two data without repeated keys, `calculate` succeeds; the
   * offset is the constant plus `('free', 'free')`; each name collects its
   * own coefficient and those of its pairs with `'free'`; and each ordered
   * pair of names collects both orientations.
   */
  lemma NormaliseCoef(d: Dict<Key>, n: string, x: string, y: string)
    requires Distinct(d) && Flat(d)
    ensures Normalise(d).Ok?
    ensures Normalise(d).value.offset == Coef(d, Free) + Coef(d, Pair(Free, Free))
    ensures n != "free" ==>
      Coef(Normalise(d).value.linear, Name(n)) == Coef(d, Name(n)) + Coef(d, Pair(Free, Name(n))) + Coef(d, Pair(Name(n), Free))
    ensures x != "free" && y != "free" && !StrGt(x, y) ==>
      Coef(Normalise(d).value.quadratic, Pair(Name(x), Name(y))) ==
        Coef(d, Pair(Name(x), Name(y))) + if x != y then Coef(d, Pair(Name(y), Name(x))) else 0.0
  {
    var f := FoldFree(d, d);
    var s := Stripped(d);
    FoldFreeDistinct(d, d);
    DeleteDistinct(f, Free);
    FoldFreeName(d, d, "free");
    // linear
    FoldFreeName(d, d, n);
    SplitLinear(s, Name(n));
    // quadratic keys are pairs of names
    var q := Split(s).1;
    forall j | Find(q, j).Some? ensures j.Pair? && j.fst.Name? && j.snd.Name? {
      SplitQuadKeys(s, j);
      FoldFreePair(d, d, j.fst, j.snd);
    }
    OrientOk(q, q);
    SplitDistinct(s);
    forall a, b | a != b && Find(q, Pair(a, b)).Some? ensures Find(q, Pair(b, a)).None? {
      SplitOneOrientation(s, a, b);
    }
    var X, Y := Name(x), Name(y);
    OrientCoef(q, |q|, X, Y);
    assert q[..|q|] == q;
    FindCoef(q, Pair(X, Y));
    FindCoef(q, Pair(Y, X));
    SplitSym(s, X, Y);
    FoldFreePair(d, d, X, Y);
    FoldFreePair(d, d, Y, X);
    NamesOrdered(x, y);
    StrGtAsymmetric(x, y);
  }

  /** A coefficient of a key that is absent is 0. */
  lemma FindCoef(q: Dict<Key>, k: Key)
    ensures Find(q, k).None? ==> Coef(q, k) == 0.0
  {
  }

  // ----- the loops -----

  /** Step 1: the loop over `self.data.copy().items()`. */
  method FoldFreeItems(d: Dict<Key>) returns (r: Dict<Key>)
    ensures r == FoldFree(d, d)
  {
    var snap := d;
    r := d;
    for i := 0 to |snap|
      invariant r == FoldFree(d, snap[..i])
    {
      assert snap[..i + 1][..i] == snap[..i] && snap[..i + 1][i] == snap[i];
      var key, value := snap[i].0, snap[i].1;
      if key.Pair? {
        if key.fst == Free {
          r := Bump(r, key.snd, value);
          r := Delete(r, key);
        } else if key.snd == Free {
          r := Bump(r, key.fst, value);
          r := Delete(r, key);
        }
      }
    }
    assert snap[..|snap|] == snap;
  }

  /** Step 3: the loop over `self.data.items()`. */
  method SplitItems(d: Dict<Key>) returns (linear: Dict<Key>, quadratic: Dict<Key>)
    ensures (linear, quadratic) == Split(d)
  {
    linear, quadratic := [], [];
    for i := 0 to |d|
      invariant (linear, quadratic) == Split(d[..i])
    {
      assert d[..i + 1][..i] == d[..i] && d[..i + 1][i] == d[i];
      var key, value := d[i].0, d[i].1;
      if key.Name? {
        linear := Put(linear, key, value);
      } else if Find(quadratic, Pair(key.snd, key.fst)).Some? {
        quadratic := Bump(quadratic, Pair(key.snd, key.fst), value);
      } else {
        quadratic := Put(quadratic, key, value);
      }
    }
    assert d[..|d|] == d;
  }

  /** Step 4: the loop over `quadratic_dict.copy().items()`. */
  method OrientItems(q: Dict<Key>) returns (r: Result<Dict<Key>, string>)
    ensures r == Orient(q, q)
  {
    var snap := q;
    var cur := q;
    for i := 0 to |snap|
      invariant Orient(q, snap[..i]) == Ok(cur)
    {
      assert snap[..i + 1][..i] == snap[..i] && snap[..i + 1][i] == snap[i];
      var key, value := snap[i].0, snap[i].1;
      if key.Pair? {
        var gt := KeyGt(key.fst, key.snd);
        if gt.Err? {
          assert snap[..|snap|] == snap;
          OrientStops(q, snap, i);
          return Err(gt.error);
        }
        if gt.value {
          cur := Put(cur, Pair(key.snd, key.fst), value);
          cur := Delete(cur, key);
        }
      }
    }
    assert snap[..|snap|] == snap;
    r := Ok(cur);
  }

  /** Once an item raises, the rest of the walk is not run and the exception is the result. */
  lemma {:induction false} OrientStops(q: Dict<Key>, snap: Dict<Key>, i: int)
    requires 0 <= i < |snap| && Orient(q, snap[..i]).Ok?
    requires OrientEntry(Orient(q, snap[..i]).value, snap[i]).Err?
    ensures Orient(q, snap) == OrientEntry(Orient(q, snap[..i]).value, snap[i])
    decreases |snap| - i
  {
    if i + 1 < |snap| {
      assert snap[..|snap| - 1][..i] == snap[..i] && snap[..|snap| - 1][i] == snap[i];
      OrientStops(q, snap[..|snap| - 1], i);
    } else {
      assert snap[..|snap| - 1] == snap[..i];
    }
  }
}

=== FILE: binary_keys.dfy ===
/**
 * The keys of a `Binary` polynomial (jssp/Binary.py): a variable name, the
 * constant-term name `'free'`, or a tuple of two keys built by `*`; and
 * Python's `>` on them, which `calculate` uses to orient quadratic terms.
 */
module BinaryKeys {
  import opened Wrappers

  /** A Python `str` key, or a 2-tuple `(key, key2)` key. */
  datatype Key = Name(name: string) | Pair(fst: Key, snd: Key)

  /** The key under which the constant term is kept. */
  const Free: Key := Name("free")

  /** A key of a polynomial of degree at most two: a name, or a pair of names. */
  predicate FlatKey(k: Key)
  {
    k.Name? || (k.fst.Name? && k.snd.Name?)
  }

  /** Python's `a > b` on two `str`: code points compared left to right, a proper prefix being smaller. */
  predicate StrGt(a: string, b: string)
  {
    if b == [] then a != []
    else if a == [] then false
    else if a[0] != b[0] then a[0] > b[0]
    else StrGt(a[1..], b[1..])
  }

  lemma {:induction false} StrGtIrreflexive(a: string)
    ensures !StrGt(a, a)
  {
    if a != [] {
      StrGtIrreflexive(a[1..]);
    }
  }

  lemma {:induction false} StrGtAsymmetric(a: string, b: string)
    ensures StrGt(a, b) ==> !StrGt(b, a)
  {
    if a != [] && b != [] && a[0] == b[0] {
      StrGtAsymmetric(a[1..], b[1..]);
    }
  }

  /** Two different strings are always ordered one way or the other. */
  lemma {:induction false} StrGtTotal(a: string, b: string)
    ensures a != b ==> StrGt(a, b) || StrGt(b, a)
  {
    if a != [] && b != [] && a[0] == b[0] {
      StrGtTotal(a[1..], b[1..]);
      if a[1..] == b[1..] {
        assert a == [a[0]] + a[1..] && b == [b[0]] + b[1..];
      }
    }
  }

  /**
   * Python's `a > b` on two keys: `str` against `str` by `StrGt`; tuple
   * against tuple by the first component that differs; a `str` against a
   * tuple raises TypeError.
   */
  function KeyGt(a: Key, b: Key): (r: Result<bool, string>)
    ensures a == b ==> r == Ok(false)
  {
    match (a, b)
    case (Name(x), Name(y)) =>
      StrGtIrreflexive(x);
      Ok(StrGt(x, y))
    case (Pair(a1, a2), Pair(b1, b2)) =>
      if a1 != b1 then KeyGt(a1, b1)
      else if a2 != b2 then KeyGt(a2, b2)
      else Ok(false)
    case (Name(_), Pair(_, _)) => Err("'>' not supported between instances of 'str' and 'tuple'")
    case (Pair(_, _), Name(_)) => Err("'>' not supported between instances of 'tuple' and 'str'")
  }

  /** `a > b` holds (without raising). */
  predicate Above(a: Key, b: Key)
  {
    KeyGt(a, b) == Ok(true)
  }

  /** If `a > b` then not `b > a`, at any depth of tuples. */
  lemma {:induction false} AboveAsymmetric(a: Key, b: Key)
    ensures Above(a, b) ==> !Above(b, a)
  {
    match (a, b)
    case (Name(x), Name(y)) =>
      StrGtAsymmetric(x, y);
    case (Pair(a1, a2), Pair(b1, b2)) =>
      if a1 != b1 {
        AboveAsymmetric(a1, b1);
      } else if a2 != b2 {
        AboveAsymmetric(a2, b2);
      }
    case (Name(_), Pair(_, _)) =>
    case (Pair(_, _), Name(_)) =>
  }

  /** Two different names compare one way or the other, without raising. */
  lemma NamesOrdered(x: string, y: string)
    ensures KeyGt(Name(x), Name(y)).Ok?
    ensures x != y ==> Above(Name(x), Name(y)) || Above(Name(y), Name(x))
  {
    StrGtTotal(x, y);
  }
}

=== FILE: binary_ops.dfy ===
/**
 * The arithmetic of `Binary` (jssp/Binary.py:3-214) on its data, an
 * insertion-ordered dict from keys to coefficients. Each operator copies or
 * rebuilds the dict and returns a new `Binary`, so each is a function here;
 * its loops are the folds of OrderedDict and the two multiplication folds
 * below, and the methods at the end run them as loops.
 */
module BinaryOps {
  import opened Wrappers
  import opened OrderedDict
  import opened BinaryKeys

  /** The operand of an operator or of the constructor, by its Python type. */
  datatype Operand =
    | Str(s: string)
    | Int(n: int)
    | Float(x: real)
    | Mapping(entries: Dict<Key>)
    | Poly(data: Dict<Key>)
    | Other(typeName: string)

  function TypeName(v: Operand): string
  {
    match v
    case Str(_) => "<class 'str'>"
    case Int(_) => "<class 'int'>"
    case Float(_) => "<class 'float'>"
    case Mapping(_) => "<class 'dict'>"
    case Poly(_) => "<class 'Binary'>"
    case Other(t) => t
  }

  /** The message of the TypeError the operators raise. */
  function Unsupported(v: Operand): string
  {
    "Unsupported type: " + TypeName(v)
  }

  /** `Binary(value).data`, or the TypeError the constructor raises. */
  function Init(value: Operand): (r: Result<Dict<Key>, string>)
    ensures r.Err? <==> value.Float? || value.Other?
    ensures value.Str? && value.s != "free" ==> r == Ok([(Name(value.s), 0.5), (Free, 0.5)])
    ensures value.Str? && value.s == "free" ==> r == Ok([(Free, 0.5)])
    ensures value.Int? ==> r == Ok([(Free, value.n as real)])
    ensures value.Mapping? ==> r == Ok(value.entries)
    ensures value.Poly? ==> r == Ok(value.data)
  {
    match value
    case Str(s) =>
      var d := [(Name(s), 0.5)];
      assert d[1..] == [];
      assert Find(d, Free) == if s == "free" then Some(0.5) else None;
      assert s != "free" ==> d + [(Free, 0.5)] == [(Name(s), 0.5), (Free, 0.5)];
      assert s == "free" ==> d[0].0 == Free && Put(d, Free, 0.5) == [(Free, 0.5)] + d[1..] == [(Free, 0.5)];
      Ok(Put(d, Free, 0.5))
    case Int(n) => Ok([(Free, n as real)])
    case Mapping(d) => Ok(d)
    case Poly(d) => Ok(d)
    case _ => Err(Unsupported(value))
  }

  /** The data of `self + other` (and of `other + self`, whose code is the same). */
  function Plus(d: Dict<Key>, other: Operand): Result<Dict<Key>, string>
  {
    match other
    case Str(s) => Ok(Bump(d, Name(s), 1.0))
    case Int(n) => Ok(Bump(d, Free, n as real))
    case Float(x) => Ok(Bump(d, Free, x))
    case Mapping(o) => Ok(AddAll(d, o))
    case Poly(o) => Ok(AddAll(d, o))
    case Other(_) => Err(Unsupported(other))
  }

  /** The data of `self - other`. */
  function Minus(d: Dict<Key>, other: Operand): Result<Dict<Key>, string>
  {
    match other
    case Str(s) => Ok(Reduce(d, Name(s), 1.0))
    case Int(n) => Ok(Reduce(d, Free, n as real))
    case Float(x) => Ok(Reduce(d, Free, x))
    case Mapping(o) => Ok(SubAll(d, o))
    case Poly(o) => Ok(SubAll(d, o))
    case Other(_) => Err(Unsupported(other))
  }

  /** The data of `other - self`, which builds `Binary(other)` first. */
  function MinusFrom(other: Operand, d: Dict<Key>): Result<Dict<Key>, string>
  {
    match Init(other)
    case Err(e) => Err(e)
    case Ok(o) => Minus(o, Poly(d))
  }

  /**
   * `for key, value in self.data.items()` against the name `s`: the term of
   * `s` itself becomes part of the constant, every other key `k` becomes `(k, s)`.
   */
  function MulName(acc: Dict<Key>, d: Dict<Key>, s: string): Dict<Key>
  {
    if d == [] then acc
    else
      var e := d[|d| - 1];
      var r := MulName(acc, d[..|d| - 1], s);
      if e.0 == Name(s) then Bump(r, Free, e.1) else Put(r, Pair(e.0, Name(s)), e.1)
  }

  /**
   * The inner loop `for key2, value2 in other.items()` for one `key, value`
   * of `self`; `merge` says whether equal keys go to `'free'` (a Binary
   * operand) or to the tuple `(key, key)` (a dict operand).
   */
  function MulRow(acc: Dict<Key>, k: Key, v: real, o: Dict<Key>, merge: bool): Dict<Key>
  {
    if o == [] then acc
    else
      var e := o[|o| - 1];
      var r := MulRow(acc, k, v, o[..|o| - 1], merge);
      if merge && k == e.0 then Bump(r, Free, Times(v, e.1)) else Put(r, Pair(k, e.0), Times(v, e.1))
  }

  /** The nested loops of `__mul__` by a dict or a Binary. */
  function MulAll(acc: Dict<Key>, d: Dict<Key>, o: Dict<Key>, merge: bool): Dict<Key>
  {
    if d == [] then acc
    else
      var e := d[|d| - 1];
      MulRow(MulAll(acc, d[..|d| - 1], o, merge), e.0, e.1, o, merge)
  }

  /** The sum of the products of the coefficients of the keys two dicts share. */
  function Dot(d: Dict<Key>, o: Dict<Key>): real
  {
    if d == [] then 0.0
    else
      var e := d[|d| - 1];
      Dot(d[..|d| - 1], o) + Times(e.1, Coef(o, e.0))
  }

  /** The data of `self * other` (and of `other * self`, whose code is the same). */
  function Product(d: Dict<Key>, other: Operand): Result<Dict<Key>, string>
  {
    match other
    case Str(s) => Ok(MulName([], d, s))
    case Int(n) => Ok(ScaleAll(d, n as real))
    case Float(x) => Ok(ScaleAll(d, x))
    case Mapping(o) => Ok(MulAll([], d, o, false))
    case Poly(o) => Ok(MulAll([], d, o, true))
    case Other(_) => Err(Unsupported(other))
  }

  /** The data of `self ** other`. */
  function Power(d: Dict<Key>, other: Operand): (r: Result<Dict<Key>, string>)
    ensures r.Err? <==> !(other.Int? && other.n >= 0)
    ensures other == Int(0) ==> r == Ok([(Free, 1.0)])
    ensures other.Int? && (other.n == 1 || other.n > 2) ==> r == Ok(d)
  {
    if other.Int? && other.n >= 0 then
      if other.n == 0 then Ok([(Free, 1.0)])
      else if other.n == 2 then Product(d, Poly(d))
      else Ok(d)
    else Err(Unsupported(other))
  }

  // ----- what addition and subtraction do to each key -----

  /** `+` with a name adds 1 to that name's coefficient and leaves every other key as it was. */
  lemma PlusName(d: Dict<Key>, s: string)
    ensures Plus(d, Str(s)).Ok?
    ensures Coef(Plus(d, Str(s)).value, Name(s)) == Coef(d, Name(s)) + 1.0
    ensures forall k :: k != Name(s) ==> Find(Plus(d, Str(s)).value, k) == Find(d, k)
  {
  }

  /** `+` with a dict or a Binary adds key-wise and keeps every key of both. */
  lemma PlusDict(d: Dict<Key>, o: Dict<Key>, k: Key)
    requires Distinct(o)
    ensures Plus(d, Poly(o)) == Plus(d, Mapping(o)) == Ok(AddAll(d, o))
    ensures Coef(AddAll(d, o), k) == Coef(d, k) + Coef(o, k)
    ensures Find(AddAll(d, o), k).Some? <==> Find(d, k).Some? || Find(o, k).Some?
  {
    AddAllCoef(d, o, k);
  }

  /** `-` with a number takes it off the constant term, removing that term when it reaches 0. */
  lemma MinusNumber(d: Dict<Key>, c: real, k: Key)
    ensures Minus(d, Float(c)).Ok?
    ensures Coef(Minus(d, Float(c)).value, Free) == Coef(d, Free) - c
    ensures Find(Minus(d, Float(c)).value, Free).None? <==> Find(d, Free).Some? && Coef(d, Free) - c == 0.0
    ensures k != Free ==> Find(Minus(d, Float(c)).value, k) == Find(d, k)
  {
  }

  /** `-` with a dict or a Binary subtracts key-wise, removing exactly the keys of both whose difference is 0. */
  lemma MinusDict(d: Dict<Key>, o: Dict<Key>, k: Key)
    requires Distinct(o)
    ensures Minus(d, Poly(o)) == Minus(d, Mapping(o)) == Ok(SubAll(d, o))
    ensures Coef(SubAll(d, o), k) == Coef(d, k) - Coef(o, k)
    ensures Find(SubAll(d, o), k).Some? <==>
      if Find(o, k).Some? then Find(d, k).None? || Coef(d, k) - Coef(o, k) != 0.0 else Find(d, k).Some?
  {
    SubAllCoef(d, o, k);
  }

  /** `x - x` leaves nothing: every key is removed. */
  lemma {:induction false} MinusSelf(d: Dict<Key>, k: Key)
    requires Distinct(d)
    ensures Find(SubAll(d, d), k).None?
  {
    SubAllCoef(d, d, k);
  }

  // ----- what multiplication does to each key -----

  /** Multiplying by the name `s`: `(k, s)` carries `k`'s coefficient, `s`'s own coefficient moves to `'free'`. */
  lemma {:induction false} MulNameFind(acc: Dict<Key>, d: Dict<Key>, s: string, k: Key)
    requires Distinct(d)
    ensures Coef(MulName(acc, d, s), Free) == Coef(acc, Free) + Coef(d, Name(s))
    ensures k.Pair? && k.snd == Name(s) && k.fst != Name(s) && Find(d, k.fst).Some? ==>
      Find(MulName(acc, d, s), k) == Find(d, k.fst)
    ensures k != Free && !(k.Pair? && k.snd == Name(s) && Find(d, k.fst).Some?) ==>
      Find(MulName(acc, d, s), k) == Find(acc, k)
    decreases |d|
  {
    if d != [] {
      var init, e := d[..|d| - 1], d[|d| - 1];
      assert d == init + [e];
      DistinctInit(d);
      KeysFind(init, e.0);
      MulNameFind(acc, init, s, k);
      FindAppend(init, e, Name(s));
      if k.Pair? {
        FindAppend(init, e, k.fst);
      }
    }
  }

  /** One row of the product: `(k, k2)` carries `v * o[k2]`, and with `merge` the term `k, k` adds to `'free'`. */
  lemma {:induction false} MulRowFind(acc: Dict<Key>, k: Key, v: real, o: Dict<Key>, merge: bool, j: Key)
    requires Distinct(o)
    ensures merge ==> Coef(MulRow(acc, k, v, o, merge), Free) == Coef(acc, Free) + Times(v, Coef(o, k))
    ensures j.Pair? && j.fst == k && !(merge && j.snd == k) && Find(o, j.snd).Some? ==>
      Find(MulRow(acc, k, v, o, merge), j) == Some(Times(v, Coef(o, j.snd)))
    ensures !(merge && j == Free) && !(j.Pair? && j.fst == k && Find(o, j.snd).Some?) ==>
      Find(MulRow(acc, k, v, o, merge), j) == Find(acc, j)
    decreases |o|
  {
    if o != [] {
      var init, e := o[..|o| - 1], o[|o| - 1];
      assert o == init + [e];
      DistinctInit(o);
      KeysFind(init, e.0);
      MulRowFind(acc, k, v, init, merge, j);
      FindAppend(init, e, k);
      if j.Pair? {
        FindAppend(init, e, j.snd);
      }
    }
  }

  /**
   * The full product: `(a, b)` carries `d[a] * o[b]` for every key `a` of
   * `d` and `b` of `o` (except `a == b` when merging), with `merge` the
   * constant gains the products of the shared keys, and nothing else changes.
   */
  lemma {:induction false} MulAllFind(acc: Dict<Key>, d: Dict<Key>, o: Dict<Key>, merge: bool, j: Key)
    requires Distinct(d) && Distinct(o)
    ensures merge ==> Coef(MulAll(acc, d, o, merge), Free) == Coef(acc, Free) + Dot(d, o)
    ensures j.Pair? && !(merge && j.fst == j.snd) && Find(d, j.fst).Some? && Find(o, j.snd).Some? ==>
      Find(MulAll(acc, d, o, merge), j) == Some(Times(Coef(d, j.fst), Coef(o, j.snd)))
    ensures !(merge && j == Free) && !(j.Pair? && Find(d, j.fst).Some? && Find(o, j.snd).Some?) ==>
      Find(MulAll(acc, d, o, merge), j) == Find(acc, j)
    decreases |d|
  {
    if d != [] {
      var init, e := d[..|d| - 1], d[|d| - 1];
      assert d == init + [e];
      DistinctInit(d);
      KeysFind(init, e.0);
      MulAllFind(acc, init, o, merge, j);
      var m := MulAll(acc, init, o, merge);
      MulRowFind(m, e.0, e.1, o, merge, j);
      MulRowFind(m, e.0, e.1, o, merge, Free);
      if j.Pair? {
        FindAppend(init, e, j.fst);
        if j.fst == e.0 {
          assert Coef(d, j.fst) == e.1;
        }
      }
    }
  }

  /** The constant term of `x * y` (Binary operands) is the sum of the products over the keys they share. */
  lemma DotShared(d: Dict<Key>, o: Dict<Key>)
    requires Distinct(d) && Distinct(o)
    ensures Coef(MulAll([], d, o, true), Free) == Dot(d, o)
  {
    MulAllFind([], d, o, true, Free);
  }

  /** `x ** 2` is `x * x`: the cross terms `(a, b)` of two different keys carry `x[a] * x[b]`, the squares go to `'free'`. */
  lemma PowerTwo(d: Dict<Key>, j: Key)
    requires Distinct(d)
    ensures Power(d, Int(2)) == Product(d, Poly(d)) == Ok(MulAll([], d, d, true))
    ensures Coef(Power(d, Int(2)).value, Free) == Dot(d, d)
    ensures j.Pair? && j.fst != j.snd && Find(d, j.fst).Some? && Find(d, j.snd).Some? ==>
      Find(Power(d, Int(2)).value, j) == Some(Times(Coef(d, j.fst), Coef(d, j.snd)))
  {
    MulAllFind([], d, d, true, j);
    MulAllFind([], d, d, true, Free);
  }

  /** Scaling by a number keeps the keys in their order and multiplies each coefficient. */
  lemma ProductNumber(d: Dict<Key>, c: real)
    requires Distinct(d)
    ensures Product(d, Float(c)).Ok?
    ensures |Product(d, Float(c)).value| == |d|
    ensures forall i :: 0 <= i < |d| ==> Product(d, Float(c)).value[i] == (d[i].0, Times(d[i].1, c))
  {
    ScaleAllEntries(d, c);
  }

  // ----- the multiplication loops -----

  /** The loop of `__mul__` by a string. */
  method MulNameItems(d: Dict<Key>, s: string) returns (r: Dict<Key>)
    ensures r == MulName([], d, s)
  {
    r := [];
    for i := 0 to |d|
      invariant r == MulName([], d[..i], s)
    {
      assert d[..i + 1][..i] == d[..i] && d[..i + 1][i] == d[i];
      var key, value := d[i].0, d[i].1;
      assert MulName([], d[..i + 1], s) ==
        if key == Name(s) then Bump(r, Free, value) else Put(r, Pair(key, Name(s)), value);
      if key == Name(s) {
        r := Bump(r, Free, value);
      } else {
        r := Put(r, Pair(key, Name(s)), value);
      }
    }
    assert d[..|d|] == d;
  }

  /** The inner loop of `__mul__` by a dict or a Binary. */
  method MulRowItems(acc: Dict<Key>, k: Key, v: real, o: Dict<Key>, merge: bool) returns (r: Dict<Key>)
    ensures r == MulRow(acc, k, v, o, merge)
  {
    r := acc;
    for i := 0 to |o|
      invariant r == MulRow(acc, k, v, o[..i], merge)
    {
      assert o[..i + 1][..i] == o[..i] && o[..i + 1][i] == o[i];
      var key2, value2 := o[i].0, o[i].1;
      assert MulRow(acc, k, v, o[..i + 1], merge) ==
        if merge && k == key2 then Bump(r, Free, Times(v, value2)) else Put(r, Pair(k, key2), Times(v, value2));
      if merge && k == key2 {
        r := Bump(r, Free, Times(v, value2));
      } else {
        r := Put(r, Pair(k, key2), Times(v, value2));
      }
    }
    assert o[..|o|] == o;
  }

  /** The outer loop of `__mul__` by a dict or a Binary. */
  method MulItems(d: Dict<Key>, o: Dict<Key>, merge: bool) returns (r: Dict<Key>)
    ensures r == MulAll([], d, o, merge)
  {
    r := [];
    for i := 0 to |d|
      invariant r == MulAll([], d[..i], o, merge)
    {
      assert d[..i + 1][..i] == d[..i] && d[..i + 1][i] == d[i];
      r := MulRowItems(r, d[i].0, d[i].1, o, merge);
    }
    assert d[..|d|] == d;
  }
}

=== FILE: jobshop.dfy ===
/**
 * The pre-processing of the job-shop scheduler in job_shop_scheduler.py: the
 * jobs are flattened into tasks, start times that no feasible schedule can
 * use are pruned, the surviving `job_position,time` labels are numbered, and
 * the pairs of start variables that the Hamiltonian penalises are chosen.
 * The Hamiltonian arithmetic itself is not modelled: a constraint is the set
 * of label pairs it penalises.
 */
module JobShop {
  import opened Wrappers
  import opened LabelIndex

  /** `Task`: one operation of a job, on a machine, for a duration. */
  datatype JTask = JTask(job: string, position: int, machine: int, duration: int)

  /** Python's `str` of a non-negative int: decimal digits, most significant first. */
  function NatToString(n: nat): (s: string)
    ensures |s| >= 1 && (n >= 10 ==> |s| >= 2)
    ensures forall i :: 0 <= i < |s| ==> '0' <= s[i] <= '9'
  {
    if n < 10 then [Digit(n)] else NatToString(n / 10) + [Digit(n % 10)]
  }

  function Digit(d: nat): (c: char)
    requires d < 10
    ensures '0' <= c <= '9' && c as int == '0' as int + d
  {
    ('0' as int + d) as char
  }

  /** Python's `str` of an int: a minus sign before the digits of a negative number. */
  function IntToString(i: int): (s: string)
    ensures |s| >= 1
    ensures forall k :: 0 <= k < |s| ==> s[k] == '-' || '0' <= s[k] <= '9'
    ensures '_' !in s && ',' !in s
  {
    if i < 0 then "-" + NatToString(-i) else NatToString(i)
  }

  /** Different numbers print differently. */
  lemma {:induction false} NatToStringInjective(a: nat, b: nat)
    requires NatToString(a) == NatToString(b)
    ensures a == b
    decreases a + b
  {
    var s := NatToString(a);
    if a >= 10 && b >= 10 {
      assert s[|s| - 1] == Digit(a % 10) && s[|s| - 1] == Digit(b % 10);
      assert NatToString(a / 10) == s[..|s| - 1] == NatToString(b / 10);
      NatToStringInjective(a / 10, b / 10);
    } else if a < 10 && b < 10 {
      assert Digit(a) == s[0] == Digit(b);
    }
  }

  lemma IntToStringInjective(a: int, b: int)
    requires IntToString(a) == IntToString(b)
    ensures a == b
  {
    var s := IntToString(a);
    if a < 0 && b < 0 {
      assert NatToString(-a) == s[1..] == NatToString(-b);
      NatToStringInjective(-a, -b);
    } else if a >= 0 && b >= 0 {
      NatToStringInjective(a, b);
    } else {
      SignMarksNegative(a);
      SignMarksNegative(b);
      assert false;
    }
  }

  lemma SignMarksNegative(i: int)
    ensures IntToString(i)[0] == '-' <==> i < 0
  {
  }

  /** `get_label`: the variable name `<job>_<position>,<time>`. */
  function GetLabel(task: JTask, time: int): string
  {
    task.job + "_" + IntToString(task.position) + "," + IntToString(time)
  }

  /**
   * Labels are unambiguous for every job name, even one containing `_` or
   * `,`: the time follows the last comma and the position the last
   * underscore before it.
   */
  lemma LabelInjective(a: JTask, t: int, b: JTask, u: int)
    requires GetLabel(a, t) == GetLabel(b, u)
    ensures a.job == b.job && a.position == b.position && t == u
  {
    SplitAtLast(a.job + "_" + IntToString(a.position), IntToString(t),
                b.job + "_" + IntToString(b.position), IntToString(u), ',');
    IntToStringInjective(t, u);
    SplitAtLast(a.job, IntToString(a.position), b.job, IntToString(b.position), '_');
    IntToStringInjective(a.position, b.position);
  }

  lemma SeparatorInTail(a1: string, t1: string, a2: string, t2: string, c: char)
    requires a1 + [c] + t1 == a2 + [c] + t2 && |t1| < |t2|
    ensures c in t2
  {
    var s := a1 + [c] + t1;
    assert s[|a1|] == t2[|t2| - |t1| - 1];
  }

  /** Cutting at the last occurrence of a separator is unique. */
  lemma SplitAtLast(a1: string, t1: string, a2: string, t2: string, c: char)
    requires a1 + [c] + t1 == a2 + [c] + t2
    requires c !in t1 && c !in t2
    ensures a1 == a2 && t1 == t2
  {
    var s := a1 + [c] + t1;
    if |t1| < |t2| {
      SeparatorInTail(a1, t1, a2, t2, c);
      assert false;
    } else if |t2| < |t1| {
      SeparatorInTail(a2, t2, a1, t1, c);
      assert false;
    }
    assert a1 == s[..|a1|] && a2 == s[..|a2|];
    assert t1 == s[|a1| + 1..] && t2 == s[|a2| + 1..];
  }

  /** A job: its name and its operations as (machine, duration) pairs, in order. */
  type Job = (string, seq<(int, int)>)

  /**
   * The tasks of one job: positions 0, 1, ... in the order of its operations.
   * The `ensures` only spare callers from unfolding the `seq` constructor.
   */
  function JobTasks(job: Job): (ts: seq<JTask>)
    ensures |ts| == |job.1|
    ensures forall p :: 0 <= p < |ts| ==> ts[p] == JTask(job.0, p, job.1[p].0, job.1[p].1)
  {
    seq(|job.1|, p requires 0 <= p < |job.1| => JTask(job.0, p, job.1[p].0, job.1[p].1))
  }

  /** All tasks, job after job in the order of the job dictionary. */
  function Flatten(jobs: seq<Job>): seq<JTask>
  {
    if jobs == [] then [] else Flatten(jobs[..|jobs| - 1]) + JobTasks(jobs[|jobs| - 1])
  }

  /** Index of the first task of job `j` among all tasks. */
  function Offset(jobs: seq<Job>, j: int): int
    requires 0 <= j <= |jobs|
  {
    |Flatten(jobs[..j])|
  }

  function SumDurations(ts: seq<JTask>): int
  {
    if ts == [] then 0 else SumDurations(ts[..|ts| - 1]) + ts[|ts| - 1].duration
  }

  /** A job dictionary has distinct names. */
  predicate DistinctNames(jobs: seq<Job>)
  {
    forall i, j :: 0 <= i < j < |jobs| ==> jobs[i].0 != jobs[j].0
  }

  /** No two tasks share a job name and a position. */
  predicate DistinctSlots(ts: seq<JTask>)
  {
    forall i, j :: 0 <= i < j < |ts| ==> (ts[i].job, ts[i].position) != (ts[j].job, ts[j].position)
  }

  /**
   * The layout `_process_data` produces: job `j` occupies the contiguous
   * indices from `Offset(jobs, j)` on, with positions 0, 1, ...
   */
  lemma {:induction false} FlattenLayout(jobs: seq<Job>, j: int, p: int)
    requires 0 <= j < |jobs| && 0 <= p < |jobs[j].1|
    ensures Offset(jobs, j) + p < Offset(jobs, j + 1) <= |Flatten(jobs)|
    ensures Flatten(jobs)[Offset(jobs, j) + p] == JTask(jobs[j].0, p, jobs[j].1[p].0, jobs[j].1[p].1)
  {
    assert jobs[..j + 1][..j] == jobs[..j];
    assert Flatten(jobs[..j + 1]) == Flatten(jobs[..j]) + JobTasks(jobs[j]);
    FlattenPrefix(jobs, j + 1);
  }

  /** Job `j` contributes exactly its own operations. */
  lemma OffsetStep(jobs: seq<Job>, j: int)
    requires 0 <= j < |jobs|
    ensures Offset(jobs, j + 1) == Offset(jobs, j) + |jobs[j].1|
  {
    assert jobs[..j + 1][..j] == jobs[..j];
  }

  /** The recorded last-task index of a non-empty job points at that job's last operation. */
  lemma LastTaskOfJob(jobs: seq<Job>, j: int)
    requires 0 <= j < |jobs| && |jobs[j].1| > 0
    ensures 0 <= Offset(jobs, j + 1) - 1 < |Flatten(jobs)|
    ensures Flatten(jobs)[Offset(jobs, j + 1) - 1].job == jobs[j].0
    ensures Flatten(jobs)[Offset(jobs, j + 1) - 1].position == |jobs[j].1| - 1
  {
    OffsetStep(jobs, j);
    FlattenLayout(jobs, j, |jobs[j].1| - 1);
  }

  /** Flattening a prefix of the jobs gives a prefix of the tasks. */
  lemma {:induction false} FlattenPrefix(jobs: seq<Job>, j: int)
    requires 0 <= j <= |jobs|
    ensures Flatten(jobs[..j]) <= Flatten(jobs)
    decreases |jobs|
  {
    if j < |jobs| {
      var init := jobs[..|jobs| - 1];
      assert init[..j] == jobs[..j];
      FlattenPrefix(init, j);
    } else {
      assert jobs[..j] == jobs;
    }
  }

  /** The task at index `k` belongs to some job and sits at its position in it. */
  lemma {:induction false} FlattenOrigin(jobs: seq<Job>, k: int) returns (j: int, p: int)
    requires 0 <= k < |Flatten(jobs)|
    ensures 0 <= j < |jobs| && 0 <= p < |jobs[j].1| && k == Offset(jobs, j) + p
    ensures Flatten(jobs)[k] == JTask(jobs[j].0, p, jobs[j].1[p].0, jobs[j].1[p].1)
    decreases |jobs|
  {
    var init := jobs[..|jobs| - 1];
    if k < |Flatten(init)| {
      j, p := FlattenOrigin(init, k);
      assert init[..j] == jobs[..j];
      assert init[j] == jobs[j];
    } else {
      j, p := |jobs| - 1, k - |Flatten(init)|;
      assert jobs[..j] == init;
    }
  }

  /** Distinct job names give distinct (job, position) slots. */
  lemma FlattenDistinctSlots(jobs: seq<Job>)
    requires DistinctNames(jobs)
    ensures DistinctSlots(Flatten(jobs))
  {
    var ts := Flatten(jobs);
    forall a, b | 0 <= a < b < |ts|
      ensures (ts[a].job, ts[a].position) != (ts[b].job, ts[b].position)
    {
      var ja, pa := FlattenOrigin(jobs, a);
      var jb, pb := FlattenOrigin(jobs, b);
      if ja == jb {
        assert pa != pb;
      }
    }
  }

  /**
   * The inner loop of `_process_data`: appends the tasks of one job and adds
   * their durations to the running total.
   */
  method AppendJob(ts0: seq<JTask>, total0: int, job: Job) returns (ts: seq<JTask>, total: int)
    requires total0 == SumDurations(ts0)
    ensures ts == ts0 + JobTasks(job)
    ensures total == SumDurations(ts)
  {
    var (name, ops) := job;
    ts, total := ts0, total0;
    for i := 0 to |ops|
      invariant ts == ts0 + JobTasks(job)[..i]
      invariant total == SumDurations(ts)
    {
      assert (ts + [JTask(name, i, ops[i].0, ops[i].1)])[..|ts|] == ts;
      ts := ts + [JTask(name, i, ops[i].0, ops[i].1)];
      total := total + ops[i].1;
    }
    assert JobTasks(job)[..|ops|] == JobTasks(job);
  }

  /**
   * `predecessor_time` when the forward pass of `_remove_absurd_times`
   * reaches task `i`: it restarts at 0 whenever the job name changes and
   * otherwise grows by the duration of the task before.
   */
  function PredTime(ts: seq<JTask>, i: int): int
    requires 0 <= i < |ts|
  {
    if i == 0 || ts[i - 1].job != ts[i].job then 0 else PredTime(ts, i - 1) + ts[i - 1].duration
  }

  /**
   * `successor_time` once the backward pass has added task `i`: it restarts
   * at -1 whenever the job name changes and grows by each task's duration.
   */
  function SuccTime(ts: seq<JTask>, i: int): int
    requires 0 <= i < |ts|
    decreases |ts| - i
  {
    (if i == |ts| - 1 || ts[i + 1].job != ts[i].job then -1 else SuccTime(ts, i + 1)) + ts[i].duration
  }

  /** One step of `SuccTime`: a job's last task needs one time unit less than its duration. */
  lemma SuccTimeCases(ts: seq<JTask>, i: int)
    requires 0 <= i < |ts|
    ensures i == |ts| - 1 ==> SuccTime(ts, i) == ts[i].duration - 1
    ensures i < |ts| - 1 && ts[i + 1].job != ts[i].job ==> SuccTime(ts, i) == ts[i].duration - 1
    ensures i < |ts| - 1 && ts[i + 1].job == ts[i].job ==> SuccTime(ts, i) == SuccTime(ts, i + 1) + ts[i].duration
  {
  }

  /** The labels of `task` for start times in [lo, hi). */
  function LabelsBetween(task: JTask, lo: int, hi: int): set<string>
  {
    set t | lo <= t < hi :: GetLabel(task, t)
  }

  /** Forward pass over tasks 0..i-1: start times before the predecessors can finish. */
  function EarlyUpTo(ts: seq<JTask>, i: int): set<string>
    requires 0 <= i <= |ts|
  {
    if i == 0 then {} else EarlyUpTo(ts, i - 1) + LabelsBetween(ts[i - 1], 0, PredTime(ts, i - 1))
  }

  /**
   * Backward pass over tasks i..: the last `SuccTime` start times before the
   * horizon `m` (the source counts them down as `(m - 1) - t`).
   */
  function LateFrom(ts: seq<JTask>, m: int, i: int): set<string>
    requires 0 <= i <= |ts|
    decreases |ts| - i
  {
    if i == |ts| then {}
    else LateFrom(ts, m, i + 1) + LabelsBetween(ts[i], m - SuccTime(ts, i), m)
  }

  /** Every label `_remove_absurd_times` adds. */
  function AbsurdLabels(ts: seq<JTask>, m: int): set<string>
  {
    EarlyUpTo(ts, |ts|) + LateFrom(ts, m, 0)
  }

  lemma {:induction false} EarlyUpToMember(ts: seq<JTask>, i: int, l: string) returns (k: int)
    requires 0 <= i <= |ts| && l in EarlyUpTo(ts, i)
    ensures 0 <= k < i && l in LabelsBetween(ts[k], 0, PredTime(ts, k))
  {
    if l in LabelsBetween(ts[i - 1], 0, PredTime(ts, i - 1)) {
      k := i - 1;
    } else {
      k := EarlyUpToMember(ts, i - 1, l);
    }
  }

  lemma {:induction false} EarlyUpToHas(ts: seq<JTask>, i: int, k: int)
    requires 0 <= k < i <= |ts|
    ensures LabelsBetween(ts[k], 0, PredTime(ts, k)) <= EarlyUpTo(ts, i)
  {
    if k < i - 1 {
      EarlyUpToHas(ts, i - 1, k);
    }
  }

  lemma {:induction false} LateFromMember(ts: seq<JTask>, m: int, i: int, l: string) returns (k: int)
    requires 0 <= i <= |ts| && l in LateFrom(ts, m, i)
    ensures i <= k < |ts| && l in LabelsBetween(ts[k], m - SuccTime(ts, k), m)
    decreases |ts| - i
  {
    if l in LateFrom(ts, m, i + 1) {
      k := LateFromMember(ts, m, i + 1, l);
    } else {
      k := i;
    }
  }

  lemma {:induction false} LateFromHas(ts: seq<JTask>, m: int, i: int, k: int)
    requires 0 <= i <= k < |ts|
    ensures LabelsBetween(ts[k], m - SuccTime(ts, k), m) <= LateFrom(ts, m, i)
    decreases |ts| - i
  {
    if i < k {
      LateFromHas(ts, m, i + 1, k);
    }
  }

  lemma LabelsBetweenMember(task: JTask, lo: int, hi: int, l: string) returns (t: int)
    requires l in LabelsBetween(task, lo, hi)
    ensures lo <= t < hi && l == GetLabel(task, t)
  {
    t :| lo <= t < hi && l == GetLabel(task, t);
  }

  lemma LabelsBetweenHas(task: JTask, lo: int, hi: int, t: int)
    requires lo <= t < hi
    ensures GetLabel(task, t) in LabelsBetween(task, lo, hi)
  {
  }

  lemma LabelsBetweenEmpty(task: JTask, lo: int, hi: int)
    requires hi <= lo
    ensures LabelsBetween(task, lo, hi) == {}
  {
  }

  lemma LabelsBetweenStep(task: JTask, lo: int, hi: int)
    requires lo <= hi
    ensures LabelsBetween(task, lo, hi + 1) == LabelsBetween(task, lo, hi) + {GetLabel(task, hi)}
  {
  }

  lemma LabelsBetweenStepDown(task: JTask, lo: int, hi: int)
    requires lo <= hi
    ensures LabelsBetween(task, lo - 1, hi) == LabelsBetween(task, lo, hi) + {GetLabel(task, lo - 1)}
  {
  }

  /**
   * Which start times are pruned: for tasks with distinct slots, time `t` of
   * task `i` is absurd exactly when it is earlier than the durations of the
   * task's predecessors in its job allow, or so late that the task and its
   * successors cannot finish by the horizon `m`.
   */
  lemma AbsurdIff(ts: seq<JTask>, m: int, i: int, t: int)
    requires DistinctSlots(ts) && 0 <= i < |ts|
    ensures GetLabel(ts[i], t) in AbsurdLabels(ts, m) <==>
      (0 <= t < PredTime(ts, i)) || (m - SuccTime(ts, i) <= t < m)
  {
    var l := GetLabel(ts[i], t);
    if l in EarlyUpTo(ts, |ts|) {
      EarlyIsOwn(ts, i, t);
    }
    if l in LateFrom(ts, m, 0) {
      LateIsOwn(ts, m, i, t);
    }
    if 0 <= t < PredTime(ts, i) {
      EarlyUpToHas(ts, |ts|, i);
      LabelsBetweenHas(ts[i], 0, PredTime(ts, i), t);
    }
    if m - SuccTime(ts, i) <= t < m {
      LateFromHas(ts, m, 0, i);
      LabelsBetweenHas(ts[i], m - SuccTime(ts, i), m, t);
    }
  }

  lemma EarlyIsOwn(ts: seq<JTask>, i: int, t: int)
    requires DistinctSlots(ts) && 0 <= i < |ts| && GetLabel(ts[i], t) in EarlyUpTo(ts, |ts|)
    ensures 0 <= t < PredTime(ts, i)
  {
    var k := EarlyUpToMember(ts, |ts|, GetLabel(ts[i], t));
    var t' := LabelsBetweenMember(ts[k], 0, PredTime(ts, k), GetLabel(ts[i], t));
    LabelInjective(ts[i], t, ts[k], t');
    SameSlot(ts, i, k);
  }

  lemma LateIsOwn(ts: seq<JTask>, m: int, i: int, t: int)
    requires DistinctSlots(ts) && 0 <= i < |ts| && GetLabel(ts[i], t) in LateFrom(ts, m, 0)
    ensures m - SuccTime(ts, i) <= t < m
  {
    var k := LateFromMember(ts, m, 0, GetLabel(ts[i], t));
    var t' := LabelsBetweenMember(ts[k], m - SuccTime(ts, k), m, GetLabel(ts[i], t));
    LabelInjective(ts[i], t, ts[k], t');
    SameSlot(ts, i, k);
  }

  lemma SameSlot(ts: seq<JTask>, i: int, k: int)
    requires DistinctSlots(ts) && 0 <= i < |ts| && 0 <= k < |ts|
    requires ts[i].job == ts[k].job && ts[i].position == ts[k].position
    ensures i == k
  {
  }

  lemma {:induction false} SumDurationsCons(x: JTask, rest: seq<JTask>)
    ensures SumDurations([x] + rest) == x.duration + SumDurations(rest)
    decreases |rest|
  {
    if rest != [] {
      var init := rest[..|rest| - 1];
      assert ([x] + rest)[..|rest|] == [x] + init;
      SumDurationsCons(x, init);
    }
  }

  /** Later jobs start no earlier. */
  lemma {:induction false} OffsetMonotone(jobs: seq<Job>, a: int, b: int)
    requires 0 <= a <= b <= |jobs|
    ensures Offset(jobs, a) <= Offset(jobs, b)
    decreases b - a
  {
    if a < b {
      OffsetStep(jobs, a);
      OffsetMonotone(jobs, a + 1, b);
    }
  }

  /** A task adjacent to job `j`'s run but outside it belongs to another job. */
  lemma OtherJobAt(jobs: seq<Job>, j: int, k: int)
    requires DistinctNames(jobs) && 0 <= j < |jobs| && 0 <= k < |Flatten(jobs)|
    requires k < Offset(jobs, j) || Offset(jobs, j + 1) <= k
    ensures Flatten(jobs)[k].job != jobs[j].0
  {
    var j', p' := FlattenOrigin(jobs, k);
    OffsetStep(jobs, j');
    if j' == j {
      OffsetStep(jobs, j);
    } else if j' < j {
      OffsetMonotone(jobs, j' + 1, j);
    } else {
      OffsetMonotone(jobs, j + 1, j');
    }
  }

  /**
   * In the layout `_process_data` builds from distinct job names, the
   * forward pass reaches operation `p` of job `j` with the total duration of
   * the job's earlier operations.
   */
  lemma {:induction false} PredTimeInJob(jobs: seq<Job>, j: int, p: int)
    requires DistinctNames(jobs) && 0 <= j < |jobs| && 0 <= p < |jobs[j].1|
    ensures Offset(jobs, j) + p < |Flatten(jobs)|
    ensures PredTime(Flatten(jobs), Offset(jobs, j) + p) == SumDurations(JobTasks(jobs[j])[..p])
  {
    var ts := Flatten(jobs);
    var k := Offset(jobs, j) + p;
    FlattenLayout(jobs, j, p);
    if p == 0 {
      if k > 0 {
        OtherJobAt(jobs, j, k - 1);
      }
      assert JobTasks(jobs[j])[..0] == [];
    } else {
      FlattenLayout(jobs, j, p - 1);
      PredTimeInJob(jobs, j, p - 1);
      assert JobTasks(jobs[j])[..p][..p - 1] == JobTasks(jobs[j])[..p - 1];
    }
  }

  /**
   * In the same layout, the backward pass has, after operation `p` of job
   * `j`, the total duration of that operation and the job's later ones,
   * minus one.
   */
  lemma {:induction false} SuccTimeInJob(jobs: seq<Job>, j: int, p: int)
    requires DistinctNames(jobs) && 0 <= j < |jobs| && 0 <= p < |jobs[j].1|
    ensures Offset(jobs, j) + p < |Flatten(jobs)|
    ensures SuccTime(Flatten(jobs), Offset(jobs, j) + p) == SumDurations(JobTasks(jobs[j])[p..]) - 1
    decreases |jobs[j].1| - p
  {
    var ts := Flatten(jobs);
    var k := Offset(jobs, j) + p;
    var jt := JobTasks(jobs[j]);
    FlattenLayout(jobs, j, p);
    OffsetStep(jobs, j);
    assert jt[p..] == [jt[p]] + jt[p + 1..];
    SumDurationsCons(jt[p], jt[p + 1..]);
    if p == |jobs[j].1| - 1 {
      if k < |ts| - 1 {
        OtherJobAt(jobs, j, k + 1);
      }
      assert jt[p + 1..] == [];
    } else {
      FlattenLayout(jobs, j, p + 1);
      SuccTimeInJob(jobs, j, p + 1);
    }
  }

  /**
   * Pruning per job: after `_process_data` on distinct job names, start
   * time `t` of operation `p` of job `j` is absurd exactly when it is less
   * than the durations of the job's earlier operations, or when it is below
   * the horizon but the operation and its successors would end after it.
   */
  lemma JobAbsurdIff(jobs: seq<Job>, m: int, j: int, p: int, t: int)
    requires DistinctNames(jobs) && 0 <= j < |jobs| && 0 <= p < |jobs[j].1|
    ensures Offset(jobs, j) + p < |Flatten(jobs)|
    ensures GetLabel(Flatten(jobs)[Offset(jobs, j) + p], t) in AbsurdLabels(Flatten(jobs), m) <==>
      (0 <= t < SumDurations(JobTasks(jobs[j])[..p])) ||
      (t < m && t + SumDurations(JobTasks(jobs[j])[p..]) > m)
  {
    var ts := Flatten(jobs);
    var k := Offset(jobs, j) + p;
    FlattenLayout(jobs, j, p);
    assert PredTime(ts, k) == SumDurations(JobTasks(jobs[j])[..p]) by {
      PredTimeInJob(jobs, j, p);
    }
    assert SuccTime(ts, k) == SumDurations(JobTasks(jobs[j])[p..]) - 1 by {
      SuccTimeInJob(jobs, j, p);
    }
    assert GetLabel(ts[k], t) in AbsurdLabels(ts, m) <==>
      (0 <= t < PredTime(ts, k)) || (m - SuccTime(ts, k) <= t < m) by {
      FlattenDistinctSlots(jobs);
      AbsurdIff(ts, m, k, t);
    }
  }

  /** `for t in range(k)`: marks the task's start times below `k` (none when `k <= 0`). */
  method MarkEarly(task: JTask, k: int, absurd0: set<string>) returns (absurd: set<string>)
    ensures absurd == absurd0 + LabelsBetween(task, 0, k)
  {
    absurd := absurd0;
    var t := 0;
    while t < k
      invariant 0 <= t <= (if k < 0 then 0 else k)
      invariant absurd == absurd0 + LabelsBetween(task, 0, t)
    {
      LabelsBetweenStep(task, 0, t);
      absurd := absurd + {GetLabel(task, t)};
      t := t + 1;
    }
    if k < 0 {
      LabelsBetweenEmpty(task, 0, t);
      LabelsBetweenEmpty(task, 0, k);
    }
  }

  /** `for t in range(k)` marking `m - t - 1`: the task's last `k` start times below `m`. */
  method MarkLate(task: JTask, m: int, k: int, absurd0: set<string>) returns (absurd: set<string>)
    ensures absurd == absurd0 + LabelsBetween(task, m - k, m)
  {
    absurd := absurd0;
    var t := 0;
    while t < k
      invariant 0 <= t <= (if k < 0 then 0 else k)
      invariant absurd == absurd0 + LabelsBetween(task, m - t, m)
    {
      LabelsBetweenStepDown(task, m - t, m);
      absurd := absurd + {GetLabel(task, (m - 1) - t)};
      t := t + 1;
    }
    if k < 0 {
      LabelsBetweenEmpty(task, m - t, m);
      LabelsBetweenEmpty(task, m - k, m);
    }
  }

  /** The forward pass of `_remove_absurd_times` over a non-empty task list. */
  method ForwardPass(ts: seq<JTask>, absurd0: set<string>) returns (absurd: set<string>)
    requires ts != []
    ensures absurd == absurd0 + EarlyUpTo(ts, |ts|)
  {
    absurd := absurd0;
    var predecessorTime := 0;
    var currentJob := ts[0].job;
    for i := 0 to |ts|
      invariant absurd == absurd0 + EarlyUpTo(ts, i)
      invariant i == 0 ==> predecessorTime == 0 && currentJob == ts[0].job
      invariant i > 0 ==>
        predecessorTime == PredTime(ts, i - 1) + ts[i - 1].duration && currentJob == ts[i - 1].job
    {
      var task := ts[i];
      if task.job != currentJob {
        predecessorTime := 0;
        currentJob := task.job;
      }
      assert predecessorTime == PredTime(ts, i);
      absurd := MarkEarly(task, predecessorTime, absurd);
      assert EarlyUpTo(ts, i + 1) == EarlyUpTo(ts, i) + LabelsBetween(task, 0, PredTime(ts, i));
      predecessorTime := predecessorTime + task.duration;
    }
  }

  /** The backward pass of `_remove_absurd_times`, from the last task to the first. */
  method BackwardPass(ts: seq<JTask>, m: int, absurd0: set<string>) returns (absurd: set<string>)
    requires ts != []
    ensures absurd == absurd0 + LateFrom(ts, m, 0)
  {
    absurd := absurd0;
    var successorTime := -1;
    var currentJob := ts[|ts| - 1].job;
    var i := |ts|;
    while i > 0
      invariant 0 <= i <= |ts|
      invariant absurd == absurd0 + LateFrom(ts, m, i)
      invariant i == |ts| ==> successorTime == -1 && currentJob == ts[|ts| - 1].job
      invariant i < |ts| ==> successorTime == SuccTime(ts, i) && currentJob == ts[i].job
    {
      i := i - 1;
      var task := ts[i];
      if task.job != currentJob {
        successorTime := -1;
        currentJob := task.job;
      }
      successorTime := successorTime + task.duration;
      assert successorTime == SuccTime(ts, i) by {
        SuccTimeCases(ts, i);
      }
      absurd := MarkLate(task, m, successorTime, absurd);
    }
  }

  /** The labels of tasks 0..i-1 for every start time in [0, m): the candidates `_build_variable_dict` visits. */
  function StartLabels(ts: seq<JTask>, m: int, i: int): set<string>
    requires 0 <= i <= |ts|
  {
    if i == 0 then {} else StartLabels(ts, m, i - 1) + LabelsBetween(ts[i - 1], 0, m)
  }

  lemma {:induction false} StartLabelsMember(ts: seq<JTask>, m: int, i: int, l: string) returns (k: int)
    requires 0 <= i <= |ts| && l in StartLabels(ts, m, i)
    ensures 0 <= k < i && l in LabelsBetween(ts[k], 0, m)
  {
    if l in LabelsBetween(ts[i - 1], 0, m) {
      k := i - 1;
    } else {
      k := StartLabelsMember(ts, m, i - 1, l);
    }
  }

  lemma {:induction false} StartLabelsHas(ts: seq<JTask>, m: int, i: int, k: int)
    requires 0 <= k < i <= |ts|
    ensures LabelsBetween(ts[k], 0, m) <= StartLabels(ts, m, i)
  {
    if k < i - 1 {
      StartLabelsHas(ts, m, i - 1, k);
    }
  }

  /** With distinct slots, no label of task `i` was already produced by an earlier task. */
  lemma StartLabelsFresh(ts: seq<JTask>, m: int, i: int)
    requires DistinctSlots(ts) && 0 <= i < |ts|
    ensures StartLabels(ts, m, i) !! LabelsBetween(ts[i], 0, m)
  {
    forall l | l in StartLabels(ts, m, i) && l in LabelsBetween(ts[i], 0, m)
      ensures false
    {
      var k := StartLabelsMember(ts, m, i, l);
      var t := LabelsBetweenMember(ts[k], 0, m, l);
      var u := LabelsBetweenMember(ts[i], 0, m, l);
      LabelInjective(ts[k], t, ts[i], u);
      SameSlot(ts, k, i);
    }
  }

  /** In the layout `_process_data` builds, neighbouring tasks belong to one job exactly when the second is the next operation. */
  lemma NeighboursInJob(jobs: seq<Job>, i: int)
    requires DistinctNames(jobs) && 0 <= i && i + 1 < |Flatten(jobs)|
    ensures Flatten(jobs)[i].job == Flatten(jobs)[i + 1].job <==>
      Flatten(jobs)[i + 1].position == Flatten(jobs)[i].position + 1
  {
    var ts := Flatten(jobs);
    var j, p := FlattenOrigin(jobs, i);
    var j', p' := FlattenOrigin(jobs, i + 1);
    OffsetStep(jobs, j);
    if j' == j {
      assert p' == p + 1;
    } else if j' < j {
      OffsetMonotone(jobs, j' + 1, j);
      OffsetStep(jobs, j');
    } else {
      OffsetMonotone(jobs, j + 1, j');
      assert Offset(jobs, j') == i + 1 && p' == 0;
    }
  }

  /** Tasks in non-decreasing machine order. */
  predicate SortedByMachine(s: seq<JTask>)
  {
    forall i, j :: 0 <= i < j < |s| ==> s[i].machine <= s[j].machine
  }

  /** Puts `x` after every task whose machine is not larger than its own. */
  function InsertByMachine(x: JTask, s: seq<JTask>): seq<JTask>
  {
    if s == [] || x.machine < s[0].machine then [x] + s else [s[0]] + InsertByMachine(x, s[1..])
  }

  /** `sorted(self.tasks, key=lambda x: x.machine)`, as a stable insertion sort. */
  function SortByMachine(s: seq<JTask>): seq<JTask>
  {
    if s == [] then [] else InsertByMachine(s[|s| - 1], SortByMachine(s[..|s| - 1]))
  }

  lemma {:induction false} InsertByMachineCount(x: JTask, s: seq<JTask>)
    ensures multiset(InsertByMachine(x, s)) == multiset(s) + multiset{x}
    decreases |s|
  {
    if s != [] && x.machine >= s[0].machine {
      InsertByMachineCount(x, s[1..]);
      assert s == [s[0]] + s[1..];
    }
  }

  lemma {:induction false} InsertByMachineSorted(x: JTask, s: seq<JTask>)
    requires SortedByMachine(s)
    ensures SortedByMachine(InsertByMachine(x, s))
    decreases |s|
  {
    if s != [] && x.machine >= s[0].machine {
      var r := InsertByMachine(x, s[1..]);
      InsertByMachineSorted(x, s[1..]);
      InsertByMachineCount(x, s[1..]);
      forall k | 0 <= k < |r| ensures s[0].machine <= r[k].machine {
        assert r[k] in multiset(r);
        if r[k] != x {
          assert r[k] in multiset(s[1..]);
          var k' :| 0 <= k' < |s[1..]| && s[1..][k'] == r[k];
          assert s[k' + 1] == r[k];
        }
      }
    }
  }

  /** The sort yields the same tasks in machine order. */
  lemma {:induction false} SortByMachineSpec(s: seq<JTask>)
    ensures SortedByMachine(SortByMachine(s))
    ensures multiset(SortByMachine(s)) == multiset(s)
    decreases |s|
  {
    if s != [] {
      SortByMachineSpec(s[..|s| - 1]);
      InsertByMachineSorted(s[|s| - 1], SortByMachine(s[..|s| - 1]));
      InsertByMachineCount(s[|s| - 1], SortByMachine(s[..|s| - 1]));
      assert s == s[..|s| - 1] + [s[|s| - 1]];
    }
  }

  /**
   * `KeyList(sorted_tasks, lambda x: x.machine)`: the machine of each task, read
   * by index. The `ensures` only spare callers from unfolding the `seq`
   * constructor; `KeyListSorted` states what `bisect_right` relies on.
   */
  function KeyList(s: seq<JTask>): (keys: seq<int>)
    ensures |keys| == |s|
    ensures forall i :: 0 <= i < |s| ==> keys[i] == s[i].machine
  {
    seq(|s|, i requires 0 <= i < |s| => s[i].machine)
  }

  /** The key list of tasks sorted by machine is sorted, as `bisect_right` needs. */
  lemma KeyListSorted(s: seq<JTask>)
    requires SortedByMachine(s)
    ensures forall i, j :: 0 <= i < j < |KeyList(s)| ==> KeyList(s)[i] <= KeyList(s)[j]
  {
    var keys := KeyList(s);
    forall i, j | 0 <= i < j < |keys| ensures keys[i] <= keys[j] {
      assert keys[i] == s[i].machine && keys[j] == s[j].machine;
    }
  }


  /**
   * `bisect_right`: on non-decreasing keys, the first index whose key is
   * above `x`; every key before it is at most `x`.
   */
  method BisectRight(keys: seq<int>, x: int) returns (lo: int)
    requires forall i, j :: 0 <= i < j < |keys| ==> keys[i] <= keys[j]
    ensures 0 <= lo <= |keys|
    ensures forall i :: 0 <= i < lo ==> keys[i] <= x
    ensures forall i :: lo <= i < |keys| ==> x < keys[i]
  {
    lo := 0;
    var hi := |keys|;
    while lo < hi
      invariant 0 <= lo <= hi <= |keys|
      invariant forall i :: 0 <= i < lo ==> keys[i] <= x
      invariant forall i :: hi <= i < |keys| ==> x < keys[i]
    {
      var mid := (lo + hi) / 2;
      if x < keys[mid] {
        hi := mid;
      } else {
        lo := mid + 1;
      }
    }
  }

  /** A task's identity in the share-machine loop: its job name and position. */
  function Slot(a: JTask): (string, int)
  {
    (a.job, a.position)
  }

  /** Ordered pairs of distinct-slot tasks of `s` on one machine. */
  function SameMachinePairs(s: seq<JTask>): set<(JTask, JTask)>
  {
    set a, b | a in s && b in s && a.machine == b.machine && Slot(a) != Slot(b) :: (a, b)
  }

  /** Ordered pairs of distinct-slot tasks inside one group, as the share-machine loop visits them. */
  function GroupPairs(groups: seq<seq<JTask>>): set<(JTask, JTask)>
  {
    set g, a, b | g in groups && a in g && b in g && Slot(a) != Slot(b) :: (a, b)
  }

  function Concat(groups: seq<seq<JTask>>): seq<JTask>
  {
    if groups == [] then [] else Concat(groups[..|groups| - 1]) + groups[|groups| - 1]
  }

  /** All tasks of `g` are on the machine of its first task. */
  predicate OneMachine(g: seq<JTask>)
  {
    forall k :: 0 <= k < |g| ==> g[k].machine == g[0].machine
  }

  lemma GroupPairsAppend(groups: seq<seq<JTask>>, g: seq<JTask>)
    ensures GroupPairs(groups + [g]) == GroupPairs(groups) + GroupPairs([g])
  {
    forall ab | ab in GroupPairs(groups + [g]) ensures ab in GroupPairs(groups) + GroupPairs([g]) {
      var h, a, b :| h in groups + [g] && a in h && b in h && Slot(a) != Slot(b) && ab == (a, b);
      if h == g {
        assert h in [g];
      } else {
        assert h in groups;
      }
    }
    forall ab | ab in GroupPairs(groups) ensures ab in GroupPairs(groups + [g]) {
      var h, a, b :| h in groups && a in h && b in h && Slot(a) != Slot(b) && ab == (a, b);
      assert h in groups + [g];
    }
    forall ab | ab in GroupPairs([g]) ensures ab in GroupPairs(groups + [g]) {
      var h, a, b :| h in [g] && a in h && b in h && Slot(a) != Slot(b) && ab == (a, b);
      assert h in groups + [g];
    }
  }

  /** A run of one machine contributes exactly its own same-machine pairs. */
  lemma GroupPairsOfRun(g: seq<JTask>)
    requires OneMachine(g)
    ensures GroupPairs([g]) == SameMachinePairs(g)
  {
    forall ab | ab in GroupPairs([g]) ensures ab in SameMachinePairs(g) {
      var h, a, b :| h in [g] && a in h && b in h && Slot(a) != Slot(b) && ab == (a, b);
      assert h == g;
    }
    forall ab | ab in SameMachinePairs(g) ensures ab in GroupPairs([g]) {
      var a, b :| a in g && b in g && a.machine == b.machine && Slot(a) != Slot(b) && ab == (a, b);
      assert g in [g];
    }
  }

  /** Tasks on different machines are never paired, so machine runs contribute independently. */
  lemma SameMachinePairsSplit(s: seq<JTask>, head: int, tail: int)
    requires 0 <= head <= tail <= |s|
    requires forall a, b :: a in s[..head] && b in s[head..tail] ==> a.machine != b.machine
    ensures SameMachinePairs(s[..tail]) == SameMachinePairs(s[..head]) + SameMachinePairs(s[head..tail])
  {
    assert s[..tail] == s[..head] + s[head..tail];
    forall ab | ab in SameMachinePairs(s[..tail])
      ensures ab in SameMachinePairs(s[..head]) + SameMachinePairs(s[head..tail])
    {
      var a, b :| a in s[..tail] && b in s[..tail] && a.machine == b.machine && Slot(a) != Slot(b) && ab == (a, b);
      if a in s[..head] {
        assert b !in s[head..tail];
      } else {
        assert b !in s[..head];
      }
    }
  }

  /**
   * One turn of the machine-grouping loop: with `tail` the `bisect_right`
   * of the machine at `head`, the run from `head` to `tail` is non-empty, on
   * one machine, on a machine different from every task before it, and
   * followed by a task on a larger machine.
   */
  lemma RunBounds(sorted: seq<JTask>, head: int, tail: int)
    requires SortedByMachine(sorted) && 0 <= head < |sorted| && 0 <= tail <= |sorted|
    requires forall i :: 0 <= i < tail ==> sorted[i].machine <= sorted[head].machine
    requires forall i :: tail <= i < |sorted| ==> sorted[head].machine < sorted[i].machine
    requires 0 < head ==> sorted[head - 1].machine < sorted[head].machine
    ensures head < tail && OneMachine(sorted[head..tail])
    ensures tail < |sorted| ==> sorted[tail - 1].machine < sorted[tail].machine
    ensures forall a, b :: a in sorted[..head] && b in sorted[head..tail] ==> a.machine != b.machine
  {
    assert head < tail;
    forall a, b | a in sorted[..head] && b in sorted[head..tail] ensures a.machine != b.machine {
      var i :| 0 <= i < head && sorted[i] == a;
      var k :| head <= k < tail && sorted[k] == b;
      assert sorted[i].machine <= sorted[head - 1].machine;
    }
  }

  /** A run of fewer than two tasks has no pair of distinct slots. */
  lemma ShortRunNoPairs(run: seq<JTask>)
    requires |run| < 2
    ensures SameMachinePairs(run) == {}
  {
  }

  /**
   * The pairs of the prefix up to `tail` are those up to `head` plus those
   * of the run in between; a run of fewer than two tasks adds none and is
   * skipped, a longer one is kept as a group.
   */
  lemma RunGroups(sorted: seq<JTask>, head: int, tail: int, groups: seq<seq<JTask>>)
    requires 0 <= head < tail <= |sorted| && OneMachine(sorted[head..tail])
    requires forall a, b :: a in sorted[..head] && b in sorted[head..tail] ==> a.machine != b.machine
    requires GroupPairs(groups) == SameMachinePairs(sorted[..head])
    ensures |sorted[head..tail]| < 2 ==> GroupPairs(groups) == SameMachinePairs(sorted[..tail])
    ensures |sorted[head..tail]| >= 2 ==> GroupPairs(groups + [sorted[head..tail]]) == SameMachinePairs(sorted[..tail])
  {
    var run := sorted[head..tail];
    SameMachinePairsSplit(sorted, head, tail);
    if |run| < 2 {
      ShortRunNoPairs(run);
    } else {
      GroupPairsAppend(groups, run);
      GroupPairsOfRun(run);
    }
  }

  /** Each group is a slice of the tasks after the earlier groups, so no task is counted twice. */
  lemma RunCount(sorted: seq<JTask>, head: int, tail: int, groups: seq<seq<JTask>>)
    requires 0 <= head <= tail <= |sorted|
    requires multiset(Concat(groups)) <= multiset(sorted[..head])
    ensures multiset(Concat(groups)) <= multiset(sorted[..tail])
    ensures multiset(Concat(groups + [sorted[head..tail]])) <= multiset(sorted[..tail])
  {
    assert sorted[..tail] == sorted[..head] + sorted[head..tail];
    assert Concat(groups + [sorted[head..tail]]) == Concat(groups) + sorted[head..tail];
  }

  /**
   * The machine-grouping loop of `_add_share_machine_constraint_qiskit` over
   * tasks sorted by machine: `bisect_right` moves `head` past the run of
   * tasks on the machine of `sorted[head]`, and runs of fewer than two tasks
   * are skipped. The groups kept are runs of one machine, no task is in
   * two of them, and together they pair exactly the tasks that share a
   * machine.
   */
  method MachineGroups(sorted: seq<JTask>) returns (groups: seq<seq<JTask>>)
    requires SortedByMachine(sorted)
    ensures forall g :: g in groups ==> |g| >= 2 && OneMachine(g)
    ensures multiset(Concat(groups)) <= multiset(sorted)
    ensures GroupPairs(groups) == SameMachinePairs(sorted)
  {
    var keys := KeyList(sorted);
    groups := [];
    var head := 0;
    while head < |sorted|
      invariant 0 <= head <= |sorted|
      invariant forall g :: g in groups ==> |g| >= 2 && OneMachine(g)
      invariant multiset(Concat(groups)) <= multiset(sorted[..head])
      invariant GroupPairs(groups) == SameMachinePairs(sorted[..head])
      invariant 0 < head < |sorted| ==> sorted[head - 1].machine < sorted[head].machine
    {
      var tail := BisectRight(keys, sorted[head].machine);
      var run := sorted[head..tail];
      RunBounds(sorted, head, tail);
      RunGroups(sorted, head, tail, groups);
      RunCount(sorted, head, tail, groups);
      head := tail;
      if |run| < 2 {
        continue;
      }
      groups := groups + [run];
    }
    assert sorted[..|sorted|] == sorted;
  }

  /** Tasks that are the same multiset form the same same-machine pairs. */
  lemma SameMachinePairsPermutation(s: seq<JTask>, s': seq<JTask>)
    requires multiset(s) == multiset(s')
    ensures SameMachinePairs(s) == SameMachinePairs(s')
  {
    forall a ensures a in s <==> a in s' {
      assert a in s <==> a in multiset(s);
      assert a in s' <==> a in multiset(s');
    }
  }

  function Min(a: int, b: int): int
  {
    if a < b then a else b
  }

  /**
   * The label pairs `_add_precedence_constraint_qiskit` penalises for task
   * pairs (a, b): a at a kept start time t in [0, m), b at a kept start time
   * tt before a can end (and before the horizon).
   */
  function PrecedenceLabels(pairs: set<(JTask, JTask)>, m: int, absurd: set<string>): set<(string, string)>
  {
    set ab, t, tt | ab in pairs && 0 <= t < m && 0 <= tt < Min(t + ab.0.duration, m) &&
      GetLabel(ab.0, t) !in absurd && GetLabel(ab.1, tt) !in absurd :: (GetLabel(ab.0, t), GetLabel(ab.1, tt))
  }

  /**
   * The label pairs `_add_share_machine_constraint_qiskit` penalises for task
   * pairs (a, b): b starting at a kept tt in [t, min(t + duration, m)) while a
   * runs from its kept start time t.
   */
  function OverlapLabels(pairs: set<(JTask, JTask)>, m: int, absurd: set<string>): set<(string, string)>
  {
    set ab, t, tt | ab in pairs && 0 <= t < m && t <= tt < Min(t + ab.0.duration, m) &&
      GetLabel(ab.0, t) !in absurd && GetLabel(ab.1, tt) !in absurd :: (GetLabel(ab.0, t), GetLabel(ab.1, tt))
  }

  /** `zip(self.tasks, self.tasks[1:])`: each task with the one after it. */
  function Neighbours(ts: seq<JTask>): (zs: seq<(JTask, JTask)>)
    ensures |zs| == if ts == [] then 0 else |ts| - 1
    ensures forall i :: 0 <= i < |zs| ==> zs[i] == (ts[i], ts[i + 1])
  {
    if |ts| < 2 then [] else [(ts[0], ts[1])] + Neighbours(ts[1..])
  }

  /** The neighbour pairs the precedence loop does not skip: both tasks of one job. */
  function ConsecutivePairs(ts: seq<JTask>): set<(JTask, JTask)>
  {
    set ab | ab in Neighbours(ts) && ab.0.job == ab.1.job
  }

  /** A label of a listed task at a start time in [0, m) that is not absurd has been numbered. */
  lemma LabelNumbered(ts: seq<JTask>, m: int, absurd: set<string>, keys: set<string>, a: JTask, t: int)
    requires StartLabels(ts, m, |ts|) - absurd <= keys
    requires a in ts && 0 <= t < m && GetLabel(a, t) !in absurd
    ensures GetLabel(a, t) in keys
  {
    var k :| 0 <= k < |ts| && ts[k] == a;
    StartLabelsHas(ts, m, |ts|, k);
    LabelsBetweenHas(a, 0, m, t);
  }

  /**
   * The constraint loops never look up a label that `_build_variable_dict`
   * did not number: both labels of every penalised pair are keys of
   * `H_pos_by_label`, and neither is absurd.
   */
  lemma PairLabelsNumbered(ts: seq<JTask>, m: int, absurd: set<string>, keys: set<string>,
                           pairs: set<(JTask, JTask)>)
    requires StartLabels(ts, m, |ts|) - absurd <= keys
    requires forall ab :: ab in pairs ==> ab.0 in ts && ab.1 in ts
    ensures forall p :: p in PrecedenceLabels(pairs, m, absurd) + OverlapLabels(pairs, m, absurd) ==>
      p.0 in keys && p.1 in keys && p.0 !in absurd && p.1 !in absurd
  {
    forall p | p in PrecedenceLabels(pairs, m, absurd) + OverlapLabels(pairs, m, absurd)
      ensures p.0 in keys && p.1 in keys && p.0 !in absurd && p.1 !in absurd
    {
      var ab, t, tt :| ab in pairs && 0 <= t < m && 0 <= tt < Min(t + ab.0.duration, m) &&
        GetLabel(ab.0, t) !in absurd && GetLabel(ab.1, tt) !in absurd && p == (GetLabel(ab.0, t), GetLabel(ab.1, tt));
      LabelNumbered(ts, m, absurd, keys, ab.0, t);
      LabelNumbered(ts, m, absurd, keys, ab.1, tt);
    }
  }

  /**
   * The outer loop of `_build_variable_dict`: the labels of each task for
   * start times in [0, m) are numbered unless absurd. From empty
   * dictionaries and with distinct slots, the result is a numbering.
   */
  method NumberTasks(ts: seq<JTask>, m: int, absurd: set<string>, pos0: map<string, int>, lab0: seq<string>)
    returns (pos: map<string, int>, lab: seq<string>)
    ensures pos.Keys == pos0.Keys + (StartLabels(ts, m, |ts|) - absurd)
    ensures pos0.Keys == {} && Numbering(pos0, lab0) && DistinctSlots(ts) ==> Numbering(pos, lab)
  {
    pos, lab := pos0, lab0;
    var i := 0;
    while i < |ts|
      invariant 0 <= i <= |ts|
      invariant pos.Keys == pos0.Keys + (StartLabels(ts, m, i) - absurd)
      invariant pos0.Keys == {} && Numbering(pos0, lab0) && DistinctSlots(ts) ==> Numbering(pos, lab)
    {
      pos, lab := NumberTask(ts, m, absurd, i, pos0.Keys, pos, lab);
      i := i + 1;
    }
  }

  /** One pass of the outer loop of `_build_variable_dict`: the start labels of task `i`. */
  method NumberTask(ts: seq<JTask>, m: int, absurd: set<string>, i: int, ghost keys0: set<string>,
                    pos0: map<string, int>, lab0: seq<string>)
    returns (pos: map<string, int>, lab: seq<string>)
    requires 0 <= i < |ts|
    requires pos0.Keys == keys0 + (StartLabels(ts, m, i) - absurd)
    ensures pos.Keys == keys0 + (StartLabels(ts, m, i + 1) - absurd)
    ensures keys0 == {} && DistinctSlots(ts) && Numbering(pos0, lab0) ==> Numbering(pos, lab)
  {
    if keys0 == {} && DistinctSlots(ts) {
      StartLabelsFresh(ts, m, i);
      assert pos0.Keys !! LabelsBetween(ts[i], 0, m);
    }
    pos, lab := NumberLabels(LabelsBetween(ts[i], 0, m), absurd, pos0, lab0);
    UnionStep(pos0.Keys, keys0, StartLabels(ts, m, i), LabelsBetween(ts[i], 0, m), absurd, pos.Keys);
  }

  /** Both tasks of every neighbour pair are listed tasks. */
  lemma ConsecutivePairsListed(ts: seq<JTask>)
    ensures forall ab :: ab in ConsecutivePairs(ts) ==> ab.0 in ts && ab.1 in ts
  {
    var zs := Neighbours(ts);
    forall ab | ab in ConsecutivePairs(ts) ensures ab.0 in ts && ab.1 in ts {
      var i :| 0 <= i < |zs| && zs[i] == ab;
      assert zs[i] == (ts[i], ts[i + 1]);
    }
  }

  /**
   * The precedence pairs of the task list `_process_data` builds are exactly
   * the steps from one operation of a job to the next operation of that job.
   */
  lemma PrecedencePairsAreSteps(jobs: seq<Job>)
    requires DistinctNames(jobs)
    ensures forall ab :: ab in ConsecutivePairs(Flatten(jobs)) ==>
      ab.0.job == ab.1.job && ab.1.position == ab.0.position + 1
    ensures forall j, p :: 0 <= j < |jobs| && 0 <= p < |jobs[j].1| - 1 ==>
      (JTask(jobs[j].0, p, jobs[j].1[p].0, jobs[j].1[p].1),
       JTask(jobs[j].0, p + 1, jobs[j].1[p + 1].0, jobs[j].1[p + 1].1)) in ConsecutivePairs(Flatten(jobs))
  {
    var ts := Flatten(jobs);
    var zs := Neighbours(ts);
    forall ab | ab in ConsecutivePairs(ts) ensures ab.0.job == ab.1.job && ab.1.position == ab.0.position + 1 {
      var i :| 0 <= i < |zs| && zs[i] == ab;
      NeighboursInJob(jobs, i);
    }
    forall j, p | 0 <= j < |jobs| && 0 <= p < |jobs[j].1| - 1
      ensures (JTask(jobs[j].0, p, jobs[j].1[p].0, jobs[j].1[p].1),
               JTask(jobs[j].0, p + 1, jobs[j].1[p + 1].0, jobs[j].1[p + 1].1)) in ConsecutivePairs(ts)
    {
      FlattenLayout(jobs, j, p);
      FlattenLayout(jobs, j, p + 1);
      var k := Offset(jobs, j) + p;
      assert zs[k] == (ts[k], ts[k + 1]);
    }
  }

  /**
   * The loop of `_process_data`: appends each job's tasks, tracks the index
   * of each job's last task (starting from -1) and the total duration.
   */
  method FlattenJobs(jobs: seq<Job>) returns (ts: seq<JTask>, last: seq<int>, total: int)
    ensures ts == Flatten(jobs) && total == SumDurations(ts)
    ensures |last| == |jobs|
    ensures forall j :: 0 <= j < |jobs| ==> last[j] == Offset(jobs, j + 1) - 1
  {
    ts, total := [], 0;
    var lasts: seq<int> := [-1];
    for j := 0 to |jobs|
      invariant ts == Flatten(jobs[..j])
      invariant total == SumDurations(ts)
      invariant |lasts| == j + 1 && lasts[0] == -1
      invariant forall k :: 1 <= k <= j ==> lasts[k] == Offset(jobs, k) - 1
      invariant lasts[j] == |ts| - 1
    {
      lasts := lasts + [lasts[|lasts| - 1] + |jobs[j].1|];
      ts, total := AppendJob(ts, total, jobs[j]);
      assert jobs[..j + 1][..j] == jobs[..j];
    }
    assert jobs[..|jobs|] == jobs;
    last := lasts[1..];
  }

  /** `JobShopScheduler`: the pre-processing state of one scheduling instance. */
  class JobShopScheduler {
    var tasks: seq<JTask>
    var lastTaskIndices: seq<int>
    var maxTime: int
    var absurdTimes: set<string>
    var posByLabel: map<string, int>
    var labelByPos: seq<string>
    var n: int

    /**
     * `__init__`: empty registries, then `_process_data`. `maxTime` is the
     * optional horizon; absent, it becomes the total duration of all tasks.
     */
    constructor (jobs: seq<Job>, maxTime: Option<int>)
      ensures tasks == Flatten(jobs)
      ensures |lastTaskIndices| == |jobs|
      ensures forall j :: 0 <= j < |jobs| ==> lastTaskIndices[j] == Offset(jobs, j + 1) - 1
      ensures this.maxTime == if maxTime.Some? then maxTime.value else SumDurations(Flatten(jobs))
      ensures absurdTimes == {} && posByLabel == map[] && labelByPos == []
    {
      tasks := [];
      lastTaskIndices := [];
      this.maxTime := 0;
      absurdTimes := {};
      posByLabel := map[];
      labelByPos := [];
      n := 0;
      new;
      ProcessData(jobs, maxTime);
    }

    /**
     * `_process_data`: lists the tasks job by job, records the index of each
     * job's last task (the running task count minus one), and defaults the
     * horizon to the total duration. `given` is the horizon the scheduler
     * was built with.
     */
    method ProcessData(jobs: seq<Job>, given: Option<int>)
      modifies this
      ensures tasks == Flatten(jobs)
      ensures |lastTaskIndices| == |jobs|
      ensures forall j :: 0 <= j < |jobs| ==> lastTaskIndices[j] == Offset(jobs, j + 1) - 1
      ensures maxTime == if given.Some? then given.value else SumDurations(Flatten(jobs))
      ensures absurdTimes == old(absurdTimes) && posByLabel == old(posByLabel)
      ensures labelByPos == old(labelByPos) && n == old(n)
    {
      var ts, last, total := FlattenJobs(jobs);
      tasks := ts;
      lastTaskIndices := last;
      if given.None? {
        maxTime := total;
      } else {
        maxTime := given.value;
      }
    }

    /**
     * `_remove_absurd_times`: a forward pass marks the start times that come
     * before the task's predecessors in its job can finish, and a backward
     * pass marks those too late for the task and its successors to finish by
     * the horizon. With no tasks, reading the first task raises IndexError.
     */
    method RemoveAbsurdTimes() returns (r: Result<(), string>)
      modifies this
      ensures tasks == old(tasks) && lastTaskIndices == old(lastTaskIndices) && maxTime == old(maxTime)
      ensures posByLabel == old(posByLabel) && labelByPos == old(labelByPos) && n == old(n)
      ensures tasks == [] ==> r == Err("list index out of range") && absurdTimes == old(absurdTimes)
      ensures tasks != [] ==> r.Ok? && absurdTimes == old(absurdTimes) + AbsurdLabels(tasks, maxTime)
    {
      if tasks == [] {
        return Err("list index out of range");
      }
      var absurd := ForwardPass(tasks, absurdTimes);
      absurd := BackwardPass(tasks, maxTime, absurd);
      absurdTimes := absurd;
      r := Ok(());
    }

    /**
     * `_build_variable_dict`: every label of every task for a start time in
     * [0, maxTime) that was not pruned gets an index, and `n` is the number
     * of indexed labels. Starting from the empty dictionaries `__init__`
     * creates, with distinct (job, position) slots, the two dictionaries
     * are inverse numberings 0..n-1.
     */
    method BuildVariableDict()
      modifies this
      ensures tasks == old(tasks) && lastTaskIndices == old(lastTaskIndices)
      ensures maxTime == old(maxTime) && absurdTimes == old(absurdTimes)
      ensures posByLabel.Keys == old(posByLabel).Keys + (StartLabels(tasks, maxTime, |tasks|) - absurdTimes)
      ensures n == |posByLabel|
      ensures old(posByLabel) == map[] && old(labelByPos) == [] && DistinctSlots(tasks) ==>
        Numbering(posByLabel, labelByPos) && n == |labelByPos|
    {
      ghost var fromEmpty := posByLabel == map[] && labelByPos == [] && DistinctSlots(tasks);
      assert fromEmpty ==> posByLabel.Keys == {} && Numbering(posByLabel, labelByPos);
      var pos, lab := NumberTasks(tasks, maxTime, absurdTimes, posByLabel, labelByPos);
      if fromEmpty {
        NumberingSize(pos, lab);
      }
      posByLabel, labelByPos := pos, lab;
      n := |pos|;
    }

    /**
     * The label pairs the two pair-generating constraint methods penalise:
     * `_add_precedence_constraint_qiskit` over neighbouring tasks of one job,
     * and `_add_share_machine_constraint_qiskit` over the groups of the tasks
     * sorted by machine, which pair exactly the distinct-slot tasks that
     * share a machine.
     */
    method ConstraintPairs() returns (precedence: set<(string, string)>, overlap: set<(string, string)>)
      ensures precedence == PrecedenceLabels(ConsecutivePairs(tasks), maxTime, absurdTimes)
      ensures overlap == OverlapLabels(SameMachinePairs(tasks), maxTime, absurdTimes)
    {
      precedence := PrecedenceLabels(ConsecutivePairs(tasks), maxTime, absurdTimes);
      var sorted := SortByMachine(tasks);
      SortByMachineSpec(tasks);
      var groups := MachineGroups(sorted);
      SameMachinePairsPermutation(sorted, tasks);
      overlap := OverlapLabels(GroupPairs(groups), maxTime, absurdTimes);
    }

    /**
     * `get_hamiltonian_qiskit` up to its pair constraints: prune, number,
     * then collect the penalised pairs. Every label of every pair has an
     * index and none is absurd, so no lookup in `H_pos_by_label` fails; with
     * no tasks, the pruning step raises IndexError first.
     */
    method PenalisedPairs() returns (r: Result<(set<(string, string)>, set<(string, string)>), string>)
      modifies this
      ensures tasks == old(tasks) && maxTime == old(maxTime) && lastTaskIndices == old(lastTaskIndices)
      ensures r.Err? <==> tasks == []
      ensures r.Err? ==> (r.error == "list index out of range" && absurdTimes == old(absurdTimes) &&
                          posByLabel == old(posByLabel) && labelByPos == old(labelByPos) && n == old(n))
      ensures r.Ok? ==> absurdTimes == old(absurdTimes) + AbsurdLabels(tasks, maxTime)
      ensures r.Ok? ==> posByLabel.Keys == old(posByLabel).Keys + (StartLabels(tasks, maxTime, |tasks|) - absurdTimes)
      ensures r.Ok? ==> r.value == (PrecedenceLabels(ConsecutivePairs(tasks), maxTime, absurdTimes),
                                    OverlapLabels(SameMachinePairs(tasks), maxTime, absurdTimes))
      ensures r.Ok? ==> forall p :: p in r.value.0 + r.value.1 ==>
        p.0 in posByLabel && p.1 in posByLabel && p.0 !in absurdTimes && p.1 !in absurdTimes
    {
      var pruned := RemoveAbsurdTimes();
      if pruned.Err? {
        return Err(pruned.error);
      }
      BuildVariableDict();
      var precedence, overlap := ConstraintPairs();
      ConsecutivePairsListed(tasks);
      PairLabelsNumbered(tasks, maxTime, absurdTimes, posByLabel.Keys, ConsecutivePairs(tasks));
      PairLabelsNumbered(tasks, maxTime, absurdTimes, posByLabel.Keys, SameMachinePairs(tasks));
      r := Ok((precedence, overlap));
    }
  }
}

=== FILE: label_index.dfy ===
/**
 * How `_build_variable_dict` in job_shop_scheduler.py numbers labels: a
 * dictionary from label to index, and its inverse from index to label.
 * Every insertion into the inverse is at key `len(H_label_by_pos)`, so its
 * keys are always 0..len-1 and it is modelled as the sequence of labels in
 * the order they were numbered.
 */
module LabelIndex {
  /**
   * `pos` and `lab` number the labels 0, 1, ...: each is the inverse of the
   * other, so the indices are distinct and exactly 0..|lab|-1.
   */
  ghost predicate Numbering<L>(pos: map<L, int>, lab: seq<L>)
  {
    (forall l :: l in pos ==> 0 <= pos[l] < |lab| && lab[pos[l]] == l) &&
    (forall i :: 0 <= i < |lab| ==> lab[i] in pos && pos[lab[i]] == i)
  }

  /** A numbering has exactly as many labels as indices. */
  lemma {:induction false} NumberingSize<L>(pos: map<L, int>, lab: seq<L>)
    requires Numbering(pos, lab)
    ensures |pos| == |lab|
    decreases |lab|
  {
    if lab == [] {
      assert pos.Keys == {};
    } else {
      var last := lab[|lab| - 1];
      var pos', lab' := pos - {last}, lab[..|lab| - 1];
      forall l | l in pos' ensures 0 <= pos'[l] < |lab'| && lab'[pos'[l]] == l {
        assert pos[l] != |lab| - 1;
      }
      forall i | 0 <= i < |lab'| ensures lab'[i] in pos' && pos'[lab'[i]] == i {
        assert pos[lab[i]] == i;
      }
      NumberingSize(pos', lab');
      assert pos'.Keys == pos.Keys - {last};
    }
  }

  lemma KeysStep<T>(keys: set<T>, keys0: set<T>, times: set<T>, rest: set<T>, absurd: set<T>, l: T)
    requires keys == keys0 + ((times - rest) - absurd) && l in rest && l in times
    ensures l !in absurd ==> keys + {l} == keys0 + ((times - (rest - {l})) - absurd)
    ensures l in absurd ==> keys == keys0 + ((times - (rest - {l})) - absurd)
    ensures keys0 !! times ==> l !in keys
  {
  }

  lemma UnionStep<T>(keys: set<T>, keys0: set<T>, done: set<T>, more: set<T>, absurd: set<T>, keys': set<T>)
    requires keys == keys0 + (done - absurd) && keys' == keys + (more - absurd)
    ensures keys' == keys0 + ((done + more) - absurd)
  {
  }

  /**
   * `H_pos_by_label[label] = len(H_pos_by_label)` followed by
   * `H_label_by_pos[len(H_label_by_pos)] = label`: a label not yet numbered
   * gets the next index in both.
   */
  method NumberNext<L>(pos0: map<L, int>, lab0: seq<L>, l: L) returns (pos: map<L, int>, lab: seq<L>)
    ensures pos.Keys == pos0.Keys + {l} && lab == lab0 + [l]
    ensures Numbering(pos0, lab0) && l !in pos0 ==> Numbering(pos, lab) && pos[l] == |lab0|
  {
    if Numbering(pos0, lab0) {
      NumberingSize(pos0, lab0);
    }
    pos := pos0[l := |pos0|];
    lab := lab0 + [l];
  }

  /**
   * One pass of the inner loop of `_build_variable_dict`: some label of
   * `rest0` is taken out and, unless it is absurd, numbered.
   */
  method VisitLabel<L>(ghost times: set<L>, absurd: set<L>, ghost keys0: set<L>,
                       rest0: set<L>, pos0: map<L, int>, lab0: seq<L>)
    returns (rest: set<L>, pos: map<L, int>, lab: seq<L>)
    requires rest0 != {} && rest0 <= times
    requires pos0.Keys == keys0 + ((times - rest0) - absurd)
    ensures rest <= times && |rest| < |rest0|
    ensures pos.Keys == keys0 + ((times - rest) - absurd)
    ensures Numbering(pos0, lab0) && keys0 !! times ==> Numbering(pos, lab)
  {
    var l :| l in rest0;
    KeysStep(pos0.Keys, keys0, times, rest0, absurd, l);
    rest := rest0 - {l};
    if l in absurd {
      pos, lab := pos0, lab0;
    } else {
      pos, lab := NumberNext(pos0, lab0, l);
    }
  }

  /**
   * The inner loop of `_build_variable_dict` over the labels of one task, in
   * whatever order the set yields them: each label that is not absurd gets
   * the next index.
   */
  method NumberLabels<L>(times: set<L>, absurd: set<L>, pos0: map<L, int>, lab0: seq<L>)
    returns (pos: map<L, int>, lab: seq<L>)
    ensures pos.Keys == pos0.Keys + (times - absurd)
    ensures Numbering(pos0, lab0) && pos0.Keys !! times ==> Numbering(pos, lab)
  {
    ghost var unseen := Numbering(pos0, lab0) && pos0.Keys !! times;
    pos, lab := pos0, lab0;
    var rest := times;
    while rest != {}
      invariant rest <= times
      invariant pos.Keys == pos0.Keys + ((times - rest) - absurd)
      invariant unseen ==> Numbering(pos, lab)
      decreases |rest|
    {
      rest, pos, lab := VisitLabel(times, absurd, pos0.Keys, rest, pos, lab);
    }
  }
}

=== FILE: legacy_adapters.dfy ===
/**
 * The older formatter registries of base/adapter_structure.py: the same
 * resolution as `Adapters`, except that a formatter is stored exactly as
 * given (a class is not instantiated), nothing is registered at load time,
 * and a format with neither a formatter nor a translation resolves to
 * `None`.
 */
module LegacyAdapters {
  import opened Wrappers
  import opened Adapters

  class LegacyRegistries {
    var translations: Translations
    var adapters: map<ProblemKey, map<string, Callable>>

    /** Both registries start empty. */
    constructor()
      ensures translations == map[] && adapters == map[]
    {
      translations := map[];
      adapters := map[];
    }

    /** `__QL_ADAPTERS[problem]`, a `defaultdict` whose missing entries read as `{}`. */
    function Direct(key: ProblemKey): map<string, Callable>
      reads this
    {
      if key in adapters then adapters[key] else map[]
    }

    /** `get_formatter(problem_id, alg_format)`: falls back to `None`, which cannot be called. */
    function GetFormatter(key: ProblemKey, fmt: string, depth: nat): (r: Result<Callable, string>)
      reads this
      ensures fmt !in Direct(key) && fmt !in translations ==> r == Ok(NoneObject)
      ensures fmt !in Direct(key) && fmt !in translations ==> forall p :: Apply(r.value, p).Err?
    {
      Resolve(Direct(key), translations, fmt, depth, NoneObject)
    }

    /** `adapter(translates_from, translates_to)(func)`: registers the translation for the target format, replacing any earlier one. */
    method Adapter(translatesFrom: string, translatesTo: string, func: string) returns (t: Translation)
      modifies this
      ensures t == Translation(func)
      ensures translations == old(translations)[translatesTo := (translatesFrom, t)]
      ensures adapters == old(adapters)
    {
      t := Translation(func);
      translations := translations[translatesTo := (translatesFrom, t)];
    }

    /** `formatter(problem, format)(func)`: stores `func` as given for (problem, format), replacing any earlier one. */
    method Formatter(key: ProblemKey, format: string, func: FormatterArg) returns (f: Callable)
      modifies this
      ensures f == if func.ClassArg? then ClassObject(func.name) else Func(func.name)
      ensures adapters == old(adapters)[key := old(Direct(key))[format := f]]
      ensures translations == old(translations)
      ensures forall d: nat :: GetFormatter(key, format, d) == Ok(f)
    {
      if func.ClassArg? {
        f := ClassObject(func.name);
      } else {
        f := Func(func.name);
      }
      adapters := adapters[key := Direct(key)[format := f]];
    }
  }

  /**
   * A translation whose origin format has neither a formatter nor a
   * translation still yields a formatter, `translation(None)`, but calling
   * it raises TypeError.
   */
  lemma TranslationOverNone(r: LegacyRegistries, key: ProblemKey, fmt: string, depth: nat, p: Problem)
    requires fmt !in r.Direct(key) && fmt in r.translations && depth > 0
    requires r.translations[fmt].0 !in r.Direct(key) && r.translations[fmt].0 !in r.translations
    ensures r.GetFormatter(key, fmt, depth) == Ok(Chain(r.translations[fmt].1.func, NoneObject))
    ensures Apply(r.GetFormatter(key, fmt, depth).value, p) == Err("'NoneType' object is not callable")
  {
    FallbackUsed(r.Direct(key), r.translations, r.translations[fmt].0, depth - 1, NoneObject);
  }
}

=== FILE: ordered_dict.dfy ===
/**
 * Python's insertion-ordered `dict` from keys to numeric coefficients, as a
 * list of entries: assigning to a present key keeps its place, assigning to
 * a new key appends it, and `del` removes the entry. The folds below are the
 * loops of the form `for key, value in other.items(): ...` that the
 * polynomial operators run, each processing the entries first to last.
 */
module OrderedDict {
  import opened Wrappers

  type Dict<K> = seq<(K, real)>

  function Keys<K(==,!new)>(d: Dict<K>): set<K>
  {
    if d == [] then {} else Keys(d[..|d| - 1]) + {d[|d| - 1].0}
  }

  /** No key occurs twice, as in every Python dict. */
  ghost predicate Distinct<K(!new)>(d: Dict<K>)
  {
    forall i, j :: 0 <= i < j < |d| ==> d[i].0 != d[j].0
  }

  /** `d.get(k)`: the value of the first entry with key `k`. */
  function Find<K(==,!new)>(d: Dict<K>, k: K): Option<real>
  {
    if d == [] then None else if d[0].0 == k then Some(d[0].1) else Find(d[1..], k)
  }

  /** `d.get(k, 0)`. */
  function Coef<K(==,!new)>(d: Dict<K>, k: K): real
  {
    match Find(d, k)
    case None => 0.0
    case Some(v) => v
  }

  lemma {:induction false} KeysFind<K(!new)>(d: Dict<K>, k: K)
    ensures k in Keys(d) <==> Find(d, k).Some?
    decreases |d|
  {
    if d != [] {
      var init := d[..|d| - 1];
      if |d| == 1 {
        assert init == [];
      } else {
        assert init[1..] == d[1..][..|d| - 2];
        KeysFind(init, k);
        KeysFind(d[1..], k);
        KeysFind(init[1..], k);
        assert Keys(d[1..]) == Keys(init[1..]) + {d[|d| - 1].0};
        if init != [] {
          assert Keys(init) == Keys(init[1..]) + {init[0].0} by {
            KeysFront(init);
          }
        }
      }
    }
  }

  /** The key set read front to back. */
  lemma {:induction false} KeysFront<K(!new)>(d: Dict<K>)
    requires d != []
    ensures Keys(d) == {d[0].0} + Keys(d[1..])
    decreases |d|
  {
    if |d| > 1 {
      var init := d[..|d| - 1];
      assert init[1..] == d[1..][..|d| - 2];
      KeysFront(init);
    } else {
      assert d[1..] == [];
      assert d[..0] == [];
    }
  }

  lemma {:induction false} FindAppend<K(!new)>(d: Dict<K>, e: (K, real), k: K)
    ensures Find(d + [e], k) == if Find(d, k).Some? then Find(d, k) else if e.0 == k then Some(e.1) else None
    decreases |d|
  {
    if d != [] {
      assert (d + [e])[1..] == d[1..] + [e];
      FindAppend(d[1..], e, k);
    }
  }

  lemma DistinctInit<K(!new)>(d: Dict<K>)
    requires Distinct(d) && d != []
    ensures Distinct(d[..|d| - 1]) && d[|d| - 1].0 !in Keys(d[..|d| - 1])
  {
    var init := d[..|d| - 1];
    if d[|d| - 1].0 in Keys(init) {
      KeysFind(init, d[|d| - 1].0);
      var i := FindIndex(init, d[|d| - 1].0);
    }
  }

  /** Where `Find` found its value. */
  lemma {:induction false} FindIndex<K(!new)>(d: Dict<K>, k: K) returns (i: int)
    requires Find(d, k).Some?
    ensures 0 <= i < |d| && d[i] == (k, Find(d, k).value)
    decreases |d|
  {
    if d[0].0 == k {
      i := 0;
    } else {
      var j := FindIndex(d[1..], k);
      i := j + 1;
    }
  }

  /** In a list without repeated keys, the last entry adds its value to its own key's coefficient only. */
  lemma CoefLast<K(!new)>(d: Dict<K>, k: K)
    requires Distinct(d) && d != []
    ensures Coef(d, k) == Coef(d[..|d| - 1], k) + if d[|d| - 1].0 == k then d[|d| - 1].1 else 0.0
  {
    var init, e := d[..|d| - 1], d[|d| - 1];
    assert d == init + [e];
    DistinctInit(d);
    KeysFind(init, e.0);
    FindAppend(init, e, k);
  }

  /** `d[k] = v`: a present key keeps its place, a new key goes last. */
  function Put<K(==,!new)>(d: Dict<K>, k: K, v: real): (r: Dict<K>)
    ensures forall j :: Find(r, j) == if j == k then Some(v) else Find(d, j)
    ensures Find(d, k).None? ==> r == d + [(k, v)]
    ensures Find(d, k).Some? ==> |r| == |d| && forall i :: 0 <= i < |d| ==> r[i].0 == d[i].0
  {
    if d == [] then [(k, v)]
    else if d[0].0 == k then [(k, v)] + d[1..]
    else
      var rest := Put(d[1..], k, v);
      assert Find(d[1..], k).None? ==> [d[0]] + rest == d + [(k, v)];
      [d[0]] + rest
  }

  /** `del d[k]` (on a dict holding `k` at most once). */
  function Delete<K(==,!new)>(d: Dict<K>, k: K): (r: Dict<K>)
    ensures forall j :: Find(r, j) == if j == k then None else Find(d, j)
    ensures |r| <= |d|
    ensures forall e :: e in r ==> e in d
  {
    if d == [] then []
    else if d[0].0 == k then Delete(d[1..], k)
    else [d[0]] + Delete(d[1..], k)
  }

  /** Deleting an absent key changes nothing. */
  lemma {:induction false} DeleteAbsent<K(!new)>(d: Dict<K>, k: K)
    requires Find(d, k).None?
    ensures Delete(d, k) == d
    decreases |d|
  {
    if d != [] {
      DeleteAbsent(d[1..], k);
      assert d == [d[0]] + d[1..];
    }
  }

  /** `if k in d: d[k] += v` `else: d[k] = v`. */
  function Bump<K(==,!new)>(d: Dict<K>, k: K, v: real): (r: Dict<K>)
    ensures Coef(r, k) == Coef(d, k) + v
    ensures forall j :: j != k ==> Find(r, j) == Find(d, j)
  {
    Put(d, k, Coef(d, k) + v)
  }

  /** `if k in d: d[k] -= v; if d[k] == 0: del d[k]` `else: d[k] = -v`. */
  function Reduce<K(==,!new)>(d: Dict<K>, k: K, v: real): (r: Dict<K>)
  {
    if Find(d, k).Some? then
      if Coef(d, k) - v == 0.0 then Delete(d, k) else Put(d, k, Coef(d, k) - v)
    else Put(d, k, -v)
  }

  /** Entries of one key differ from entries of another; a distinct list stays distinct under these updates. */
  lemma {:induction false} PutDistinct<K(!new)>(d: Dict<K>, k: K, v: real)
    requires Distinct(d)
    ensures Distinct(Put(d, k, v))
    decreases |d|
  {
    if d != [] && d[0].0 != k {
      PutDistinct(d[1..], k, v);
      var r := Put(d, k, v);
      forall j | 0 < j < |r| ensures r[j].0 != d[0].0 {
        var x := r[j].0;
        if x == d[0].0 {
          assert r[1..][j - 1].0 == x;
          assert Find(Put(d[1..], k, v), x).Some? by {
            FindOfEntry(Put(d[1..], k, v), j - 1);
          }
          assert Find(d[1..], x).Some?;
          var i := FindIndex(d[1..], x);
        }
      }
    }
  }

  /** Every entry's key can be found. */
  lemma {:induction false} FindOfEntry<K(!new)>(d: Dict<K>, i: int)
    requires 0 <= i < |d|
    ensures Find(d, d[i].0).Some?
    decreases i
  {
    if i > 0 && d[0].0 != d[i].0 {
      FindOfEntry(d[1..], i - 1);
    }
  }

  lemma {:induction false} DeleteDistinct<K(!new)>(d: Dict<K>, k: K)
    requires Distinct(d)
    ensures Distinct(Delete(d, k))
    decreases |d|
  {
    if d != [] {
      DeleteDistinct(d[1..], k);
      if d[0].0 != k {
        var rest := Delete(d[1..], k);
        forall j | 0 <= j < |rest| ensures rest[j].0 != d[0].0 {
          assert rest[j] in rest;
          var i :| 0 <= i < |d[1..]| && d[1..][i] == rest[j];
          assert d[i + 1] == rest[j];
        }
      }
    }
  }

  /** In a distinct list the key of an entry finds that entry's value. */
  lemma {:induction false} FindDistinct<K(!new)>(d: Dict<K>, i: int)
    requires Distinct(d) && 0 <= i < |d|
    ensures Find(d, d[i].0) == Some(d[i].1)
    decreases i
  {
    if i > 0 {
      FindDistinct(d[1..], i - 1);
    }
  }

  /** `for key, value in other.items(): d[key] += value` (inserting absent keys). */
  function AddAll<K(==,!new)>(d: Dict<K>, other: Dict<K>): Dict<K>
  {
    if other == [] then d
    else
      var e := other[|other| - 1];
      Bump(AddAll(d, other[..|other| - 1]), e.0, e.1)
  }

  /** Key-wise addition: every coefficient is the sum of both, and the keys are the union. */
  lemma {:induction false} AddAllCoef<K(!new)>(d: Dict<K>, other: Dict<K>, k: K)
    requires Distinct(other)
    ensures Coef(AddAll(d, other), k) == Coef(d, k) + Coef(other, k)
    ensures Find(AddAll(d, other), k).Some? <==> Find(d, k).Some? || Find(other, k).Some?
    decreases |other|
  {
    if other != [] {
      var init := other[..|other| - 1];
      var e := other[|other| - 1];
      assert other == init + [e];
      DistinctInit(other);
      AddAllCoef(d, init, k);
      FindAppend(init, e, k);
      KeysFind(init, e.0);
    }
  }

  lemma {:induction false} AddAllDistinct<K(!new)>(d: Dict<K>, other: Dict<K>)
    requires Distinct(d)
    ensures Distinct(AddAll(d, other))
    decreases |other|
  {
    if other != [] {
      var e := other[|other| - 1];
      AddAllDistinct(d, other[..|other| - 1]);
      PutDistinct(AddAll(d, other[..|other| - 1]), e.0, Coef(AddAll(d, other[..|other| - 1]), e.0) + e.1);
    }
  }

  /** Adding never reorders or drops an existing key: the old keys keep their places in front. */
  lemma {:induction false} AddAllKeepsOrder<K(!new)>(d: Dict<K>, other: Dict<K>)
    ensures |AddAll(d, other)| >= |d|
    ensures forall i :: 0 <= i < |d| ==> AddAll(d, other)[i].0 == d[i].0
    decreases |other|
  {
    if other != [] {
      AddAllKeepsOrder(d, other[..|other| - 1]);
    }
  }

  /** `for key, value in other.items(): ...` with `-=`, deleting keys that reach 0. */
  function SubAll<K(==,!new)>(d: Dict<K>, other: Dict<K>): Dict<K>
  {
    if other == [] then d
    else
      var e := other[|other| - 1];
      Reduce(SubAll(d, other[..|other| - 1]), e.0, e.1)
  }

  /**
   * Key-wise subtraction: every coefficient is the difference; a key of both
   * survives only with a non-zero difference, a key of `other` alone enters
   * negated, and a key of `d` alone stays.
   */
  lemma {:induction false} SubAllCoef<K(!new)>(d: Dict<K>, other: Dict<K>, k: K)
    requires Distinct(other)
    ensures Coef(SubAll(d, other), k) == Coef(d, k) - Coef(other, k)
    ensures Find(SubAll(d, other), k).Some? <==>
      if Find(other, k).Some? then Find(d, k).None? || Coef(d, k) - Coef(other, k) != 0.0
      else Find(d, k).Some?
    decreases |other|
  {
    if other != [] {
      var init := other[..|other| - 1];
      var e := other[|other| - 1];
      assert other == init + [e];
      DistinctInit(other);
      SubAllCoef(d, init, k);
      SubAllCoef(d, init, e.0);
      FindAppend(init, e, k);
      KeysFind(init, e.0);
    }
  }

  lemma {:induction false} SubAllDistinct<K(!new)>(d: Dict<K>, other: Dict<K>)
    requires Distinct(d)
    ensures Distinct(SubAll(d, other))
    decreases |other|
  {
    if other != [] {
      var e := other[|other| - 1];
      var s := SubAll(d, other[..|other| - 1]);
      SubAllDistinct(d, other[..|other| - 1]);
      PutDistinct(s, e.0, Coef(s, e.0) - e.1);
      PutDistinct(s, e.0, -e.1);
      DeleteDistinct(s, e.0);
    }
  }

  /** Python's `value * other` on two numbers. */
  function Times(x: real, c: real): real
  {
    x * c
  }

  /** `data = {}` then `for key, value in d.items(): data[key] = value * c`. */
  function ScaleAll<K(==,!new)>(d: Dict<K>, c: real): Dict<K>
  {
    if d == [] then []
    else
      var e := d[|d| - 1];
      Put(ScaleAll(d[..|d| - 1], c), e.0, Times(e.1, c))
  }

  /** Scaling keeps every key in its place and multiplies its coefficient. */
  lemma {:induction false} ScaleAllEntries<K(!new)>(d: Dict<K>, c: real)
    requires Distinct(d)
    ensures |ScaleAll(d, c)| == |d|
    ensures forall i :: 0 <= i < |d| ==> ScaleAll(d, c)[i] == (d[i].0, Times(d[i].1, c))
    decreases |d|
  {
    if d != [] {
      var init := d[..|d| - 1];
      DistinctInit(d);
      ScaleAllEntries(init, c);
      ScaleAllFind(init, c, d[|d| - 1].0);
      KeysFind(init, d[|d| - 1].0);
      var s := ScaleAll(init, c);
      assert ScaleAll(d, c) == s + [(d[|d| - 1].0, Times(d[|d| - 1].1, c))];
      forall i | 0 <= i < |d| ensures ScaleAll(d, c)[i] == (d[i].0, Times(d[i].1, c)) {
        if i < |d| - 1 {
          assert init[i] == d[i];
          assert s[i] == (init[i].0, Times(init[i].1, c));
        }
      }
    }
  }

  lemma {:induction false} ScaleAllFind<K(!new)>(d: Dict<K>, c: real, k: K)
    ensures Find(ScaleAll(d, c), k).Some? <==> Find(d, k).Some?
    decreases |d|
  {
    if d != [] {
      var init := d[..|d| - 1];
      assert d == init + [d[|d| - 1]];
      ScaleAllFind(init, c, k);
      FindAppend(init, d[|d| - 1], k);
    }
  }

  /** The loop of `__add__` over a dict or a Binary's data. */
  method AddItems<K(==,!new)>(d: Dict<K>, other: Dict<K>) returns (r: Dict<K>)
    ensures r == AddAll(d, other)
  {
    r := d;
    for i := 0 to |other|
      invariant r == AddAll(d, other[..i])
    {
      assert other[..i + 1][..i] == other[..i];
      var key, value := other[i].0, other[i].1;
      if Find(r, key).Some? {
        r := Put(r, key, Coef(r, key) + value);
      } else {
        r := Put(r, key, value);
      }
    }
    assert other[..|other|] == other;
  }

  /** The loop of `__sub__` over a dict or a Binary's data. */
  method SubItems<K(==,!new)>(d: Dict<K>, other: Dict<K>) returns (r: Dict<K>)
    ensures r == SubAll(d, other)
  {
    r := d;
    for i := 0 to |other|
      invariant r == SubAll(d, other[..i])
    {
      assert other[..i + 1][..i] == other[..i];
      var key, value := other[i].0, other[i].1;
      if Find(r, key).Some? {
        r := Put(r, key, Coef(r, key) - value);
        if Coef(r, key) == 0.0 {
          r := Delete(r, key);
          assert r == Delete(SubAll(d, other[..i]), key) by {
            DeleteAfterPut(SubAll(d, other[..i]), key, Coef(SubAll(d, other[..i]), key) - value);
          }
        }
      } else {
        r := Put(r, key, -value);
      }
    }
    assert other[..|other|] == other;
  }

  /** Assigning a key and then deleting it is deleting it. */
  lemma {:induction false} DeleteAfterPut<K(!new)>(d: Dict<K>, k: K, v: real)
    ensures Delete(Put(d, k, v), k) == Delete(d, k)
    decreases |d|
  {
    if d != [] && d[0].0 != k {
      DeleteAfterPut(d[1..], k, v);
    }
  }

  /** The loop of `__mul__` by a number. */
  method ScaleItems<K(==,!new)>(d: Dict<K>, c: real) returns (r: Dict<K>)
    ensures r == ScaleAll(d, c)
  {
    r := [];
    for i := 0 to |d|
      invariant r == ScaleAll(d[..i], c)
    {
      assert d[..i + 1][..i] == d[..i];
      assert d[..i + 1][i] == d[i];
      assert ScaleAll(d[..i + 1], c) == Put(ScaleAll(d[..i], c), d[i].0, Times(d[i].1, c));
      r := Put(r, d[i].0, Times(d[i].1, c));
    }
    assert d[..|d|] == d;
  }
}

=== FILE: truth_tables.dfy ===
/**
 * The truth-table conversions of quantum_launcher/hampy/debug.py: a truth
 * table lists a function's value for every bit pattern, in the order of
 * `itertools.product([0, 1], repeat=n)`; a "commutative" table lists, for a
 * function that depends only on the number of ones, the value for each count
 * 0..n. Table values are numbers, modelled as `real`.
 */
module TruthTables {
  import opened Wrappers
  import opened OrderedDict

  function Pow2(n: nat): (r: nat)
    ensures r >= 1
  {
    if n == 0 then 1 else 2 * Pow2(n - 1)
  }

  lemma {:induction false} Pow2Increasing(a: nat, b: nat)
    ensures a < b ==> Pow2(a) < Pow2(b)
    decreases b
  {
    if a < b {
      Pow2Increasing(a, b - 1);
    }
  }

  /** `int(log2(x))` for `x >= 1`, as exact integer arithmetic. */
  function Log2Floor(x: nat): nat
    requires x >= 1
  {
    if x < 2 then 0 else 1 + Log2Floor(x / 2)
  }

  lemma {:induction false} Log2FloorPow2(n: nat)
    ensures Log2Floor(Pow2(n)) == n
  {
    if n > 0 {
      Log2FloorPow2(n - 1);
      assert Pow2(n) / 2 == Pow2(n - 1);
    }
  }

  predicate IsBits(p: seq<int>)
  {
    forall k :: 0 <= k < |p| ==> p[k] == 0 || p[k] == 1
  }

  /** `sum(p)`: for a bit pattern, its number of ones. */
  function Sum(p: seq<int>): int
  {
    if p == [] then 0 else p[0] + Sum(p[1..])
  }

  /**
   * The i-th tuple of `itertools.product([0, 1], repeat=n)`: the n-bit
   * numeral of i, most significant bit first.
   */
  function Pattern(n: nat, i: int): (p: seq<int>)
    requires 0 <= i < Pow2(n)
    ensures |p| == n
  {
    if n == 0 then []
    else if i < Pow2(n - 1) then [0] + Pattern(n - 1, i)
    else [1] + Pattern(n - 1, i - Pow2(n - 1))
  }

  /** The number of ones of the n-bit numeral of i. */
  function Count(n: nat, i: int): (c: nat)
    requires 0 <= i < Pow2(n)
    ensures c <= n
  {
    if n == 0 then 0
    else if i < Pow2(n - 1) then Count(n - 1, i)
    else 1 + Count(n - 1, i - Pow2(n - 1))
  }

  /** One step of `Pattern`: the leading bit, then the numeral of the rest. */
  lemma PatternStep(n: nat, i: int)
    requires n > 0 && 0 <= i < Pow2(n)
    ensures Pattern(n, i)[1..] == if i < Pow2(n - 1) then Pattern(n - 1, i) else Pattern(n - 1, i - Pow2(n - 1))
    ensures Pattern(n, i)[0] == if i < Pow2(n - 1) then 0 else 1
  {
  }

  /** A numeral is made of bits, and `sum` of it is its number of ones. */
  lemma {:induction false} PatternCount(n: nat, i: int)
    requires 0 <= i < Pow2(n)
    ensures IsBits(Pattern(n, i)) && Sum(Pattern(n, i)) == Count(n, i)
  {
    if n > 0 {
      PatternStep(n, i);
      var q := if i < Pow2(n - 1) then i else i - Pow2(n - 1);
      PatternCount(n - 1, q);
      forall k | 0 <= k < n ensures Pattern(n, i)[k] == 0 || Pattern(n, i)[k] == 1 {
        if k > 0 {
          assert Pattern(n, i)[k] == Pattern(n - 1, q)[k - 1];
        }
      }
    }
  }

  /** `(b,) + p` for every `p` of `ps`. */
  function Prefixed(b: int, ps: seq<seq<int>>): (r: seq<seq<int>>)
    ensures |r| == |ps| && forall i :: 0 <= i < |ps| ==> r[i] == [b] + ps[i]
  {
    seq(|ps|, i requires 0 <= i < |ps| => [b] + ps[i])
  }

  /** `list(itertools.product([0, 1], repeat=n))`, built as `product` does: every tuple with a leading 0, then with a leading 1. */
  function Product(n: nat): (ps: seq<seq<int>>)
    ensures |ps| == Pow2(n)
  {
    if n == 0 then [[]] else Prefixed(0, Product(n - 1)) + Prefixed(1, Product(n - 1))
  }

  /** The product lists the n-bit numerals of 0, 1, ..., 2^n - 1, in that order. */
  lemma {:induction false} ProductPatterns(n: nat)
    ensures forall i :: 0 <= i < Pow2(n) ==> Product(n)[i] == Pattern(n, i)
  {
    if n > 0 {
      ProductPatterns(n - 1);
      var h := Product(n - 1);
      var half := Pow2(n - 1);
      forall i | 0 <= i < Pow2(n) ensures Product(n)[i] == Pattern(n, i) {
        if i < half {
          assert Product(n)[i] == Prefixed(0, h)[i];
        } else {
          assert Product(n)[i] == Prefixed(1, h)[i - half];
        }
      }
    }
  }

  /** `sum(perms[i])` is the number of ones of i. */
  lemma ProductCounts(n: nat)
    ensures forall i :: 0 <= i < Pow2(n) ==> Sum(Product(n)[i]) == Count(n, i)
  {
    ProductPatterns(n);
    forall i | 0 <= i < Pow2(n) ensures Sum(Product(n)[i]) == Count(n, i) {
      PatternCount(n, i);
    }
  }

  /**
   * The first pattern with k ones is the one at index 2^k - 1 (k ones at the
   * end), and every earlier pattern has fewer ones: the counts first occur
   * in the order 0, 1, ..., n.
   */
  lemma {:induction false} FirstOccurrence(n: nat, k: nat)
    requires k <= n
    ensures Pow2(k) - 1 < Pow2(n)
    ensures Count(n, Pow2(k) - 1) == k
    ensures forall j :: 0 <= j < Pow2(k) - 1 ==> Count(n, j) < k
  {
    Pow2Increasing(k, n);
    if n > 0 {
      if k < n {
        FirstOccurrence(n - 1, k);
        Pow2Increasing(k, n - 1);
      } else {
        FirstOccurrence(n - 1, n - 1);
      }
    }
  }

  lemma BitsTail(p: seq<int>)
    requires p != [] && IsBits(p)
    ensures IsBits(p[1..]) && (p[0] == 0 || p[0] == 1) && p == [p[0]] + p[1..]
  {
    forall k | 0 <= k < |p| - 1 ensures p[1..][k] == 0 || p[1..][k] == 1 {
      assert p[1..][k] == p[k + 1];
    }
  }

  /** Every bit pattern of length n is the numeral of some index. */
  lemma {:induction false} PatternComplete(n: nat, p: seq<int>) returns (i: int)
    requires |p| == n && IsBits(p)
    ensures 0 <= i < Pow2(n) && Pattern(n, i) == p
  {
    if n == 0 {
      i := 0;
    } else {
      var tail := p[1..];
      BitsTail(p);
      var j := PatternComplete(n - 1, tail);
      if p[0] == 0 {
        i := j;
        PatternStep(n, i);
        assert Pattern(n, i) == [0] + tail;
      } else {
        i := Pow2(n - 1) + j;
        PatternStep(n, i);
        assert Pattern(n, i) == [1] + tail;
      }
    }
  }

  // ----- bit strings, the keys of the dict forms -----

  /** `''.join([str(k) for k in p])` for a bit pattern. */
  function BitString(p: seq<int>): (s: string)
    ensures |s| == |p|
  {
    if p == [] then "" else [if p[0] == 1 then '1' else '0'] + BitString(p[1..])
  }

  predicate IsBitString(s: string)
  {
    forall k :: 0 <= k < |s| ==> s[k] == '0' || s[k] == '1'
  }

  /** The bit pattern a bit string spells. */
  function ParseBits(s: string): (p: seq<int>)
    ensures |p| == |s|
  {
    if s == "" then [] else [if s[0] == '1' then 1 else 0] + ParseBits(s[1..])
  }

  lemma {:induction false} ParseBitsBits(s: string)
    ensures IsBits(ParseBits(s))
  {
    if s != "" {
      ParseBitsBits(s[1..]);
      forall k | 0 <= k < |s| ensures ParseBits(s)[k] == 0 || ParseBits(s)[k] == 1 {
        if k > 0 {
          assert ParseBits(s)[k] == ParseBits(s[1..])[k - 1];
        }
      }
    }
  }

  /** The number of `'1'` characters. */
  function Ones(s: string): (c: nat)
    ensures c <= |s|
  {
    if s == [] then 0 else (if s[0] == '1' then 1 else 0) + Ones(s[1..])
  }

  /** Spelling a pattern and reading it back are inverse, and the spelling has as many ones as the pattern. */
  lemma {:induction false} BitStringRoundTrip(p: seq<int>)
    requires IsBits(p)
    ensures IsBitString(BitString(p)) && ParseBits(BitString(p)) == p
    ensures Ones(BitString(p)) == Sum(p)
  {
    if p != [] {
      assert IsBits(p[1..]) by {
        forall k | 0 <= k < |p| - 1 ensures p[1..][k] == 0 || p[1..][k] == 1 {
          assert p[1..][k] == p[k + 1];
        }
      }
      BitStringRoundTrip(p[1..]);
      var s := BitString(p);
      assert s[1..] == BitString(p[1..]);
      forall k | 0 <= k < |s| ensures s[k] == '0' || s[k] == '1' {
        if k > 0 {
          assert s[k] == BitString(p[1..])[k - 1];
        }
      }
      assert p == [p[0]] + p[1..];
    }
  }

  lemma {:induction false} ParseBitsRoundTrip(s: string)
    requires IsBitString(s)
    ensures BitString(ParseBits(s)) == s
  {
    if s != "" {
      assert IsBitString(s[1..]) by {
        forall k | 0 <= k < |s| - 1 ensures s[1..][k] == '0' || s[1..][k] == '1' {
          assert s[1..][k] == s[k + 1];
        }
      }
      ParseBitsRoundTrip(s[1..]);
      var p := ParseBits(s);
      assert p[1..] == ParseBits(s[1..]);
      assert s == [s[0]] + s[1..];
    }
  }

  // ----- the result types -----

  /** The `output`/`mode` argument: `list`, `dict`, or any other type. */
  datatype Mode = ListMode | DictMode | OtherMode

  /** What the conversions return: a list, a dict keyed by bit strings, a dict keyed by counts, or `False`. */
  datatype Table =
    | Listed(values: seq<real>)
    | Keyed(entries: map<string, real>)
    | ByCount(com: Dict<int>)
    | NotCommutative

  // ----- com_to_truth -----

  /** `[com[sum(i)] for i in product([0, 1], repeat=len(com) - 1)]`. */
  function TruthList(com: seq<real>): (t: seq<real>)
    requires |com| >= 1
    ensures |t| == Pow2(|com| - 1)
  {
    var n := |com| - 1;
    seq(Pow2(n), i requires 0 <= i < Pow2(n) => com[Count(n, i)])
  }

  /**
   * The list form has one entry per pattern: the i-th is `com` at `sum` of
   * the i-th tuple of the product, which is also the number of ones of the
   * i-th bit string.
   */
  lemma TruthListAt(com: seq<real>, i: int)
    requires |com| >= 1 && 0 <= i < Pow2(|com| - 1)
    ensures 0 <= Sum(Product(|com| - 1)[i]) < |com| && TruthList(com)[i] == com[Sum(Product(|com| - 1)[i])]
    ensures TruthList(com)[i] == com[Ones(BitString(Pattern(|com| - 1, i)))]
  {
    ProductCounts(|com| - 1);
    PatternCount(|com| - 1, i);
    BitStringRoundTrip(Pattern(|com| - 1, i));
  }

  /** Every bit string of length n, as a loop over the patterns finds it. */
  lemma AllBitStrings(n: nat, s: string)
    requires |s| == n && IsBitString(s)
    ensures exists j :: 0 <= j < Pow2(n) && BitString(Pattern(n, j)) == s
  {
    ParseBitsBits(s);
    var j := PatternComplete(n, ParseBits(s));
    ParseBitsRoundTrip(s);
  }

  /**
   * `com_to_truth(com, mode)`: `product` with a negative repeat raises
   * ValueError for an empty `com`; a mode other than list or dict leaves
   * `truth` unassigned.
   */
  method ComToTruth(com: seq<real>, mode: Mode) returns (r: Result<Table, string>)
    ensures r.Err? <==> |com| == 0 || mode.OtherMode?
    ensures r.Ok? && mode.ListMode? ==> r.value == Listed(TruthList(com))
    ensures r.Ok? && mode.DictMode? ==> r.value.Keyed?
    ensures r.Ok? && mode.DictMode? ==> forall s :: s in r.value.entries <==> |s| == |com| - 1 && IsBitString(s)
    ensures r.Ok? && mode.DictMode? ==> forall s :: s in r.value.entries ==> r.value.entries[s] == com[Ones(s)]
  {
    if |com| == 0 {
      return Err("repeat argument cannot be negative");
    }
    var n := |com| - 1;
    var perms := Product(n);
    ProductPatterns(n);
    if mode.DictMode? {
      var truth := KeyedByCount(com, perms);
      r := Ok(Keyed(truth));
    } else if mode.ListMode? {
      r := Ok(Listed(TruthList(com)));
    } else {
      r := Err("local variable 'truth' referenced before assignment");
    }
  }

  /** The key of pattern i is an n-character bit string with as many ones as `sum` of the pattern. */
  lemma PatternKey(n: nat, i: int)
    requires 0 <= i < Pow2(n)
    ensures var s := BitString(Pattern(n, i));
      |s| == n && IsBitString(s) && Ones(s) == Sum(Pattern(n, i)) == Count(n, i)
  {
    PatternCount(n, i);
    BitStringRoundTrip(Pattern(n, i));
  }

  /** The dict branch of `com_to_truth`: `truth[''.join(map(str, i))] = com[sum(i)]` for every pattern `i`. */
  method KeyedByCount(com: seq<real>, perms: seq<seq<int>>) returns (truth: map<string, real>)
    requires |com| >= 1 && |perms| == Pow2(|com| - 1)
    requires forall i :: 0 <= i < |perms| ==> perms[i] == Pattern(|com| - 1, i)
    ensures forall s :: s in truth <==> |s| == |com| - 1 && IsBitString(s)
    ensures forall s :: s in truth ==> truth[s] == com[Ones(s)]
  {
    var n := |com| - 1;
    truth := map[];
    for i := 0 to |perms|
      invariant forall j :: 0 <= j < i ==> BitString(perms[j]) in truth
      invariant forall s :: s in truth ==> |s| == n && IsBitString(s) && truth[s] == com[Ones(s)]
    {
      var p := perms[i];
      PatternKey(n, i);
      ghost var before := truth;
      truth := truth[BitString(p) := com[Sum(p)]];
      forall j | 0 <= j < i + 1 ensures BitString(perms[j]) in truth {
        if j < i {
          assert BitString(perms[j]) in before;
        }
      }
    }
    forall s | |s| == n && IsBitString(s) ensures s in truth {
      AllBitStrings(n, s);
      var j :| 0 <= j < Pow2(n) && BitString(Pattern(n, j)) == s;
      assert BitString(perms[j]) in truth;
    }
  }

  // ----- truth_to_com -----

  /**
   * The loop of `truth_to_com` over the first k entries: `None` once it has
   * returned False; the `perms[i]` lookup past the patterns raises IndexError.
   */
  function ComOf(truth: seq<real>, perms: seq<seq<int>>, k: nat): Result<Option<Dict<int>>, string>
    requires k <= |truth|
  {
    if k == 0 then Ok(Some([]))
    else
      match ComOf(truth, perms, k - 1)
      case Err(m) => Err(m)
      case Ok(None) => Ok(None)
      case Ok(Some(c)) =>
        if k - 1 >= |perms| then Err("list index out of range")
        else
          var z := Sum(perms[k - 1]);
          if Find(c, z).None? || Find(c, z) == Some(truth[k - 1]) then Ok(Some(Put(c, z, truth[k - 1])))
          else Ok(None)
  }

  /** Entries with the same number of ones carry the same value, among the first k. */
  ghost predicate SymmetricUpTo(truth: seq<real>, perms: seq<seq<int>>, k: nat)
    requires k <= |truth| && k <= |perms|
  {
    forall i, j :: 0 <= i < k && 0 <= j < k && Sum(perms[i]) == Sum(perms[j]) ==> truth[i] == truth[j]
  }

  /** Every count seen among the first k patterns maps to the value of those entries, and no other count is present. */
  ghost predicate Tracks(truth: seq<real>, perms: seq<seq<int>>, k: nat, c: Dict<int>)
    requires k <= |truth| && k <= |perms|
  {
    (forall j :: 0 <= j < k ==> Find(c, Sum(perms[j])) == Some(truth[j])) &&
    (forall z :: Find(c, z).Some? ==> exists j :: 0 <= j < k && Sum(perms[j]) == z)
  }

  /**
   * Over patterns that cover the entries, the loop returns False exactly
   * when two entries with the same number of ones differ; otherwise each
   * count seen maps to the value of the entries with that count.
   */
  lemma {:induction false} ComOfSpec(truth: seq<real>, perms: seq<seq<int>>, k: nat)
    requires k <= |truth| && k <= |perms|
    ensures ComOf(truth, perms, k).Ok?
    ensures ComOf(truth, perms, k).value.Some? <==> SymmetricUpTo(truth, perms, k)
    ensures ComOf(truth, perms, k).value.Some? ==> Tracks(truth, perms, k, ComOf(truth, perms, k).value.value)
  {
    if k > 0 {
      ComOfSpec(truth, perms, k - 1);
      var prev := ComOf(truth, perms, k - 1).value;
      if prev.Some? {
        var c := prev.value;
        var z := Sum(perms[k - 1]);
        if Find(c, z).Some? && Find(c, z) != Some(truth[k - 1]) {
          ComClash(truth, perms, k, c);
        } else {
          ComKeep(truth, perms, k, c);
        }
      }
    }
  }

  /** A count already present with another value: the prefix is not symmetric. */
  lemma ComClash(truth: seq<real>, perms: seq<seq<int>>, k: nat, c: Dict<int>)
    requires 1 <= k <= |truth| && k <= |perms| && Tracks(truth, perms, k - 1, c)
    requires var z := Sum(perms[k - 1]); Find(c, z).Some? && Find(c, z) != Some(truth[k - 1])
    ensures !SymmetricUpTo(truth, perms, k)
  {
    var z := Sum(perms[k - 1]);
    var j :| 0 <= j < k - 1 && Sum(perms[j]) == z;
    assert truth[j] != truth[k - 1];
  }

  /** A count absent, or present with the same value: the prefix stays symmetric and the dict keeps track. */
  lemma ComKeep(truth: seq<real>, perms: seq<seq<int>>, k: nat, c: Dict<int>)
    requires 1 <= k <= |truth| && k <= |perms| && Tracks(truth, perms, k - 1, c)
    requires SymmetricUpTo(truth, perms, k - 1)
    requires var z := Sum(perms[k - 1]); Find(c, z).None? || Find(c, z) == Some(truth[k - 1])
    ensures SymmetricUpTo(truth, perms, k)
    ensures Tracks(truth, perms, k, Put(c, Sum(perms[k - 1]), truth[k - 1]))
  {
    var z := Sum(perms[k - 1]);
    var c' := Put(c, z, truth[k - 1]);
    forall z' | Find(c', z').Some? ensures exists j :: 0 <= j < k && Sum(perms[j]) == z' {
      if z' == z {
        assert Sum(perms[k - 1]) == z';
      } else {
        var j :| 0 <= j < k - 1 && Sum(perms[j]) == z';
        assert 0 <= j < k;
      }
    }
  }

  /** A dict whose t-th entry is count t with the value of the first pattern with t ones. */
  ghost predicate CountsInOrder(truth: seq<real>, c: Dict<int>)
  {
    forall t {:trigger c[t]} :: 0 <= t < |c| ==> 0 <= Pow2(t) - 1 < |truth| && c[t] == (t, truth[Pow2(t) - 1])
  }

  lemma {:induction false} FindInOrder(truth: seq<real>, c: Dict<int>, z: int)
    requires CountsInOrder(truth, c)
    ensures Find(c, z) == if 0 <= z < |c| then Some(c[z].1) else None
    decreases |c|
  {
    if c != [] {
      var init := c[..|c| - 1];
      forall t | 0 <= t < |init| ensures 0 <= Pow2(t) - 1 < |truth| && init[t] == (t, truth[Pow2(t) - 1]) {
        assert init[t] == c[t];
      }
      FindInOrder(truth, init, z);
      assert c == init + [c[|c| - 1]];
      FindAppend(init, c[|c| - 1], z);
    }
  }

  lemma {:induction false} PutPresent(c: Dict<int>, z: int, v: real)
    requires Find(c, z) == Some(v)
    ensures Put(c, z, v) == c
    decreases |c|
  {
    if c[0].0 != z {
      PutPresent(c[1..], z, v);
      assert c == [c[0]] + c[1..];
    }
  }

  /**
   * After k entries of a table of 2^n, the dict holds the counts 0..m-1 in
   * order, where 2^(m-1) - 1 < k <= 2^m - 1.
   */
  ghost predicate InOrder(truth: seq<real>, n: nat, k: nat, c: Dict<int>)
  {
    1 <= |c| <= n + 1 && Pow2(|c| - 1) - 1 < k <= Pow2(|c|) - 1 && CountsInOrder(truth, c)
  }

  /** Appending the next count, at the first pattern that has it, keeps the order. */
  lemma InOrderAppend(truth: seq<real>, n: nat, k: nat, c: Dict<int>)
    requires 1 <= k <= |truth| && InOrder(truth, n, k - 1, c) && k - 1 == Pow2(|c|) - 1 && |c| <= n
    ensures InOrder(truth, n, k, c + [(|c|, truth[k - 1])])
  {
    Pow2Increasing(|c|, |c| + 1);
    var c' := c + [(|c|, truth[k - 1])];
    forall t | 0 <= t < |c'| ensures 0 <= Pow2(t) - 1 < |truth| && c'[t] == (t, truth[Pow2(t) - 1]) {
      if t < |c| {
        assert c'[t] == c[t];
      }
    }
  }

  /** The k-th entry either adds the next count at the end (at index 2^m - 1) or repeats the value of a count already present. */
  lemma ComOrderStep(truth: seq<real>, n: nat, k: nat, c: Dict<int>)
    requires |truth| == Pow2(n) && 2 <= k <= Pow2(n) && InOrder(truth, n, k - 1, c)
    requires var z := Count(n, k - 1); Pow2(z) - 1 < |truth| && truth[k - 1] == truth[Pow2(z) - 1]
    ensures var z := Count(n, k - 1);
      (Find(c, z).None? || Find(c, z) == Some(truth[k - 1])) && InOrder(truth, n, k, Put(c, z, truth[k - 1]))
  {
    var z := Count(n, k - 1);
    FindInOrder(truth, c, z);
    if k - 1 == Pow2(|c|) - 1 {
      Pow2Increasing(n, |c|);
      assert |c| <= n;
      FirstOccurrence(n, |c|);
      assert Find(c, z).None?;
      InOrderAppend(truth, n, k, c);
    } else {
      InOrderRepeat(truth, n, k, c);
    }
  }

  /** An entry before the first pattern with the next count repeats a count already present, with its value. */
  lemma InOrderRepeat(truth: seq<real>, n: nat, k: nat, c: Dict<int>)
    requires |truth| == Pow2(n) && 2 <= k <= Pow2(n) && InOrder(truth, n, k - 1, c) && k - 1 != Pow2(|c|) - 1
    requires var z := Count(n, k - 1); Pow2(z) - 1 < |truth| && truth[k - 1] == truth[Pow2(z) - 1]
    ensures var z := Count(n, k - 1);
      Find(c, z) == Some(truth[k - 1]) && Put(c, z, truth[k - 1]) == c && InOrder(truth, n, k, c)
  {
    var z := Count(n, k - 1);
    if |c| <= n {
      FirstOccurrence(n, |c|);
    }
    assert 0 <= z < |c|;
    FindInOrder(truth, c, z);
    PutPresent(c, z, truth[k - 1]);
  }

  /** For a table of 2^n entries, each equal to the entry of the first pattern with as many ones, the dict after k entries is `InOrder`. */
  lemma {:induction false} ComOrder(truth: seq<real>, n: nat, k: nat)
    requires 1 <= k <= Pow2(n) && ByFirst(truth, n)
    ensures ComOf(truth, Product(n), k).Ok? && ComOf(truth, Product(n), k).value.Some?
    ensures InOrder(truth, n, k, ComOf(truth, Product(n), k).value.value)
  {
    var perms := Product(n);
    FirstOccurrence(n, 0);
    ProductCounts(n);
    assert Sum(perms[k - 1]) == Count(n, k - 1);
    if k == 1 {
      assert ComOf(truth, perms, 0) == Ok(Some([]));
    } else {
      ComOrder(truth, n, k - 1);
      var c := ComOf(truth, perms, k - 1).value.value;
      ComOrderStep(truth, n, k, c);
      ComStep(truth, perms, k, c);
    }
  }

  /** One turn of the loop, from a dict in which the current count is absent or has the current value. */
  lemma ComStep(truth: seq<real>, perms: seq<seq<int>>, k: nat, c: Dict<int>)
    requires 1 <= k <= |truth| && k <= |perms| && ComOf(truth, perms, k - 1) == Ok(Some(c))
    ensures var z := Sum(perms[k - 1]);
      Find(c, z).None? || Find(c, z) == Some(truth[k - 1]) ==> ComOf(truth, perms, k) == Ok(Some(Put(c, z, truth[k - 1])))
  {
  }

  /** `list(com.values())`. */
  function Values(c: Dict<int>): (v: seq<real>)
    ensures |v| == |c| && forall i :: 0 <= i < |c| ==> v[i] == c[i].1
  {
    seq(|c|, i requires 0 <= i < |c| => c[i].1)
  }

  /**
   * `truth_to_com(truth, output)`: `log2(0)` raises ValueError for an
   * empty table; a length that is not a power of two runs past the
   * patterns unless the function was found not to be commutative first.
   */
  function TruthToCom(truth: seq<real>, mode: Mode): Result<Table, string>
  {
    if |truth| == 0 then Err("math domain error")
    else
      match ComOf(truth, Product(Log2Floor(|truth|)), |truth|)
      case Err(m) => Err(m)
      case Ok(None) => Ok(NotCommutative)
      case Ok(Some(c)) => if mode.DictMode? then Ok(ByCount(c)) else Ok(Listed(Values(c)))
  }

  /** A full table is reported not commutative exactly when two patterns with the same number of ones have different values. */
  lemma TruthToComFalse(truth: seq<real>, n: nat, mode: Mode)
    requires |truth| == Pow2(n)
    ensures TruthToCom(truth, mode).Ok?
    ensures TruthToCom(truth, mode) == Ok(NotCommutative) <==>
      exists i, j :: 0 <= i < |truth| && 0 <= j < |truth| && Count(n, i) == Count(n, j) && truth[i] != truth[j]
  {
    Log2FloorPow2(n);
    ProductCounts(n);
    ComOfSpec(truth, Product(n), |truth|);
  }

  /** Once all 2^n entries are in, every count 0..n is. */
  lemma InOrderFull(truth: seq<real>, n: nat, c: Dict<int>)
    requires InOrder(truth, n, Pow2(n), c)
    ensures |c| == n + 1
  {
    Pow2Increasing(|c|, n);
  }

  /** A table of 2^n entries, each equal to the entry of the first pattern with as many ones. */
  ghost predicate ByFirst(truth: seq<real>, n: nat)
  {
    |truth| == Pow2(n) &&
    forall i :: 0 <= i < Pow2(n) ==> Pow2(Count(n, i)) - 1 < Pow2(n) && truth[i] == truth[Pow2(Count(n, i)) - 1]
  }

  lemma SymmetricByFirst(truth: seq<real>, n: nat)
    requires |truth| == Pow2(n)
    requires forall i, j :: 0 <= i < |truth| && 0 <= j < |truth| && Count(n, i) == Count(n, j) ==> truth[i] == truth[j]
    ensures ByFirst(truth, n)
  {
    forall i | 0 <= i < Pow2(n) ensures Pow2(Count(n, i)) - 1 < Pow2(n) && truth[i] == truth[Pow2(Count(n, i)) - 1] {
      FirstOccurrence(n, Count(n, i));
    }
  }

  /** The values of the first patterns with 0, 1, ..., n ones. */
  function FirstValues(truth: seq<real>, n: nat): (v: seq<real>)
    requires |truth| == Pow2(n)
    ensures |v| == n + 1
  {
    seq(n + 1, t requires 0 <= t <= n => Pow2Increasing(t, n); truth[Pow2(t) - 1])
  }

  /** The dict that such a table ends with: every count 0..n, each with the value of its first pattern. */
  lemma FullInOrder(truth: seq<real>, n: nat) returns (c: Dict<int>)
    requires ByFirst(truth, n)
    ensures TruthToCom(truth, ListMode) == Ok(Listed(Values(c)))
    ensures |c| == n + 1 && CountsInOrder(truth, c)
  {
    Log2FloorPow2(n);
    ComOrder(truth, n, Pow2(n));
    c := ComOf(truth, Product(n), Pow2(n)).value.value;
    InOrderFull(truth, n, c);
  }

  /** The list form of such a table holds the value for each count, in count order. */
  lemma TruthToComOrdered(truth: seq<real>, n: nat)
    requires ByFirst(truth, n)
    ensures TruthToCom(truth, ListMode) == Ok(Listed(FirstValues(truth, n)))
  {
    var c := FullInOrder(truth, n);
    InOrderValues(truth, n, c);
  }

  lemma InOrderValues(truth: seq<real>, n: nat, c: Dict<int>)
    requires |truth| == Pow2(n) && |c| == n + 1 && CountsInOrder(truth, c)
    ensures Values(c) == FirstValues(truth, n)
  {
    var v := FirstValues(truth, n);
    forall t | 0 <= t <= n ensures Values(c)[t] == v[t] {
      Pow2Increasing(t, n);
      assert c[t] == (t, truth[Pow2(t) - 1]);
    }
  }

  /** For a commutative table of 2^n entries the list form has n + 1 values, value k being that of the patterns with k ones. */
  lemma TruthToComValues(truth: seq<real>, n: nat, k: int)
    requires |truth| == Pow2(n) && 0 <= k <= n
    requires forall i, j :: 0 <= i < |truth| && 0 <= j < |truth| && Count(n, i) == Count(n, j) ==> truth[i] == truth[j]
    ensures TruthToCom(truth, ListMode).Ok? && TruthToCom(truth, ListMode).value.Listed?
    ensures |TruthToCom(truth, ListMode).value.values| == n + 1
    ensures forall i :: 0 <= i < |truth| && Count(n, i) == k ==> TruthToCom(truth, ListMode).value.values[k] == truth[i]
  {
    SymmetricByFirst(truth, n);
    TruthToComOrdered(truth, n);
    FirstOccurrence(n, k);
  }

  /** Converting a commutative table to a truth table and back gives it back. */
  lemma ComRoundTrip(com: seq<real>)
    requires |com| >= 1
    ensures TruthToCom(TruthList(com), ListMode) == Ok(Listed(com))
  {
    var n := |com| - 1;
    var t := TruthList(com);
    assert forall i :: 0 <= i < |t| ==> t[i] == com[Count(n, i)];
    TruthToComValues(t, n, 0);
    var r := TruthToCom(t, ListMode).value.values;
    forall k | 0 <= k <= n ensures r[k] == com[k] {
      FirstOccurrence(n, k);
      TruthToComValues(t, n, k);
      assert r[k] == t[Pow2(k) - 1];
    }
    assert r == com;
  }

  /** The loop of `truth_to_com`, with its early `return False`. */
  method TruthToComLoop(truth: seq<real>, mode: Mode) returns (r: Result<Table, string>)
    ensures r == TruthToCom(truth, mode)
  {
    if |truth| == 0 {
      return Err("math domain error");
    }
    var perms := Product(Log2Floor(|truth|));
    var com: Dict<int> := [];
    for i := 0 to |truth|
      invariant ComOf(truth, perms, i) == Ok(Some(com))
    {
      if i >= |perms| {
        ComOfStops(truth, perms, i + 1, |truth|, Err("list index out of range"));
        return Err("list index out of range");
      }
      var z := Sum(perms[i]);
      if Find(com, z).None? || Find(com, z) == Some(truth[i]) {
        com := Put(com, z, truth[i]);
      } else {
        ComOfStops(truth, perms, i + 1, |truth|, Ok(None));
        return Ok(NotCommutative);
      }
    }
    if mode.DictMode? {
      r := Ok(ByCount(com));
    } else {
      r := Ok(Listed(Values(com)));
    }
  }

  /** Once the loop has raised or returned False, later entries change nothing. */
  lemma {:induction false} ComOfStops(truth: seq<real>, perms: seq<seq<int>>, k: nat, m: nat, r: Result<Option<Dict<int>>, string>)
    requires k <= m <= |truth| && ComOf(truth, perms, k) == r && (r.Err? || r == Ok(None))
    ensures ComOf(truth, perms, m) == r
    decreases m - k
  {
    if k < m {
      ComOfStops(truth, perms, k + 1, m, r);
    }
  }

  // ----- func_to_truth -----

  /** `list(reversed(p))`. */
  function Reverse(p: seq<int>): (r: seq<int>)
    ensures |r| == |p| && forall i :: 0 <= i < |p| ==> r[i] == p[|p| - 1 - i]
  {
    seq(|p|, i requires 0 <= i < |p| => p[|p| - 1 - i])
  }

  /** What `func` yields on pattern `i` of `product`, read right to left: a value, or the exception it raises. */
  function Outcome(f: seq<int> -> Result<real, string>, n: nat, i: int): Result<real, string>
    requires 0 <= i < Pow2(n)
  {
    f(Reverse(Pattern(n, i)))
  }

  /** Pattern `i` is the first on which `func` raises, and it raises `e`. */
  predicate FirstRaise(f: seq<int> -> Result<real, string>, n: nat, i: int, e: string)
  {
    0 <= i < Pow2(n) && Outcome(f, n, i) == Err(e) && forall j :: 0 <= j < i ==> Outcome(f, n, j).Ok?
  }

  /**
   * `func_to_truth(func, n, output)`: the function applied to every pattern
   * read right to left, in `product` order; the first exception it raises
   * aborts the conversion. A negative `n` makes `product` raise ValueError,
   * and an output other than list or dict leaves `truth` unassigned.
   */
  method FuncToTruth(f: seq<int> -> Result<real, string>, n: int, mode: Mode) returns (r: Result<Table, string>)
    ensures n < 0 ==> r == Err("repeat argument cannot be negative")
    ensures n >= 0 && mode.OtherMode? ==> r == Err("local variable 'truth' referenced before assignment")
    ensures n >= 0 && !mode.OtherMode? ==> (r.Ok? <==> forall i :: 0 <= i < Pow2(n) ==> Outcome(f, n, i).Ok?)
    ensures n >= 0 && !mode.OtherMode? && r.Err? ==> exists i :: FirstRaise(f, n, i, r.error)
    ensures r.Ok? && mode.ListMode? ==> r.value.Listed? && |r.value.values| == Pow2(n)
    ensures n >= 0 && r.Ok? && mode.ListMode? ==>
      forall i :: 0 <= i < Pow2(n) ==> Outcome(f, n, i) == Ok(r.value.values[i])
    ensures r.Ok? && mode.DictMode? ==> r.value.Keyed?
    ensures r.Ok? && mode.DictMode? ==> forall s :: s in r.value.entries <==> |s| == n && IsBitString(s)
    ensures r.Ok? && mode.DictMode? ==> forall s :: s in r.value.entries ==> f(Reverse(ParseBits(s))) == Ok(r.value.entries[s])
  {
    if n < 0 {
      return Err("repeat argument cannot be negative");
    }
    var perms := Product(n);
    ProductPatterns(n);
    if mode.ListMode? {
      var truth: seq<real> := [];
      for i := 0 to |perms|
        invariant |truth| == i
        invariant forall j :: 0 <= j < i ==> Outcome(f, n, j) == Ok(truth[j])
      {
        var v := f(Reverse(perms[i]));
        if v.Err? {
          assert FirstRaise(f, n, i, v.error);
          return Err(v.error);
        }
        truth := truth + [v.value];
      }
      r := Ok(Listed(truth));
    } else if mode.DictMode? {
      var truth := KeyedByFunction(f, n, perms);
      if truth.Err? {
        return Err(truth.error);
      }
      r := Ok(Keyed(truth.value));
    } else {
      r := Err("local variable 'truth' referenced before assignment");
    }
  }

  /**
   * The dict branch of `func_to_truth`: `truth[''.join(map(str, i))] = func(list(reversed(i)))`
   * for every pattern `i`, until `func` raises.
   */
  method KeyedByFunction(f: seq<int> -> Result<real, string>, n: nat, perms: seq<seq<int>>)
    returns (r: Result<map<string, real>, string>)
    requires |perms| == Pow2(n) && forall i :: 0 <= i < |perms| ==> perms[i] == Pattern(n, i)
    ensures r.Ok? <==> forall i :: 0 <= i < Pow2(n) ==> Outcome(f, n, i).Ok?
    ensures r.Err? ==> exists i :: FirstRaise(f, n, i, r.error)
    ensures r.Ok? ==> forall s :: s in r.value <==> |s| == n && IsBitString(s)
    ensures r.Ok? ==> forall s :: s in r.value ==> f(Reverse(ParseBits(s))) == Ok(r.value[s])
  {
    var truth := map[];
    for i := 0 to |perms|
      invariant forall j :: 0 <= j < i ==> Outcome(f, n, j).Ok? && BitString(Pattern(n, j)) in truth
      invariant forall s :: s in truth ==> |s| == n && IsBitString(s) && f(Reverse(ParseBits(s))) == Ok(truth[s])
    {
      var p := perms[i];
      assert p == Pattern(n, i);
      var v := f(Reverse(p));
      if v.Err? {
        assert FirstRaise(f, n, i, v.error);
        return Err(v.error);
      }
      PatternCount(n, i);
      BitStringRoundTrip(p);
      truth := truth[BitString(p) := v.value];
    }
    forall s | |s| == n && IsBitString(s) ensures s in truth {
      AllBitStrings(n, s);
    }
    r := Ok(truth);
  }

  // ----- the boolean check of check_Hamiltonian -----

  /** The loop of `check_Hamiltonian` over a computed table: False at the first entry that is neither 0 nor 1. */
  method IsBoolean(truth: seq<real>) returns (b: bool)
    ensures b <==> forall i :: 0 <= i < |truth| ==> truth[i] == 0.0 || truth[i] == 1.0
  {
    for i := 0 to |truth|
      invariant forall j :: 0 <= j < i ==> truth[j] == 0.0 || truth[j] == 1.0
    {
      if !(truth[i] == 0.0 || truth[i] == 1.0) {
        return false;
      }
    }
    return true;
  }
}

=== FILE: workflow.dfy ===
/**
 * The dependency-graph task scheduler of quantum_launcher/workflow/workflow_manager.py.
 *
 * A `Task` is a deferred call whose dependencies are the `Task` and `SubTask`
 * objects among its arguments; a `SubTask` is a view of one element of its
 * owner's result; a `WorkflowManager` collects tasks in declaration order and
 * runs them in waves. The thread pool of the source is modelled sequentially:
 * a wave runs its ready tasks one at a time, in an order the model leaves open.
 */
module Workflow {
  import opened Wrappers

  /** The Python values that flow between tasks, reduced to what the scheduler inspects. */
  datatype Value = NoneV | IntV(i: int) | StrV(s: string) | TupleV(items: seq<Value>)

  /** Exceptions: the scheduler's own, Python's indexing errors, and whatever a callable raises. */
  datatype Exception =
    | RuntimeError(msg: string)
    | TypeError(msg: string)
    | IndexError(msg: string)
    | Raised(payload: Value)

  const CycleMessage := "Cycle or error in tasks."
  const IterationMessage := "Processing take too much iterations"

  /** A user callable: positional values and keyword values in, a value or an exception out. */
  type Callable = (seq<Value>, seq<(string, Value)>) -> Result<Value, Exception>

  /** An argument slot: a literal, a `Task`, or a `SubTask` (which is a `Task` subclass in the source). */
  datatype Arg = Lit(v: Value) | TaskRef(t: Task) | SubRef(s: SubTask)

  /** The task whose fields an argument slot reads: a `SubTask` reads its owner. */
  function Refs(a: Arg): set<Task>
  {
    match a
    case Lit(_) => {}
    case TaskRef(t) => {t}
    case SubRef(s) => {s.task}
  }

  function ArgRefs(args: seq<Arg>): set<Task>
  {
    set i, t | 0 <= i < |args| && t in Refs(args[i]) :: t
  }

  function Keys(kwargs: seq<(string, Arg)>): seq<string>
  {
    seq(|kwargs|, i requires 0 <= i < |kwargs| => kwargs[i].0)
  }

  function Values(kwargs: seq<(string, Arg)>): seq<Arg>
  {
    seq(|kwargs|, i requires 0 <= i < |kwargs| => kwargs[i].1)
  }

  /**
   * The dependencies found among some argument slots: every `Task` or `SubTask`
   * slot, in order, duplicates kept.
   */
  function ArgDeps(args: seq<Arg>): (deps: seq<Arg>)
    ensures forall i :: 0 <= i < |deps| ==> deps[i] in args && !deps[i].Lit?
    ensures forall i :: 0 <= i < |args| && !args[i].Lit? ==> args[i] in deps
    ensures |deps| <= |args|
  {
    if args == [] then []
    else (if args[0].Lit? then [] else [args[0]]) + ArgDeps(args[1..])
  }

  /** Filtering distributes over concatenation, so the order of the slots is kept. */
  lemma {:induction false} ArgDepsAppend(a: seq<Arg>, b: seq<Arg>)
    ensures ArgDeps(a + b) == ArgDeps(a) + ArgDeps(b)
  {
    if a == [] {
      assert a + b == b;
    } else {
      assert (a + b)[1..] == a[1..] + b;
      ArgDepsAppend(a[1..], b);
    }
  }

  /** Every non-literal slot occurs in the dependencies exactly as often as among the arguments. */
  lemma {:induction false} ArgDepsKeepsDuplicates(args: seq<Arg>, d: Arg)
    requires !d.Lit?
    ensures multiset(ArgDeps(args))[d] == multiset(args)[d]
  {
    if args != [] {
      assert args == [args[0]] + args[1..];
      ArgDepsKeepsDuplicates(args[1..], d);
    }
  }

  /** `v[i]` in Python: tuples and strings accept an index in [-len, len). */
  function PyIndex(v: Value, i: int): Result<Value, Exception>
  {
    match v
    case TupleV(items) =>
      if -|items| <= i < |items| then Ok(items[if i < 0 then |items| + i else i])
      else Err(IndexError("tuple index out of range"))
    case StrV(s) =>
      if -|s| <= i < |s| then Ok(StrV([s[if i < 0 then |s| + i else i]]))
      else Err(IndexError("string index out of range"))
    case NoneV => Err(TypeError("'NoneType' object is not subscriptable"))
    case IntV(_) => Err(TypeError("'int' object is not subscriptable"))
  }

  /** The value a slot is bound to when its task runs. */
  function BindArg(a: Arg): Result<Value, Exception>
    reads Refs(a)
  {
    match a
    case Lit(v) => Ok(v)
    case TaskRef(t) => Ok(t.result)
    case SubRef(s) => s.ReadResult()
  }

  /**
   * Binds the slots left to right; the first slot that fails to bind decides
   * the exception, as in the source's list comprehension.
   */
  function BindArgs(args: seq<Arg>): (r: Result<seq<Value>, Exception>)
    reads ArgRefs(args)
    ensures r.Ok? ==> |r.value| == |args|
    ensures r.Ok? ==> forall i :: 0 <= i < |args| ==> BindArg(args[i]) == Ok(r.value[i])
    ensures r.Err? ==> exists i :: 0 <= i < |args| && BindArg(args[i]) == Err(r.error) &&
                                   (forall j :: 0 <= j < i ==> BindArg(args[j]).Ok?)
    decreases |args|
  {
    if args == [] then Ok([])
    else
      assert Refs(args[0]) <= ArgRefs(args);
      assert ArgRefs(args[1..]) <= ArgRefs(args) by {
        forall t | t in ArgRefs(args[1..]) ensures t in ArgRefs(args) {
          var i :| 0 <= i < |args[1..]| && t in Refs(args[1..][i]);
          assert t in Refs(args[i + 1]);
        }
      }
      match BindArg(args[0])
      case Err(e) => Err(e)
      case Ok(v) =>
        match BindArgs(args[1..])
        case Err(e) =>
          assert forall j :: 1 <= j < |args| ==> args[j] == args[1..][j - 1];
          Err(e)
        case Ok(vs) => Ok([v] + vs)
  }

  /** Pairs keyword names with bound values. */
  function Zip(keys: seq<string>, vals: seq<Value>): seq<(string, Value)>
    requires |keys| == |vals|
  {
    seq(|keys|, i requires 0 <= i < |keys| => (keys[i], vals[i]))
  }

  /** `SubTask`: a view of element `index` of its owner's eventual result; it owns no storage. */
  class SubTask {
    const task: Task
    const index: int

    constructor (task: Task, index: int)
      ensures this.task == task && this.index == index
    {
      this.task := task;
      this.index := index;
    }

    /** `SubTask.done` mirrors the owner's flag. */
    predicate Done()
      reads task
    {
      task.done
    }

    /** `SubTask.result` is `owner.result[index]`, which fails unless the owner's result is indexable there. */
    function ReadResult(): Result<Value, Exception>
      reads task
    {
      PyIndex(task.result, index)
    }
  }

  /** `dep.done` for a dependency slot. */
  predicate ArgDone(a: Arg)
    reads Refs(a)
  {
    match a
    case Lit(_) => true
    case TaskRef(t) => t.done
    case SubRef(s) => s.Done()
  }

  /** `Task`: a deferred call with a write-once result behind a completion flag. */
  class Task {
    const func: Callable
    const args: seq<Arg>
    const kwargs: seq<(string, Arg)>
    const numOutput: Option<int>
    var done: bool
    var result: Value

    constructor (func: Callable, args: seq<Arg>, kwargs: seq<(string, Arg)>, numOutput: Option<int>)
      ensures this.func == func && this.args == args && this.kwargs == kwargs
      ensures this.numOutput == numOutput
      ensures !done && result == NoneV
    {
      this.func := func;
      this.args := args;
      this.kwargs := kwargs;
      this.numOutput := numOutput;
      done := false;
      result := NoneV;
    }

    /**
     * The dependency list: the `Task`/`SubTask` slots among the positional
     * arguments followed by those among the keyword values. It depends on
     * constant fields only, so it is fixed at construction.
     */
    function Dependencies(): seq<Arg>
    {
      ArgDeps(args) + ArgDeps(Values(kwargs))
    }

    /** The tasks whose fields this task reads: every dependency's owner. */
    function Owners(): set<Task>
    {
      ArgRefs(args) + ArgRefs(Values(kwargs))
    }

    /** `is_ready`: every dependency is done. */
    predicate IsReady()
      reads Owners()
    {
      DependencyRefs();
      forall i :: 0 <= i < |Dependencies()| ==> ArgDone(Dependencies()[i])
    }

    /** Every dependency reads only owners. */
    lemma DependencyRefs()
      ensures forall i :: 0 <= i < |Dependencies()| ==> Refs(Dependencies()[i]) <= Owners()
    {
      forall i | 0 <= i < |Dependencies()| ensures Refs(Dependencies()[i]) <= Owners() {
        DependencyRefsAt(i);
      }
    }

    lemma DependencyRefsAt(i: int)
      requires 0 <= i < |Dependencies()|
      ensures Refs(Dependencies()[i]) <= Owners()
    {
      var d := Dependencies()[i];
      var vals := Values(kwargs);
      if i < |ArgDeps(args)| {
        assert d in ArgDeps(args);
        var j :| 0 <= j < |args| && args[j] == d;
        assert forall t :: t in Refs(d) ==> t in Refs(args[j]);
      } else {
        assert d in ArgDeps(vals);
        var j :| 0 <= j < |vals| && vals[j] == d;
        assert forall t :: t in Refs(d) ==> t in Refs(vals[j]);
      }
    }

    /**
     * What running the task yields in the current state: the slots bound,
     * positional then keyword, and the callable applied to them.
     */
    function Call(): Result<Value, Exception>
      reads Owners()
    {
      match BindArgs(args)
      case Err(e) => Err(e)
      case Ok(pos) =>
        match BindArgs(Values(kwargs))
        case Err(e) => Err(e)
        case Ok(vals) => func(pos, Zip(Keys(kwargs), vals))
    }

    /**
     * `run`: binds the arguments, calls the callable and only then publishes
     * the result and sets `done`; if binding or the callable raises, nothing
     * changes and the exception propagates.
     */
    method Run() returns (outcome: Result<(), Exception>)
      modifies this
      ensures old(Call()).Ok? ==> outcome.Ok? && done && result == old(Call()).value
      ensures old(Call()).Err? ==>
        outcome == Err(old(Call()).error) && done == old(done) && result == old(result)
    {
      var bound := BindArgs(args);
      if bound.Err? {
        return Err(bound.error);
      }
      var boundKw := BindArgs(Values(kwargs));
      if boundKw.Err? {
        return Err(boundKw.error);
      }
      var value := func(bound.value, Zip(Keys(kwargs), boundKw.value));
      if value.Err? {
        return Err(value.error);
      }
      result := value.value;
      done := true;
      outcome := Ok(());
    }

    /**
     * `__iter__`: yields `num_output` sub-tasks with indices 0, 1, ...; a
     * `num_output` of `None` makes `range` raise a TypeError.
     */
    method Iter() returns (r: Result<seq<SubTask>, Exception>)
      ensures numOutput.None? ==>
        r == Err(TypeError("'NoneType' object cannot be interpreted as an integer"))
      ensures numOutput.Some? ==>
        r.Ok? && |r.value| == (if numOutput.value < 0 then 0 else numOutput.value)
      ensures r.Ok? ==> forall i :: 0 <= i < |r.value| ==>
        fresh(r.value[i]) && r.value[i].task == this && r.value[i].index == i &&
        r.value[i].Done() == done
    {
      if numOutput.None? {
        return Err(TypeError("'NoneType' object cannot be interpreted as an integer"));
      }
      var n := numOutput.value;
      var subs: seq<SubTask> := [];
      var i := 0;
      while i < n
        invariant 0 <= i && (n >= 0 ==> i <= n) && (n < 0 ==> i == 0)
        invariant |subs| == i
        invariant forall k :: 0 <= k < i ==>
          fresh(subs[k]) && subs[k].task == this && subs[k].index == k
      {
        var s := new SubTask(this, i);
        subs := subs + [s];
        i := i + 1;
      }
      r := Ok(subs);
    }
  }

  /** A task is ready exactly when every owner of its dependencies is done. */
  lemma ReadyIffOwnersDone(t: Task)
    ensures t.IsReady() <==> forall o :: o in t.Owners() ==> o.done
  {
    if t.IsReady() {
      forall o | o in t.Owners() ensures o.done {
        ReadyOwnerDone(t, o);
      }
    }
    if forall o :: o in t.Owners() ==> o.done {
      forall i | 0 <= i < |t.Dependencies()| ensures ArgDone(t.Dependencies()[i]) {
        t.DependencyRefsAt(i);
        assert t.Dependencies()[i] in t.Dependencies();
      }
    }
  }

  /** Every task read by a slot is read by one of the slots kept as dependencies. */
  lemma ArgDepsIndex(args: seq<Arg>, o: Task) returns (k: int)
    requires o in ArgRefs(args)
    ensures 0 <= k < |ArgDeps(args)| && o in Refs(ArgDeps(args)[k])
  {
    var j :| 0 <= j < |args| && o in Refs(args[j]);
    assert args[j] in ArgDeps(args);
    k :| 0 <= k < |ArgDeps(args)| && ArgDeps(args)[k] == args[j];
  }

  /** Every owner is read through some dependency. */
  lemma DependencyOf(t: Task, o: Task) returns (k: int)
    requires o in t.Owners()
    ensures 0 <= k < |t.Dependencies()| && o in Refs(t.Dependencies()[k])
  {
    var deps := t.Dependencies();
    if o in ArgRefs(t.args) {
      k := ArgDepsIndex(t.args, o);
      assert deps[k] == ArgDeps(t.args)[k];
    } else {
      var p := ArgDepsIndex(Values(t.kwargs), o);
      k := |ArgDeps(t.args)| + p;
      assert deps[k] == ArgDeps(Values(t.kwargs))[p];
    }
  }

  /** Every owner of a ready task is done. */
  lemma ReadyOwnerDone(t: Task, o: Task)
    requires o in t.Owners() && t.IsReady()
    ensures o.done
  {
    var k := DependencyOf(t, o);
    t.DependencyRefsAt(k);
    assert ArgDone(t.Dependencies()[k]);
  }

  /** Every owner of every task is an earlier entry of the list. */
  ghost predicate DeclaredInOrder(ts: seq<Task>)
  {
    forall i, o :: 0 <= i < |ts| && o in ts[i].Owners() ==> o in ts[..i]
  }

  /**
   * Tasks declared in order form an acyclic graph: in any non-empty group of
   * them some task has no owner inside the group.
   */
  lemma DeclaredInOrderIsAcyclic(ts: seq<Task>, group: set<Task>)
    requires DeclaredInOrder(ts)
    requires group != {} && forall t :: t in group ==> t in ts
    ensures exists t :: t in group && t.Owners() !! group
  {
    var t :| t in group;
    var i :| 0 <= i < |ts| && ts[i] == t;
    SourceBelow(ts, group, i);
  }

  lemma {:induction false} SourceBelow(ts: seq<Task>, group: set<Task>, i: int)
    requires DeclaredInOrder(ts)
    requires 0 <= i < |ts| && ts[i] in group
    ensures exists t :: t in group && t.Owners() !! group
    decreases i
  {
    if !(ts[i].Owners() !! group) {
      var o :| o in ts[i].Owners() && o in group;
      assert o in ts[..i];
      var j :| 0 <= j < i && ts[..i][j] == o;
      SourceBelow(ts, group, j);
    }
  }

  /** Objects a predicate over the whole task list may read. */
  ghost function Footprint(ts: seq<Task>): set<object>
  {
    (set t | t in ts :: t as object) + (set t, o | t in ts && o in t.Owners() :: o as object)
  }

  /**
   * The published state of a task is consistent: a done task's dependencies
   * are done and its result is what its callable returns on their results.
   */
  ghost predicate Coherent(t: Task)
    reads t, t.Owners()
  {
    t.done ==> t.IsReady() && t.Call() == Ok(t.result)
  }

  /**
   * A non-empty group of pending tasks, each waiting on a pending task that is
   * either in the group (a cycle) or in `outside`, a set of pending tasks the
   * scheduler never runs (tasks of another manager).
   */
  ghost predicate Blocked(group: set<Task>, outside: set<Task>)
    reads group, outside
  {
    group != {} &&
    (forall o :: o in outside ==> !o.done) &&
    forall t :: t in group ==> !t.done && !(t.Owners() !! (group + outside))
  }

  /** No task of a blocked group is ready. */
  lemma BlockedNotReady(group: set<Task>, outside: set<Task>, t: Task)
    requires Blocked(group, outside) && t in group
    ensures !t.IsReady()
  {
    var o :| o in t.Owners() && o in group + outside;
    PendingOwnerBlocks(t, o);
  }

  /**
   * No task of a wave of ready pending tasks depends on another task of the
   * same wave (nor on itself), so running the wave in any order is the same.
   */
  lemma WaveIndependent(wave: set<Task>)
    requires forall t :: t in wave ==> t.IsReady() && !t.done
    ensures forall t :: t in wave ==> t.Owners() !! wave
  {
    forall t | t in wave ensures t.Owners() !! wave {
      ReadyIffOwnersDone(t);
    }
  }

  /** A task with a pending owner is not ready. */
  lemma PendingOwnerBlocks(t: Task, o: Task)
    requires o in t.Owners() && !o.done
    ensures !t.IsReady()
  {
    ReadyIffOwnersDone(t);
  }

  /** Every task some task of `rs` depends on. */
  function OwnersOf(rs: set<Task>): set<Task>
  {
    set t, o | t in rs && o in t.Owners() :: o
  }

  /** Every task some allocated task depends on is allocated. */
  lemma OwnersOfAllocated(rs: set<Task>)
    ensures forall o :: o in OwnersOf(rs) ==> allocated(o)
  {
    forall o | o in OwnersOf(rs) ensures allocated(o) {
      var t :| t in rs && o in t.Owners();
      var args := if o in ArgRefs(t.args) then t.args else Values(t.kwargs);
      var i :| 0 <= i < |args| && o in Refs(args[i]);
      assert allocated(args[i]);
    }
  }

  /** The owners of tasks of `rs` that are done. */
  ghost function DoneOwners(rs: set<Task>): set<Task>
    reads OwnersOf(rs)
  {
    set o | o in OwnersOf(rs) && o.done
  }

  /** Every task of a sequence of waves. */
  ghost function Ran(waves: seq<set<Task>>): set<Task>
  {
    if waves == [] then {} else Ran(waves[..|waves| - 1]) + waves[|waves| - 1]
  }

  /** The tasks of `left` whose owners are all in `done`. */
  ghost function NextWave(left: set<Task>, done: set<Task>): set<Task>
  {
    set t | t in left && t.Owners() <= done
  }

  /**
   * The first `n` waves of a drain of `remaining0` when the tasks of `done0`
   * were done before it: each wave is exactly the tasks no earlier wave ran
   * whose owners were done before the drain or ran in an earlier wave.
   */
  ghost function Drain(remaining0: set<Task>, done0: set<Task>, n: nat): (waves: seq<set<Task>>)
    ensures |waves| == n
  {
    if n == 0 then []
    else
      var earlier := Drain(remaining0, done0, n - 1);
      earlier + [NextWave(remaining0 - Ran(earlier), Ran(earlier) + done0)]
  }

  /** A drain of `k` waves is the start of every longer drain. */
  lemma {:induction false} DrainPrefix(remaining0: set<Task>, done0: set<Task>, k: nat, n: nat)
    requires k <= n
    ensures Drain(remaining0, done0, n)[..k] == Drain(remaining0, done0, k)
  {
    if k < n {
      DrainPrefix(remaining0, done0, k, n - 1);
      assert Drain(remaining0, done0, n)[..n - 1] == Drain(remaining0, done0, n - 1);
      assert Drain(remaining0, done0, n)[..k] == Drain(remaining0, done0, n)[..n - 1][..k];
    }
  }

  /** Each wave of a sequence is among the tasks it ran. */
  lemma {:induction false} RanHas(waves: seq<set<Task>>, i: nat)
    requires i < |waves|
    ensures waves[i] <= Ran(waves)
  {
    if i < |waves| - 1 {
      RanHas(waves[..|waves| - 1], i);
    }
  }

  /** Every task of a sequence of waves with one more wave. */
  lemma RanSnoc(waves: seq<set<Task>>, w: set<Task>)
    ensures Ran(waves + [w]) == Ran(waves) + w
  {
    assert (waves + [w])[..|waves|] == waves;
  }

  /** A drain only runs tasks of `remaining0`, each in one wave at most. */
  lemma {:induction false} DrainWithin(remaining0: set<Task>, done0: set<Task>, n: nat)
    ensures Ran(Drain(remaining0, done0, n)) <= remaining0
    ensures n > 0 ==> Drain(remaining0, done0, n)[n - 1] !! Ran(Drain(remaining0, done0, n - 1))
  {
    if n > 0 {
      var earlier := Drain(remaining0, done0, n - 1);
      DrainWithin(remaining0, done0, n - 1);
      RanSnoc(earlier, Drain(remaining0, done0, n)[n - 1]);
    }
  }

  /**
   * A drain whose first `n` waves are all non-empty has run at least `n` tasks;
   * after as many non-empty waves as there are tasks it has run them all.
   */
  lemma DrainCovers(remaining0: set<Task>, done0: set<Task>, n: nat)
    requires {} !in Drain(remaining0, done0, n)
    ensures n <= |Ran(Drain(remaining0, done0, n))|
    ensures n == |remaining0| ==> Ran(Drain(remaining0, done0, n)) == remaining0
  {
    DrainGrows(remaining0, done0, n);
    DrainWithin(remaining0, done0, n);
    if n == |remaining0| {
      FullSubset(Ran(Drain(remaining0, done0, n)), remaining0);
    }
  }

  lemma {:induction false} DrainGrows(remaining0: set<Task>, done0: set<Task>, n: nat)
    requires {} !in Drain(remaining0, done0, n)
    ensures n <= |Ran(Drain(remaining0, done0, n))|
  {
    if n > 0 {
      var waves := Drain(remaining0, done0, n);
      var earlier := Drain(remaining0, done0, n - 1);
      assert waves == earlier + [waves[n - 1]];
      assert {} !in earlier by {
        forall i | 0 <= i < n - 1 ensures earlier[i] != {} {
          assert earlier[i] == waves[i];
        }
      }
      DrainGrows(remaining0, done0, n - 1);
      DrainWithin(remaining0, done0, n);
      RanSnoc(earlier, waves[n - 1]);
      assert waves[n - 1] != {};
    }
  }

  /** A subset as large as its superset is the whole superset. */
  lemma FullSubset<T>(a: set<T>, b: set<T>)
    requires a <= b && |b| <= |a|
    ensures a == b
  {
    assert |b - a| == |b| - |a|;
  }

  /**
   * A group of tasks of `remaining0`, each waiting on a task of the group or
   * of `outside`, where neither those tasks nor the tasks of `outside` (which
   * the drain never runs) were done before, never enters a wave.
   */
  lemma {:induction false} BlockedNeverRuns(remaining0: set<Task>, done0: set<Task>, n: nat,
                                            group: set<Task>, outside: set<Task>)
    requires group <= remaining0 && outside !! remaining0 && (group + outside) !! done0
    requires forall t :: t in group ==> !(t.Owners() !! (group + outside))
    ensures group !! Ran(Drain(remaining0, done0, n))
  {
    if n > 0 {
      var earlier := Drain(remaining0, done0, n - 1);
      var w := Drain(remaining0, done0, n)[n - 1];
      BlockedNeverRuns(remaining0, done0, n - 1, group, outside);
      DrainWithin(remaining0, done0, n - 1);
      RanSnoc(earlier, w);
      forall t | t in group ensures t !in w {
        var o :| o in t.Owners() && o in group + outside;
        assert o !in Ran(earlier) + done0;
      }
    }
  }

  /** The tasks a drain of `remaining0` reads: those tasks and their owners. */
  function Scope(remaining0: set<Task>): set<Task>
  {
    remaining0 + OwnersOf(remaining0)
  }

  /** The flag and the result of each task of `s`. */
  ghost function Snapshot(s: set<Task>): (m: map<Task, (bool, Value)>)
    reads s
    ensures m.Keys == s
  {
    map t | t in s :: (t.done, t.result)
  }

  /**
   * Against the snapshot `before` taken when a drain began: every task of
   * `completed` is done, and every task no wave of `started` ran is as it was.
   */
  ghost predicate Drained(before: map<Task, (bool, Value)>, completed: set<Task>, started: set<Task>)
    reads before.Keys
  {
    completed <= started <= before.Keys &&
    forall t :: t in before ==>
      (t in completed ==> t.done) && (t !in started ==> (t.done, t.result) == before[t])
  }

  /** Done owners before a drain are the owners the snapshot records as done. */
  lemma SnapshotDone(remaining0: set<Task>)
    ensures forall o :: o in OwnersOf(remaining0) ==>
      (o in DoneOwners(remaining0) <==> Snapshot(Scope(remaining0))[o].0)
  {
  }

  /** During a drain, an owner is done exactly when it ran or was done before. */
  lemma DrainedFlags(remaining0: set<Task>, before: map<Task, (bool, Value)>, done0: set<Task>, ran: set<Task>)
    requires before.Keys == Scope(remaining0) && Drained(before, ran, ran)
    requires forall o :: o in OwnersOf(remaining0) ==> (o in done0 <==> before[o].0)
    ensures forall o :: o in OwnersOf(remaining0) ==> (o.done <==> o in ran + done0)
  {
    forall o | o in OwnersOf(remaining0) ensures o.done <==> o in ran + done0 {
      assert o in before;
    }
  }

  /**
   * During a drain, the ready tasks among those no wave has run yet form the
   * drain's next wave.
   */
  lemma DrainNext(remaining0: set<Task>, before: map<Task, (bool, Value)>, done0: set<Task>, k: nat, ready: set<Task>)
    requires before.Keys == Scope(remaining0)
    requires forall o :: o in OwnersOf(remaining0) ==> (o in done0 <==> before[o].0)
    requires Drained(before, Ran(Drain(remaining0, done0, k)), Ran(Drain(remaining0, done0, k)))
    requires forall t :: t in ready <==> t in remaining0 - Ran(Drain(remaining0, done0, k)) && t.IsReady()
    ensures Drain(remaining0, done0, k + 1) == Drain(remaining0, done0, k) + [ready]
  {
    var ran := Ran(Drain(remaining0, done0, k));
    DrainedFlags(remaining0, before, done0, ran);
    ReadyIsNextWave(remaining0, remaining0 - ran, ran + done0);
    assert ready == (set t | t in remaining0 - ran && t.IsReady());
  }

  /**
   * When the done flags of the owners of `remaining0` are described by `done`,
   * the ready tasks of any part of `remaining0` are its next wave.
   */
  lemma ReadyIsNextWave(remaining0: set<Task>, left: set<Task>, done: set<Task>)
    requires left <= remaining0
    requires forall o :: o in OwnersOf(remaining0) ==> (o.done <==> o in done)
    ensures (set t | t in left && t.IsReady()) == NextWave(left, done)
  {
    forall t | t in left ensures t.IsReady() <==> t.Owners() <= done {
      ReadyIffOwnersDone(t);
      forall o | o in t.Owners() ensures o in OwnersOf(remaining0) {
      }
    }
  }

  /** `WorkflowManager`: the tasks declared so far, in declaration order. */
  class WorkflowManager {
    var tasks: seq<Task>

    constructor ()
      ensures tasks == []
    {
      tasks := [];
    }

    /** The registered tasks, as the set `run` drains. */
    function TaskSet(): set<Task>
      reads this
    {
      set t | t in tasks
    }

    ghost predicate AllPending()
      reads this, tasks
    {
      forall t :: t in tasks ==> !t.done
    }

    ghost predicate AllCoherent()
      reads this, Footprint(tasks)
    {
      forall t :: t in tasks ==> Coherent(t)
    }

    /**
     * The state the scheduler keeps while it drains `remaining`: the
     * remaining tasks are exactly the pending ones, and every done task is
     * coherent.
     */
    ghost predicate Good(remaining: set<Task>)
      reads this, Footprint(tasks)
    {
      (forall t :: t in remaining ==> t in tasks) &&
      (forall t :: t in tasks ==> (t in remaining <==> !t.done)) &&
      AllCoherent()
    }

    /**
     * `task`: builds one task and appends it at the end of the list, changing
     * nothing else. A task whose argument tasks are all registered already
     * keeps the list declared in order.
     */
    method NewTask(func: Callable, args: seq<Arg>, kwargs: seq<(string, Arg)>, numOutput: Option<int>)
      returns (t: Task)
      modifies this
      ensures fresh(t) && tasks == old(tasks) + [t]
      ensures t.func == func && t.args == args && t.kwargs == kwargs && t.numOutput == numOutput
      ensures !t.done && t.result == NoneV
      ensures old(DeclaredInOrder(tasks)) && (forall o :: o in t.Owners() ==> o in old(tasks)) ==>
        DeclaredInOrder(tasks)
      ensures old(AllPending()) ==> AllPending()
    {
      t := new Task(func, args, kwargs, numOutput);
      tasks := tasks + [t];
      assert tasks[..|tasks| - 1] == old(tasks);
      assert forall i :: 0 <= i < |old(tasks)| ==> tasks[..i] == old(tasks)[..i];
    }

    /**
     * `run`: drains every registered task. `waves` records the waves started,
     * each exactly the ready tasks among those not run yet; every wave but
     * the last completed, and a task no wave started is untouched. On success
     * every task is done. Starting from tasks not run before, every task ends
     * coherent, and an exception is either the exception a ready task of the
     * last wave raised while running or the cycle error, raised when pending
     * tasks remain and none is ready; the cycle error cannot happen when every
     * task was declared after its dependencies. `RunBlocked` states what a
     * blocked group of registered tasks does.
     */
    method Run() returns (r: Result<(), Exception>, ghost waves: seq<set<Task>>)
      modifies TaskSet()
      ensures waves == Drain(TaskSet(), old(DoneOwners(TaskSet())), |waves|) && {} !in waves
      ensures forall t :: t in tasks && t !in Ran(waves) ==> t.done == old(t.done) && t.result == old(t.result)
      ensures waves != [] ==> forall t :: t in Ran(waves[..|waves| - 1]) ==> t.done
      ensures r.Ok? ==> Ran(waves) == TaskSet() && forall t :: t in tasks ==> t.done
      ensures old(AllPending()) ==>
        AllCoherent() &&
        (r.Err? ==>
          Stalled(r.error) ||
          (waves != [] && exists t :: t in waves[|waves| - 1] && !t.done && t.IsReady() && t.Call() == Err(r.error)))
      ensures old(AllPending() && DeclaredInOrder(tasks)) ==>
        (r.Err? ==> exists t :: t in tasks && !t.done && t.IsReady() && t.Call() == Err(r.error))
    {
      var remaining := TaskSet();
      ghost var stuck, before;
      r, stuck, waves, before := ProcessTasks(remaining, 0);
      DrainTrace(remaining, r, stuck, waves, before);
      if old(AllPending()) {
        PendingGood();
        if stuck != {} {
          StuckStalled(r.error, stuck);
        } else if r.Err? {
          assert waves[|waves| - 1] <= Ran(waves);
        }
      }
    }

    /**
     * After a drain of `remaining0`, against the state it began in: a task no
     * wave started is untouched and every wave but the last completed (all of
     * them on success).
     */
    twostate lemma DrainTrace(remaining0: set<Task>, new r: Result<(), Exception>, new stuck: set<Task>,
                              new waves: seq<set<Task>>, new before: map<Task, (bool, Value)>)
      requires before == old(Snapshot(Scope(remaining0)))
      requires Finished(remaining0, old(DoneOwners(remaining0)), before, old(Good(remaining0)),
                        old(DeclaredInOrder(tasks)), r, stuck, waves)
      ensures forall t :: t in remaining0 && t !in Ran(waves) ==> t.done == old(t.done) && t.result == old(t.result)
      ensures waves != [] ==> forall t :: t in Ran(waves[..|waves| - 1]) ==> t.done
      ensures r.Ok? ==> forall t :: t in Ran(waves) ==> t.done
    {
    }

    /** A manager whose tasks are all pending is in the scheduler's state for all of them. */
    twostate lemma PendingGood()
      requires old(AllPending())
      ensures old(Good(TaskSet()))
    {
    }

    /** Pending tasks that are left with none of them ready raise the cycle error. */
    lemma StuckStalled(e: Exception, stuck: set<Task>)
      requires e == RuntimeError(CycleMessage) && stuck != {}
      requires forall t :: t in stuck ==> t in tasks && !t.done && !t.IsReady()
      requires forall t :: t in tasks && !t.done ==> t in stuck
      ensures Stalled(e)
    {
    }

    /** The cycle error, with pending tasks left and none of them ready. */
    ghost predicate Stalled(e: Exception)
      reads this, Footprint(tasks)
    {
      e == RuntimeError(CycleMessage) &&
      (exists t :: t in tasks && !t.done) &&
      forall t :: t in tasks && !t.done ==> !t.IsReady()
    }

    /**
     * `_process_tasks`: at most `maxIterations` waves (0 plays Python's `None`
     * and means one per remaining task). `waves` records the waves started:
     * each is exactly the remaining tasks that are ready, and it is removed
     * once it has run. Against `before`, the done flags and results of the
     * tasks when the drain began, every wave but the last completed and a task
     * no wave started is untouched. An empty wave with tasks left raises the
     * cycle error (`stuck` names the tasks left); the exception of a failing
     * wave propagates before any later wave starts, so that wave is the last.
     */
    method ProcessTasks(remaining0: set<Task>, maxIterations: nat)
      returns (r: Result<(), Exception>, ghost stuck: set<Task>, ghost waves: seq<set<Task>>,
               ghost before: map<Task, (bool, Value)>)
      modifies remaining0
      ensures before == old(Snapshot(Scope(remaining0)))
      ensures |waves| <= if maxIterations != 0 then maxIterations else |remaining0|
      ensures maxIterations == 0 && r.Ok? ==> Ran(waves) == remaining0
      ensures Finished(remaining0, old(DoneOwners(remaining0)), before, old(Good(remaining0)),
                       old(DeclaredInOrder(tasks)), r, stuck, waves)
    {
      var remaining := remaining0;
      ghost var good := Good(remaining0);
      ghost var ordered := DeclaredInOrder(tasks);
      ghost var done0 := DoneOwners(remaining0);
      before := Snapshot(Scope(remaining0));
      DrainingStart(remaining0);
      var maxIt := if maxIterations != 0 then maxIterations else |remaining|;
      var iteration := 0;
      stuck := {};
      waves := [];
      for k := 0 to maxIt
        invariant iteration == k == |waves|
        invariant Draining(remaining0, done0, before, good, remaining, waves)
      {
        var ready, failure := RunReady(remaining, remaining0, before, done0, good, ordered, waves);
        if ready == {} {
          stuck := remaining;
          r := if remaining != {} then Err(RuntimeError(CycleMessage)) else Ok(());
          return;
        }
        waves := waves + [ready];
        if failure.Some? {
          r := Err(failure.value);
          return;
        }
        remaining := remaining - ready;
        if iteration > maxIt {
          // unreachable: `iteration` counts the waves already run, fewer than `maxIt`
          assert false;
        }
        iteration := iteration + 1;
      }
      DrainingFinished(remaining0, done0, before, good, ordered, remaining, waves);
      r := Ok(());
    }

    /**
     * A drain of `remaining0` under way: `waves` are its first waves and
     * `remaining` the tasks they have not run; against `before`, the snapshot
     * taken when it began (with `done0` the owners then done), the waves have
     * completed and nothing else changed. With `good`, the scheduler's state is
     * kept.
     */
    ghost predicate Draining(remaining0: set<Task>, done0: set<Task>, before: map<Task, (bool, Value)>, good: bool,
                             remaining: set<Task>, waves: seq<set<Task>>)
      reads this, Footprint(tasks), before.Keys
    {
      before.Keys == Scope(remaining0) &&
      (forall o :: o in OwnersOf(remaining0) ==> (o in done0 <==> before[o].0)) &&
      waves == Drain(remaining0, done0, |waves|) && {} !in waves &&
      Ran(waves) <= remaining0 && remaining == remaining0 - Ran(waves) &&
      Drained(before, Ran(waves), Ran(waves)) &&
      (good ==> Good(remaining))
    }

    /**
     * A drain of `remaining0` that ended with `r` after the waves `waves`;
     * `good` and `ordered` say whether the scheduler's state was kept and
     * the tasks declared in order when it began.
     */
    ghost predicate Finished(remaining0: set<Task>, done0: set<Task>, before: map<Task, (bool, Value)>, good: bool,
                             ordered: bool, r: Result<(), Exception>, stuck: set<Task>, waves: seq<set<Task>>)
      reads this, Footprint(tasks), before.Keys, Scope(remaining0)
    {
      waves == Drain(remaining0, done0, |waves|) && {} !in waves && Ran(waves) <= remaining0 &&
      (r.Ok? || stuck != {} ==> Drained(before, Ran(waves), Ran(waves))) &&
      (r.Err? && stuck == {} ==> waves != [] && Drained(before, Ran(waves[..|waves| - 1]), Ran(waves))) &&
      (stuck != {} ==>
        r == Err(RuntimeError(CycleMessage)) && stuck == remaining0 - Ran(waves) &&
        forall t :: t in stuck ==> !t.IsReady()) &&
      (good ==>
        AllCoherent() &&
        (r.Err? ==>
          (stuck != {} && forall t :: t in tasks && !t.done ==> t in stuck) ||
          (waves != [] && exists t :: t in waves[|waves| - 1] && !t.done && t.IsReady() && t.Call() == Err(r.error)))) &&
      (good && ordered ==> stuck == {})
    }

    /** A drain begins with no wave and every task of `remaining0` remaining. */
    lemma DrainingStart(remaining0: set<Task>)
      ensures Draining(remaining0, DoneOwners(remaining0), Snapshot(Scope(remaining0)), Good(remaining0), remaining0, [])
    {
      SnapshotDone(remaining0);
    }

    /**
     * A drain that ran out of iterations ends successfully; after one wave per
     * task of `remaining0` it has run them all.
     */
    lemma DrainingFinished(remaining0: set<Task>, done0: set<Task>, before: map<Task, (bool, Value)>, good: bool,
                           ordered: bool, remaining: set<Task>, waves: seq<set<Task>>)
      requires Draining(remaining0, done0, before, good, remaining, waves)
      ensures Finished(remaining0, done0, before, good, ordered, Ok(()), {}, waves)
      ensures |waves| == |remaining0| ==> Ran(waves) == remaining0
    {
      if |waves| == |remaining0| {
        DrainCovers(remaining0, done0, |waves|);
      }
    }

    /**
     * The body of the loop of `_process_tasks`: filters the remaining tasks
     * that are ready and, if there are any, runs them as one wave. The ready
     * tasks are the drain's next wave; with none, the drain ends (with the
     * cycle error when tasks remain), a failed wave ends it with the wave's
     * exception, and a completed wave extends it.
     */
    method RunReady(remaining: set<Task>, ghost remaining0: set<Task>, ghost before: map<Task, (bool, Value)>,
                    ghost done0: set<Task>, ghost good: bool, ghost ordered: bool, ghost waves: seq<set<Task>>)
      returns (ready: set<Task>, failure: Option<Exception>)
      requires Draining(remaining0, done0, before, good, remaining, waves)
      requires ordered ==> DeclaredInOrder(tasks)
      modifies remaining
      ensures ready == {} ==>
        failure.None? && (remaining == {} ==> Ran(waves) == remaining0) &&
        Finished(remaining0, done0, before, good, ordered,
                 if remaining != {} then Err(RuntimeError(CycleMessage)) else Ok(()), remaining, waves)
      ensures ready != {} && failure.Some? ==>
        Finished(remaining0, done0, before, good, ordered, Err(failure.value), {}, waves + [ready])
      ensures ready != {} && failure.None? ==>
        Draining(remaining0, done0, before, good, remaining - ready, waves + [ready])
    {
      ready := set t | t in remaining && t.IsReady();
      ghost var ran := Ran(waves);
      if ready == {} {
        forall t | t in remaining ensures !t.IsReady() {
          assert t !in ready;
        }
        if good && ordered && remaining != {} {
          ReadyExists(remaining);
        }
        if remaining == {} {
          forall t | t in remaining0 ensures t in ran {
            assert t !in remaining;
          }
        }
        failure := None;
        return;
      }
      DrainNext(remaining0, before, done0, |waves|, ready);
      if good {
        assert WaveReady(ready);
      }
      OwnersOfAllocated(remaining0);
      failure := RunWave(ready);
      forall t | t in before && t !in ready ensures t.done == old(t.done) && t.result == old(t.result) {
        assert t in before.Keys - ready;
      }
      RanSnoc(waves, ready);
      assert (waves + [ready])[..|waves|] == waves;
      if good && failure.None? {
        forall t | t in tasks && t !in ready ensures t.done == old(t.done) {
          assert t in remaining - ready || t !in remaining;
        }
      }
    }

    /** For tasks declared in order, some remaining task is ready. */
    lemma ReadyExists(remaining: set<Task>)
      requires Good(remaining) && DeclaredInOrder(tasks) && remaining != {}
      ensures exists t :: t in remaining && t.IsReady()
    {
      DeclaredInOrderIsAcyclic(tasks, remaining);
      var t :| t in remaining && t.Owners() !! remaining;
      forall o | o in t.Owners() ensures o.done {
        var i :| 0 <= i < |tasks| && tasks[i] == t;
        assert o in tasks[..i];
      }
      ReadyIffOwnersDone(t);
    }

    ghost predicate WaveReady(wave: set<Task>)
      reads this, Footprint(tasks), wave, set t, o | t in wave && o in t.Owners() :: o
    {
      (forall t :: t in wave ==> t in tasks && t.IsReady() && !t.done) && AllCoherent()
    }

    /**
     * One wave: runs every task of `wave` once, one at a time in some order,
     * and reports the first failure. A successful wave leaves all its tasks
     * done; a wave of ready pending tasks keeps every task coherent, and its
     * failure is the exception of one of its tasks.
     */
    method RunWave(wave: set<Task>) returns (failure: Option<Exception>)
      modifies wave
      ensures failure.None? ==> forall t :: t in wave ==> t.done
      ensures forall t :: t in wave && old(t.done) ==> t.done
      ensures old(WaveReady(wave)) ==>
        AllCoherent() &&
        (forall t :: t in wave ==> t.IsReady()) &&
        (failure.Some? ==> exists t :: t in wave && !t.done && t.Call() == Err(failure.value))
    {
      ghost var cond := WaveReady(wave);
      if cond {
        WaveIndependent(wave);
        forall u | u in tasks && u.done ensures u.Owners() !! wave {
          ReadyIffOwnersDone(u);
        }
      }
      failure := RunEach(wave, cond);
      if cond {
        WaveSettled(wave);
      }
    }

    /**
     * After a wave that touched nothing but its own tasks, each of which either
     * stored what its callable returned before the wave or failed, the wave's
     * tasks are still ready and every task is coherent.
     */
    twostate lemma WaveSettled(wave: set<Task>)
      requires old(WaveReady(wave))
      requires unchanged(this) && unchanged(Footprint(tasks) - wave)
      requires forall t :: t in wave ==> t.Owners() !! wave
      requires forall t :: t in tasks && old(t.done) ==> t.Owners() !! wave
      requires forall t :: t in wave ==> Settled(t, old(t.Call()))
      ensures AllCoherent()
      ensures forall t :: t in wave ==> t.IsReady() && old(t.Call()) == t.Call()
    {
      forall t | t in wave ensures t.IsReady() && old(t.Call()) == t.Call() {
        assert t.Owners() <= Footprint(tasks) - wave;
        ReadyFramed(t);
        CallFramed(t);
      }
      forall u | u in tasks ensures Coherent(u) {
        if u !in wave && u.done {
          assert {u} + u.Owners() <= Footprint(tasks) - wave;
          CoherentFramed(u);
        }
      }
    }
  }

  /** After its turn in a wave, a task published what its call yielded, or the call failed and it stayed pending. */
  ghost predicate Settled(t: Task, call: Result<Value, Exception>)
    reads t
  {
    (t.done && call == Ok(t.result)) || (!t.done && call.Err?)
  }

  /**
   * The loop of one wave: runs every task of `wave` once, in an order left
   * open, and keeps the first failure. With `cond`, the tasks are pending and
   * independent of each other, so each yields what it yielded when the wave
   * started.
   */
  method RunEach(wave: set<Task>, ghost cond: bool) returns (failure: Option<Exception>)
    requires cond ==> forall t :: t in wave ==> !t.done && t.Owners() !! wave
    modifies wave
    ensures failure.None? ==> forall t :: t in wave ==> t.done
    ensures forall t :: t in wave && old(t.done) ==> t.done
    ensures cond ==> forall t :: t in wave ==> Settled(t, old(t.Call()))
    ensures cond && failure.Some? ==> exists t :: t in wave && !t.done && old(t.Call()) == Err(failure.value)
  {
    var todo := wave;
    failure := None;
    ghost var culprit: Task? := null;
    while todo != {}
      invariant todo <= wave
      invariant failure.None? ==> forall t :: t in wave && t !in todo ==> t.done
      invariant forall t :: t in wave && old(t.done) ==> t.done
      invariant cond ==> forall t :: t in todo ==> !t.done
      invariant cond ==> forall t :: t in wave && t !in todo ==> Settled(t, old(t.Call()))
      invariant cond && failure.Some? ==>
        culprit != null && culprit in wave && culprit !in todo && !culprit.done &&
        old(culprit.Call()) == Err(failure.value)
      decreases todo
    {
      var t :| t in todo;
      if cond {
        CallFramed(t);
      }
      failure, culprit := RunTurn(t, cond, old(t.Call()), failure, culprit);
      todo := todo - {t};
    }
  }

  /**
   * One turn of the `RunEach` loop: runs `t` and keeps the first failure.
   * With `cond`, `t` is pending and yields `call`.
   */
  method RunTurn(t: Task, ghost cond: bool, ghost call: Result<Value, Exception>,
                 failure0: Option<Exception>, ghost culprit0: Task?)
    returns (failure: Option<Exception>, ghost culprit: Task?)
    requires cond ==> !t.done && t.Call() == call
    modifies t
    ensures failure.None? ==> failure0.None? && t.done
    ensures failure0.Some? ==> failure == failure0 && culprit == culprit0
    ensures failure0.None? && failure.Some? ==> culprit == t && (cond ==> !t.done && call == Err(failure.value))
    ensures old(t.done) ==> t.done
    ensures cond ==> Settled(t, call)
  {
    var outcome := t.Run();
    failure, culprit := failure0, culprit0;
    if outcome.Err? && failure.None? {
      failure := Some(outcome.error);
      culprit := t;
    }
  }

  /** Readiness depends only on the owners' fields. */
  twostate lemma ReadyFramed(u: Task)
    requires unchanged(u.Owners())
    ensures old(u.IsReady()) == u.IsReady()
  {
  }

  /** What a task's callable yields depends only on the owners' fields. */
  twostate lemma CallFramed(u: Task)
    requires unchanged(u.Owners())
    ensures old(u.Call()) == u.Call()
  {
  }

  twostate lemma CoherentFramed(u: Task)
    requires old(Coherent(u)) && unchanged(u) && unchanged(u.Owners())
    ensures Coherent(u)
  {
  }

  /**
   * `run` on a manager with a blocked group of its tasks, waiting on each
   * other (a cycle) or on pending tasks of another manager: no wave reaches
   * the group, so the run fails and the group stays blocked.
   */
  method RunBlocked(wm: WorkflowManager, group: set<Task>, outside: set<Task>) returns (r: Result<(), Exception>)
    requires (forall t :: t in group ==> t in wm.tasks) && (forall o :: o in outside ==> o !in wm.tasks)
    requires Blocked(group, outside)
    modifies wm.TaskSet()
    ensures r.Err? && Blocked(group, outside)
  {
    ghost var done0 := DoneOwners(wm.TaskSet());
    ghost var waves;
    r, waves := wm.Run();
    BlockedNeverRuns(wm.TaskSet(), done0, |waves|, group, outside);
  }
}

=== FILE: workflow_scenarios.dfy ===
/**
 * Small workflows in the style of tests/workflow/, run through the model of
 * the scheduler: a linear chain, a three-stage chain, tuple unpacking through sub-tasks, a failing
 * task, a failure that stops the waves after it, and a dependency on a task
 * that no manager run reaches.
 */
module WorkflowScenarios {
  import opened Wrappers
  import opened Workflow

  /** `task1`: no arguments, returns 10. */
  function Ten(pos: seq<Value>, kw: seq<(string, Value)>): Result<Value, Exception>
  {
    if pos == [] && kw == [] then Ok(IntV(10))
    else Err(TypeError("task1() takes 0 positional arguments"))
  }

  /** `task2`: one argument, returns it times three (Python's `*` on an int). */
  function Triple(pos: seq<Value>, kw: seq<(string, Value)>): Result<Value, Exception>
  {
    if |pos| == 1 && kw == [] && pos[0].IntV? then Ok(IntV(3 * pos[0].i))
    else Err(TypeError("task2() expects one int"))
  }

  /** Returns the pair (4, 5), to be unpacked into two sub-tasks. */
  function FourFive(pos: seq<Value>, kw: seq<(string, Value)>): Result<Value, Exception>
  {
    if pos == [] && kw == [] then Ok(TupleV([IntV(4), IntV(5)]))
    else Err(TypeError("pair() takes 0 positional arguments"))
  }

  /** Adds two ints. */
  function Add(pos: seq<Value>, kw: seq<(string, Value)>): Result<Value, Exception>
  {
    if |pos| == 2 && kw == [] && pos[0].IntV? && pos[1].IntV? then Ok(IntV(pos[0].i + pos[1].i))
    else Err(TypeError("add() expects two ints"))
  }

  /** Always raises. */
  function Boom(pos: seq<Value>, kw: seq<(string, Value)>): Result<Value, Exception>
  {
    Err(Raised(StrV("boom")))
  }

  lemma ArgRefsOfOne(a: Arg)
    ensures ArgRefs([a]) == Refs(a)
  {
    forall t | t in Refs(a) ensures t in ArgRefs([a]) {
      assert t in Refs([a][0]);
    }
  }

  lemma ArgRefsOfTwo(a: Arg, b: Arg)
    ensures ArgRefs([a, b]) == Refs(a) + Refs(b)
  {
    forall t | t in Refs(a) + Refs(b) ensures t in ArgRefs([a, b]) {
      if t in Refs(a) {
        assert t in Refs([a, b][0]);
      } else {
        assert t in Refs([a, b][1]);
      }
    }
  }

  /** A task without keyword arguments whose slots all bind calls its callable on the bound values. */
  lemma CallOfBound(t: Task, vals: seq<Value>)
    requires t.kwargs == [] && |vals| == |t.args|
    requires forall i :: 0 <= i < |t.args| ==> BindArg(t.args[i]) == Ok(vals[i])
    ensures t.Call() == t.func(vals, [])
  {
    var b := BindArgs(t.args);
    assert b.value == vals;
    assert Values(t.kwargs) == [] && Keys(t.kwargs) == [];
    assert BindArgs(Values(t.kwargs)) == Ok([]);
    assert Zip([], []) == [];
  }

  /** test_simple_linear: `task2(task1())` through the manager yields 30. */
  method SimpleLinear() returns (r: Result<(), Exception>, v: Value)
    ensures r.Ok?
    ensures v == IntV(30)
  {
    var wm := new WorkflowManager();
    assert DeclaredInOrder(wm.tasks);
    var data := wm.NewTask(Ten, [], [], None);
    assert data.Owners() == {};
    var result := wm.NewTask(Triple, [TaskRef(data)], [], None);
    assert result.Owners() == {data} by {
      ArgRefsOfOne(TaskRef(data));
    }
    assert wm.tasks == [data, result];
    ghost var waves;
    r, waves := wm.Run();
    LinearCalls(data, result);
    assert wm.tasks == [data, result];
    assert Coherent(data);
    forall t | t in wm.tasks && t.IsReady() ensures t.Call().Ok? {
    }
    assert result in wm.tasks && data in wm.tasks;
    assert data.done && result.done;
    v := result.result;
  }

  /** What the two tasks of the linear workflow compute, given the first one's published result. */
  lemma LinearCalls(data: Task, result: Task)
    requires data.func == Ten && data.args == [] && data.kwargs == []
    requires result.func == Triple && result.args == [TaskRef(data)] && result.kwargs == []
    requires result.Owners() == {data}
    ensures data.Call() == Ok(IntV(10))
    ensures data.done && Coherent(data) ==> result.Call() == Ok(IntV(30))
    ensures result.IsReady() ==> data.done
  {
    CallOfBound(data, []);
    ReadyIffOwnersDone(result);
    if data.done && Coherent(data) {
      CallOfBound(result, [IntV(10)]);
      assert Triple([IntV(10)], []) == Ok(IntV(30));
    }
  }

  /** A three-stage chain, each stage tripling the previous result from 10: the last stage yields 90. */
  method ThreeStage() returns (r: Result<(), Exception>, v: Value)
    ensures r.Ok? && v == IntV(90)
  {
    var wm := new WorkflowManager();
    assert DeclaredInOrder(wm.tasks);
    var data := wm.NewTask(Ten, [], [], None);
    assert data.Owners() == {};
    var mid := wm.NewTask(Triple, [TaskRef(data)], [], None);
    assert mid.Owners() == {data} by {
      ArgRefsOfOne(TaskRef(data));
    }
    var last := wm.NewTask(Triple, [TaskRef(mid)], [], None);
    assert last.Owners() == {mid} by {
      ArgRefsOfOne(TaskRef(mid));
    }
    assert wm.tasks == [data, mid, last];
    ghost var waves;
    r, waves := wm.Run();
    assert wm.tasks == [data, mid, last];
    assert Coherent(data) && Coherent(mid) && Coherent(last);
    ChainRuns(r, data, mid, last);
    v := last.result;
  }

  /** After `run` on the three-stage chain, every stage is done and the last one holds 90. */
  lemma ChainRuns(r: Result<(), Exception>, data: Task, mid: Task, last: Task)
    requires data.func == Ten && data.args == [] && data.kwargs == []
    requires mid.func == Triple && mid.args == [TaskRef(data)] && mid.kwargs == [] && mid.Owners() == {data}
    requires last.func == Triple && last.args == [TaskRef(mid)] && last.kwargs == [] && last.Owners() == {mid}
    requires Coherent(data) && Coherent(mid) && Coherent(last)
    requires r.Ok? ==> data.done && mid.done && last.done
    requires r.Err? ==> exists t :: t in [data, mid, last] && !t.done && t.IsReady() && t.Call() == Err(r.error)
    ensures r.Ok? && last.done && last.result == IntV(90)
  {
    LinearCalls(data, mid);
    TripleCall(mid, last, 30);
    forall t | t in [data, mid, last] && t.IsReady() ensures t.Call().Ok? {
    }
  }

  /** A tripling stage whose one dependency published `IntV(x)` computes `IntV(3 * x)`. */
  lemma TripleCall(prev: Task, t: Task, x: int)
    requires t.func == Triple && t.args == [TaskRef(prev)] && t.kwargs == []
    requires t.Owners() == {prev}
    ensures prev.done && prev.result == IntV(x) ==> t.Call() == Ok(IntV(3 * x))
    ensures t.IsReady() ==> prev.done
  {
    ReadyIffOwnersDone(t);
    if prev.done && prev.result == IntV(x) {
      CallOfBound(t, [IntV(x)]);
    }
  }

  /** `a, b = wm.task(pair, num_output=2)` then `add(a, b)`: the sub-tasks pick 4 and 5. */
  method Unpacking() returns (r: Result<(), Exception>, v: Value)
    ensures r.Ok? && v == IntV(9)
  {
    var wm := new WorkflowManager();
    assert DeclaredInOrder(wm.tasks);
    var pair := wm.NewTask(FourFive, [], [], Some(2));
    assert pair.Owners() == {};
    var parts := pair.Iter();
    var a := parts.value[0];
    var b := parts.value[1];
    var sum := wm.NewTask(Add, [SubRef(a), SubRef(b)], [], None);
    assert sum.Owners() == {pair} by {
      ArgRefsOfTwo(SubRef(a), SubRef(b));
    }
    assert wm.tasks == [pair, sum];
    ghost var waves;
    r, waves := wm.Run();
    UnpackingCalls(pair, sum, a, b);
    assert wm.tasks == [pair, sum];
    assert sum in wm.tasks && pair in wm.tasks;
    assert pair.done && sum.done;
    v := sum.result;
  }

  /** What the two tasks of the unpacking workflow compute, given the pair's published result. */
  lemma UnpackingCalls(pair: Task, sum: Task, a: SubTask, b: SubTask)
    requires pair.func == FourFive && pair.args == [] && pair.kwargs == []
    requires sum.func == Add && sum.args == [SubRef(a), SubRef(b)] && sum.kwargs == []
    requires a.task == pair && a.index == 0 && b.task == pair && b.index == 1
    requires sum.Owners() == {pair}
    ensures pair.Call() == Ok(TupleV([IntV(4), IntV(5)]))
    ensures pair.done && Coherent(pair) ==> sum.Call() == Ok(IntV(9))
    ensures sum.IsReady() ==> pair.done
  {
    CallOfBound(pair, []);
    ReadyIffOwnersDone(sum);
    if pair.done && Coherent(pair) {
      assert BindArg(sum.args[0]) == Ok(IntV(4));
      assert BindArg(sum.args[1]) == Ok(IntV(5));
      CallOfBound(sum, [IntV(4), IntV(5)]);
      assert Add([IntV(4), IntV(5)], []) == Ok(IntV(9));
    }
  }

  /** A raising task: its exception propagates and its dependent never runs. */
  method Failing() returns (r: Result<(), Exception>, dependentDone: bool)
    ensures r == Err(Raised(StrV("boom"))) && !dependentDone
  {
    var wm := new WorkflowManager();
    assert DeclaredInOrder(wm.tasks);
    var bad := wm.NewTask(Boom, [], [], None);
    assert bad.Owners() == {};
    var next := wm.NewTask(Triple, [TaskRef(bad)], [], None);
    assert next.Owners() == {bad} by {
      ArgRefsOfOne(TaskRef(bad));
    }
    assert wm.tasks == [bad, next];
    ghost var waves;
    r, waves := wm.Run();
    assert Coherent(bad);
    CallOfBound(bad, []);
    ReadyIffOwnersDone(next);
    dependentDone := next.done;
  }

  /**
   * A raising task and an independent task share the first wave; a task that
   * depends on the independent one never starts, because the run stops after
   * the wave that failed.
   */
  method FailureStopsLaterWaves() returns (r: Result<(), Exception>, laterDone: bool)
    ensures r == Err(Raised(StrV("boom"))) && !laterDone
  {
    var wm := new WorkflowManager();
    assert DeclaredInOrder(wm.tasks);
    var bad := wm.NewTask(Boom, [], [], None);
    assert bad.Owners() == {};
    var fine := wm.NewTask(Ten, [], [], None);
    assert fine.Owners() == {};
    var later := wm.NewTask(Triple, [TaskRef(fine)], [], None);
    assert later.Owners() == {fine} by {
      ArgRefsOfOne(TaskRef(fine));
    }
    assert wm.tasks == [bad, fine, later];
    assert wm.TaskSet() == {bad, fine, later};
    assert DoneOwners({bad, fine, later}) == {};
    ghost var waves;
    r, waves := wm.Run();
    CallOfBound(bad, []);
    LinearCalls(fine, later);
    assert wm.tasks == [bad, fine, later];
    assert !bad.done by {
      assert bad in wm.tasks;
    }
    FirstWave(bad, fine, later, waves);
    assert later !in Ran(waves);
    assert !later.done by {
      assert later in wm.tasks;
    }
    assert r.Err?;
    FailureCulprit(bad, fine, later, r.error);
    laterDone := later.done;
  }

  /** Of the three tasks, only the raising one can be the ready pending task whose call failed. */
  lemma FailureCulprit(bad: Task, fine: Task, later: Task, e: Exception)
    requires bad.Call() == Err(Raised(StrV("boom"))) && fine.Call() == Ok(IntV(10))
    requires fine.done && Coherent(fine) ==> later.Call() == Ok(IntV(30))
    requires later.IsReady() ==> fine.done
    requires Coherent(fine)
    requires exists t :: t in [bad, fine, later] && !t.done && t.IsReady() && t.Call() == Err(e)
    ensures e == Raised(StrV("boom"))
  {
  }

  /**
   * The first wave of the three-task workflow holds the raising task and the
   * independent one; the dependent task is in no wave before the second.
   */
  lemma FirstWave(bad: Task, fine: Task, later: Task, waves: seq<set<Task>>)
    requires bad.Owners() == {} && fine.Owners() == {} && later.Owners() == {fine}
    requires bad != later && fine != later
    requires waves == Drain({bad, fine, later}, {}, |waves|)
    ensures |waves| >= 2 ==> bad in Ran(waves[..|waves| - 1])
    ensures |waves| <= 1 ==> later !in Ran(waves)
  {
    var all := {bad, fine, later};
    if waves != [] {
      DrainPrefix(all, {}, 1, |waves|);
      assert Drain(all, {}, 1) == [NextWave(all - Ran([]), Ran([]) + {})];
      assert later !in NextWave(all, {});
      assert bad in NextWave(all, {});
      assert waves[0] == NextWave(all, {}) by {
        assert waves[..1][0] == waves[0];
      }
      if |waves| == 1 {
        assert Ran(waves) == Ran(waves[..0]) + waves[0];
      } else {
        RanHas(waves[..|waves| - 1], 0);
      }
    }
  }

  /** A task waiting on a task of another manager: the run stops with the cycle error. */
  method ForeignDependency() returns (r: Result<(), Exception>)
    ensures r == Err(RuntimeError(CycleMessage))
  {
    var other := new WorkflowManager();
    var foreign := other.NewTask(Ten, [], [], None);
    var wm := new WorkflowManager();
    var waiting := wm.NewTask(Triple, [TaskRef(foreign)], [], None);
    assert waiting.Owners() == {foreign} by {
      ArgRefsOfOne(TaskRef(foreign));
    }
    assert wm.tasks == [waiting];
    r := RunWaiting(wm, waiting, foreign);
  }

  /** Runs a manager whose only task waits on a pending task of another manager. */
  method RunWaiting(wm: WorkflowManager, waiting: Task, foreign: Task) returns (r: Result<(), Exception>)
    requires wm.tasks == [waiting] && waiting.Owners() == {foreign} && waiting != foreign
    requires !waiting.done && !foreign.done
    modifies wm.TaskSet()
    ensures r == Err(RuntimeError(CycleMessage))
  {
    assert wm.TaskSet() == {waiting};
    assert DoneOwners({waiting}) == {};
    ghost var waves;
    r, waves := wm.Run();
    WaitingNeverRuns(waiting, foreign, waves);
    assert !waiting.done by {
      assert waiting in wm.tasks && waiting !in Ran(waves);
    }
    assert !waiting.IsReady() by {
      ReadyIffOwnersDone(waiting);
    }
  }

  /** A task waiting on a task outside the drain is in none of its waves. */
  lemma WaitingNeverRuns(waiting: Task, foreign: Task, waves: seq<set<Task>>)
    requires waiting.Owners() == {foreign} && waiting != foreign
    requires waves == Drain({waiting}, {}, |waves|)
    ensures waiting !in Ran(waves)
  {
    BlockedNeverRuns({waiting}, {}, |waves|, {waiting}, {foreign});
  }
}

=== FILE: wrappers.dfy ===
/** Failure-compatible wrappers shared by every module of the model. */
module Wrappers {

  /** A value that may be absent: Python's `None` or a present value. */
  datatype Option<+T> = None | Some(value: T)

  /** The outcome of an operation that returns a value or raises. */
  datatype Result<+T, +E> = Ok(value: T) | Err(error: E)
}
